=== FILE: README.md ===
# DersTakip ledger and lesson helpers in Dafny

DersTakip is a single-page app that private music tutors use. It keeps, per
institution (a school or a private practice), the students with their
wallet balance, the lessons, a local cash box with its transaction list,
and a shared "global safe". Money from every institution's cash box can be
moved into the global safe.

This project models the app's money flows and their list and scheduling
helpers as pure functions over immutable records, and proves what each
screen promises:

- what the finance screen collects and pays out, and that it balances;
- what the global safe records, and the totals it shows;
- how a lesson is completed and paid for;
- how lessons are planned in weekly series;
- how the institution context reads and writes the active institution;
- how students are searched, listed, added, edited and deleted;
- the resources list;
- the monthly statistics.

Modelling conventions:

- A date is a day number and a time is minutes after midnight. So "one week
  later" is `+ 7`, and the order of `date + ' ' + time` is the order of
  `date * 1440 + time`.
- Amounts are unbounded integers. The app's numbers are JavaScript doubles;
  what that changes is listed under "Left out".
- `parseInt(x, 10)` is modelled as ECMA-262 defines it. Leading white space
  and a sign are skipped, then the longest run of decimal digits is read.
  The result is `None` when there are no digits, which stands for `NaN`.
- A React state setter is a function from the old state to the new one. The
  clock, random ids and `Date.now()` are parameters: the `Stamp` record, and
  `id` arguments. The schedule screen reads `Date.now()` once per planned
  lesson, so its clock is a function `clock` from the round number to the reading.

Source choices:

- `src/App.jsx` passes `handleTransferToGlobalSafe`,
  `handleResetGlobalSafe` and `handleWithdrawFromGlobalSafe` to the
  institution selector, but never defines them. The versions modelled are
  the ones in `src/App_NEW.jsx`.
- `src/pages/Resources.jsx` takes `resources` and `setResources` from the
  institution context, and that context provides neither. The resource
  operations are therefore modelled as functions on a list of resources.
- `src/main.jsx` mounts `src/App.jsx`. Its students tab renders `<Students>`
  without the `students` list (`src/App.jsx:676`), so the filter at
  `src/pages/Students.jsx:9` throws there. `src/App_NEW.jsx:204` passes the
  list but renders none of the detail screens. `StudentSearch` follows the
  `src/App_NEW.jsx` wiring. `StudentRecords` models the `src/App.jsx` handlers
  that the students screen leads to, as they would run once that screen
  renders.
- The second wallet-load dialog (`src/App.jsx:364-464`) renders only when the
  active tab is 'add-balance-modal'. No tab of `src/components/layout/AppLayout.jsx`
  (lines 7-12) has that id, so `StudentRecords.WalletLoadOverlay` models code
  the app never reaches.
- `src/pages/Stats.jsx` and `src/pages/Resources.jsx` are not routed by
  `src/App.jsx` (imports at lines 12-19, tabs at lines 673-690). `Stats` and
  `Resources` model the screens as written.
- Every other module follows `src/App.jsx` and the pages and context it
  renders, except `GlobalSafe`, which follows `src/App_NEW.jsx` as said above.

Modules:

- `Common`: option and result types, filter, map, sum, find, and the lemmas about them.
- `Sorting`: a stable insertion sort by key. It is a permutation and its output is sorted.
- `Amounts`: `parseInt`, `parseAmount` and `getInitials`.
- `Domain`: the records (student, lesson, transaction, institution, safe, resource) and the crediting of one student.
- `Finance`: the finance screen.
- `GlobalSafe`: transfer, reset and withdraw.
- `SafeSummary`: the global-safe screen's totals and its breakdown by institution.
- `Dashboard`: today's lessons, the next lesson, attendance, cancellation and completion.
- `Navigation`: the screen stack.
- `StudentRecords`: wallet loads, adding, editing and deleting students, and lesson history.
- `Schedule`: adding lessons.
- `InstitutionContext`: the shared state and its setters.
- `Stats`: monthly revenue and the debtor list.
- `Resources`: the resources screen.
- `StudentSearch`: the student search box.

## Model

| member | source | states |
|---|---|---|
| Amounts.ParseAmount | src/lib/utils.js:14-20 | A number is returned exactly when `parseInt` reads one and it is positive, and that number is returned. |
| Amounts.ParseAmountRoundTrip | src/lib/utils.js:14-20 | Any accepted amount is positive, and it is read back from its own decimal text. |
| Amounts.ParseIntDecimal | src/lib/utils.js:15 | `parseInt` of the decimal writing of `n` is `n`. |
| Amounts.ParseInt | src/lib/utils.js:15 | `parseInt`: blank text is `NaN`, text starting with a digit gives a number not below 0, and a negative number comes only from a leading '-'. |
| Amounts.Decimal | src/pages/Resources.jsx:229 | A number is written as a non-empty run of digits. |
| Amounts.DecimalValue | src/lib/utils.js:15 | The digits written for a number read back as that number. |
| Amounts.ParseIntDigitRun | src/lib/utils.js:15 | `parseInt` reads a leading run of digits and ignores whatever follows the run. |
| Amounts.TrimStart | src/lib/utils.js:15 | Only leading white space is dropped, and the rest starts with a non-space. |
| Amounts.DigitPrefix | src/lib/utils.js:15 | The longest prefix made of digits only. |
| Amounts.ParseAmountAcceptsFifty | src/lib/utils.js:14-20 | "50" gives 50. |
| Amounts.ParseAmountRejectsZero | src/lib/utils.js:16-18 | "0" is refused. |
| Amounts.ParseAmountRejectsNegative | src/lib/utils.js:16-18 | "-5" is refused. |
| Amounts.ParseAmountRejectsNonNumeric | src/lib/utils.js:16-18 | "abc" and the empty text are refused, as `NaN`. |
| Amounts.ParseAmountReadsLeadingDigits | src/lib/utils.js:14-20 | A positive run of digits followed by anything that does not start with a digit, such as "kg" or ".9", is read as the run alone. |
| Amounts.ParseAmountSkipsSpaceAndSign | src/lib/utils.js:15 | " +8" gives 8. |
| Amounts.SplitOnSpace | src/lib/utils.js:53 | `split(' ')`: at least one piece, and no piece contains a space. |
| Amounts.SplitJoinRoundTrip | src/lib/utils.js:53 | Joining the pieces with single spaces gives the name back. |
| Amounts.HeadsOfSplit | src/lib/utils.js:53-55 | The first letters of the pieces are the letters that start a word. An empty piece adds nothing. |
| Amounts.Heads | src/lib/utils.js:54-55 | At most one letter per piece, and exactly one per piece when no piece is empty. |
| Amounts.WordStarts | src/lib/utils.js:53-55 | The letters that start a word: no space, each from the name, at most as many as the name has characters, and the first letter of a name that starts with one. |
| Amounts.UpperAscii | src/lib/utils.js:57 | `toUpperCase` letter by letter, keeping the length. |
| Amounts.Initials | src/lib/utils.js:51-58 | An empty name gives "". The result has at most two letters: the first two word-start letters, upper-cased. |
| Amounts.InitialsOfTwoWords | src/lib/utils.js:51-58 | For any name whose first two space-free words are followed by anything, the initials are the upper-cased first letters of those two words. |
| Amounts.InitialsSkipLeadingSpaces | src/lib/utils.js:51-58 | "  can" gives "C", because the empty pieces add no letter. |
| Domain.DebtOf | src/pages/Finance.jsx:17 | A student's debt is never negative, and it is positive exactly when the balance is below zero. |
| Domain.CreditStudent | src/App.jsx:235 | Adding to one id's balance leaves every other student as they were. |
| Domain.CreditStudentTotal | src/App.jsx:235 | The sum of balances grows by the amount once for every student with that id. |
| Domain.FindStudent | src/App.jsx:192 | `find` by id: None exactly when no student has the id. Otherwise the first student with that id. |
| Domain.FindStudentAt | src/App.jsx:192 | A record whose id no earlier record carries is the one the lookup finds. |
| Domain.PostsOneKeepsGap | src/pages/Finance.jsx:98-138 | Changing the cash by an amount and prepending a transaction of that amount keeps cash minus the ledger sum unchanged. |
| Finance.TotalReceivables | src/pages/Finance.jsx:17 | The total owed is never negative. |
| Finance.TotalEarnings | src/pages/Finance.jsx:19 | The total earnings are never below the cash, and equal it exactly when nobody owes anything. |
| Finance.ReceivablesAreDebts | src/pages/Finance.jsx:17 | Summing the absolute balances of the debtors equals summing every student's debt. |
| Finance.ReceivablesZeroIff | src/pages/Finance.jsx:17 | Nothing is owed exactly when no student's balance is negative. |
| Finance.HandleCollectAll | src/pages/Finance.jsx:21-27 | The collect-all dialog opens unless no student is a debtor. |
| Finance.ClearDebts | src/pages/Finance.jsx:34 | Debtors go to balance 0 and every other student is unchanged. |
| Finance.ClearDebtsTotal | src/pages/Finance.jsx:29-40 | Clearing raises the sum of balances by exactly the total debt. |
| Finance.ConfirmCollection | src/pages/Finance.jsx:29-45 | The cash rises by everything owed. Afterwards nobody owes anything and total earnings are unchanged. Only the cash and the debtors' balances change; every other field of the institution is kept. |
| Finance.ConfirmCollectionNothingOwed | src/pages/Finance.jsx:29-45 | With no debtor, collecting changes nothing. |
| Finance.ConfirmCollectionConserves | src/pages/Finance.jsx:29-45 | The sum of balances minus cash is unchanged. |
| Finance.FinalizePayment | src/pages/Finance.jsx:61-86 | Without a payee or an amount nothing happens. Otherwise the payee is credited, the cash rises, and one collection is recorded. Nothing else in the institution changes. |
| Finance.FinalizePaymentTotals | src/pages/Finance.jsx:61-86 | The sum of balances rises by the amount once for every student with the payee's id. |
| Finance.CeilDiv | src/pages/Finance.jsx:235 | `Math.ceil(a / b)` for either sign of b: the least integer not below a/b. |
| Finance.CeilDivExceeds | src/pages/Finance.jsx:235 | ceil(a/b) > k exactly when a > k*b, for b > 0. |
| Finance.LessonCount | src/pages/Finance.jsx:235 | 0 without a fee. Otherwise the number of lessons the debt covers, rounded up. |
| Finance.PaymentOptions | src/pages/Finance.jsx:396-435 | The whole-debt button is last. One lesson is offered iff the debt exceeds one fee, two lessons iff it exceeds two fees. No button exceeds the debt. |
| Finance.PaymentNeverOvershoots | src/pages/Finance.jsx:396-435 | Paying any offered amount leaves the debtor's balance at most 0. |
| Finance.Signed | src/pages/Finance.jsx:118-125 | Income is added and expense subtracted. |
| Finance.SaveTransaction | src/pages/Finance.jsx:98-138 | Refused when the description or amount is empty or the amount is not a positive number. Otherwise exactly one transaction is posted, and the cash moves up for income and down for expense. Nothing else in the institution changes. |
| Finance.RequestGlobalTransfer | src/pages/Finance.jsx:140-159 | Empty text is ignored. A transfer is requested exactly when the amount parses and does not exceed the cash. |
| GlobalSafe.RecordsOneKeepsBalance | src/App_NEW.jsx:63-133 | Recording one global transaction together with the matching cash change keeps cash minus the history sum, so a balanced safe stays balanced. |
| GlobalSafe.Transfer | src/App_NEW.jsx:63-96 | An amount that is not positive or exceeds the cash changes nothing. Otherwise the institution loses it with a local record, the safe gains it with a transfer record naming the institution, and the two changes cancel out. Only the institution's cash and transactions change. |
| GlobalSafe.Reset | src/App_NEW.jsx:98-112 | An empty safe is unchanged. Otherwise the cash becomes 0, recorded as a 'Kasa Sıfırlama' withdrawal of the whole cash. |
| GlobalSafe.WithdrawFromSafe | src/App_NEW.jsx:115-133 | Succeeds exactly when 0 < amount <= cash, recording a withdrawal with the description. Errs with insufficient balance exactly when the amount exceeds the cash. |
| GlobalSafe.WithdrawUndescribed | src/App_NEW.jsx:115 | Called without a description, a withdrawal is labelled 'Para Çekme'. |
| GlobalSafe.ResetIsFullWithdrawal | src/App_NEW.jsx:98-133 | A reset is the same as withdrawing the whole cash as 'Kasa Sıfırlama'. |
| GlobalSafe.TransferKeepsBalanced | src/App_NEW.jsx:63-96 | A transfer keeps the safe's cash equal to its history sum. |
| GlobalSafe.ResetKeepsBalanced | src/App_NEW.jsx:98-112 | A reset keeps the safe's cash equal to its history sum. |
| GlobalSafe.WithdrawKeepsBalanced | src/App_NEW.jsx:115-133 | A withdrawal keeps the safe's cash equal to its history sum. |
| GlobalSafe.TransferKeepsInstitutionGap | src/App_NEW.jsx:63-96 | The institution's cash minus its ledger sum is unchanged by a transfer. |
| GlobalSafe.RequestedTransferIsApplied | src/pages/Finance.jsx:140-159 | A transfer the finance screen requests is applied in full: the institution loses exactly that amount. |
| SafeSummary.TotalStudents | src/pages/InstitutionSelector.jsx:11 | The student count is never negative, and it is 0 exactly when every institution has no students. |
| SafeSummary.InstitutionReceivable | src/pages/InstitutionSelector.jsx:113 | The per-institution amount owed equals the finance screen's receivables. |
| SafeSummary.LegacyBalance | src/pages/InstitutionSelector.jsx:23-24 | `max(0, cash − history)`. |
| SafeSummary.IncomingTotal | src/pages/InstitutionSelector.jsx:27-29 | The sum of positive entries is never negative. |
| SafeSummary.HistoryNet | src/pages/InstitutionSelector.jsx:23-29 | The net of the recorded movements never exceeds the money brought in. |
| SafeSummary.LifetimeTotal | src/pages/InstitutionSelector.jsx:27-29 | The lifetime total covers both the legacy balance and all money in. |
| SafeSummary.BalancedHasNoLegacy | src/pages/InstitutionSelector.jsx:23-29 | In a balanced safe there is no legacy balance, and the lifetime total is the money in. |
| SafeSummary.IncomingTotalCons | src/pages/InstitutionSelector.jsx:27-29 | A new entry adds to the money in only when it is positive. |
| SafeSummary.OutgoingKeepsLifetime | src/pages/InstitutionSelector.jsx:27-29 | Recording money out keeps the lifetime total. |
| SafeSummary.IncomingRaisesLifetime | src/pages/InstitutionSelector.jsx:27-29 | Recording money in raises the lifetime total by that amount. |
| SafeSummary.WithdrawKeepsLifetime | src/App_NEW.jsx:115-133 | A withdrawal does not change the lifetime total. |
| SafeSummary.ResetKeepsLifetime | src/App_NEW.jsx:98-112 | A reset does not change the lifetime total. |
| SafeSummary.TransferRaisesLifetime | src/App_NEW.jsx:63-96 | A transfer raises the lifetime total by the amount moved. |
| SafeSummary.DisabledActionsWouldDoNothing | src/pages/InstitutionSelector.jsx:356-365 | The buttons are disabled when cash <= 0, and at cash <= 0 a reset and every withdrawal would change nothing anyway. |
| SafeSummary.GroupByName | src/pages/InstitutionSelector.jsx:292-303 | The grouping has one line per institution name that sent money, and the lines add up to the whole. |
| SafeSummary.GroupTotals | src/pages/InstitutionSelector.jsx:292-303 | Each line's total is the sum of that institution's transfers. |
| SafeSummary.Breakdown | src/pages/InstitutionSelector.jsx:292-303 | The transfers-in are grouped by name, each line is the sum of its sources, the lines add up to all transfers in, and the largest comes first. |
| Dashboard.UpcomingLessons | src/pages/Dashboard.jsx:20-35 | A lesson is listed iff it is today's and not completed, each as often as it is stored, so the count shown is that number. The list is ordered by time. |
| Dashboard.NextLesson | src/pages/Dashboard.jsx:20-35 | None exactly when no lesson today is uncompleted; cancelled and absent lessons count as uncompleted. Otherwise such a lesson at the earliest time. |
| Dashboard.UpcomingKeepsStoredOrder | src/pages/Dashboard.jsx:20-34 | Lessons at the same time keep their stored order, because `sort` is stable. |
| Dashboard.NextLessonIsFirstStored | src/pages/Dashboard.jsx:20-35 | The next lesson is the first stored of today's uncompleted lessons at its time. |
| Dashboard.TruncDiv | src/pages/Dashboard.jsx:103 | Division rounding toward zero, as `differenceInMinutes` does. |
| Dashboard.DiffMinutes | src/pages/Dashboard.jsx:103 | `differenceInMinutes`: the whole minutes between two instants, cut toward zero, for either order of the two. |
| Dashboard.IsNextLessonActionable | src/pages/Dashboard.jsx:96-108 | False without a next lesson and true for a started one. Otherwise true exactly when the minute difference is at most 10 and above -1440. |
| Dashboard.ActionableWindow | src/pages/Dashboard.jsx:97-108 | The next lesson can be acted on iff it has started, or it starts less than 11 minutes from now (at most 10 whole minutes), or it started less than a day ago. |
| Dashboard.LessonCardClick | src/pages/Dashboard.jsx:146-182 | No student means nothing is selected. Upcoming or scheduled opens attendance, started opens the details, and a card never opens the cancel sheet. |
| Dashboard.ListItemClick | src/pages/Dashboard.jsx:184-195 | A started lesson opens the details. Every other lesson opens the cancel confirmation. |
| Dashboard.ListAndCardAgree | src/pages/Dashboard.jsx:146-195 | When the student is found, the list item and the card select the same lesson and student snapshot, and for a started lesson both open the completion sheet. |
| Dashboard.UpdateLessonStatus | src/pages/Dashboard.jsx:284-287 | Only the lesson with the id changes, and it gets the new status and attendance. |
| Dashboard.MarkAttendance | src/pages/Dashboard.jsx:199-209 | Present starts the lesson and absent marks it absent. The attendance is recorded. The lesson's date, time, student and notes are kept, and the other lessons are untouched. |
| Dashboard.CancelLesson | src/pages/Dashboard.jsx:211-215 | The selected lesson becomes cancelled, with its other fields kept, and the rest are untouched. |
| Dashboard.PresentLeadsToCompletion | src/pages/Dashboard.jsx:171-177 | After marking a lesson present, its card opens the details sheet. |
| Dashboard.OfferedMethods | src/pages/Dashboard.jsx:483-551 | Cash and debt are always offered, and balance iff it covers the fee. The pre-selected method is one of those offered. |
| Dashboard.DefaultMethod | src/pages/Dashboard.jsx:483 | The completion sheet pre-selects balance when it covers the fee and debt otherwise, never cash. |
| Dashboard.Settle | src/pages/Dashboard.jsx:217-265 | Cash keeps the balance and takes in the fee. Balance and debt take the fee off the balance and take in nothing. The status is unpaid, paid in cash or deducted exactly for debt, cash or balance. |
| Dashboard.OfferedBalanceNeverNegative | src/pages/Dashboard.jsx:483-524 | Paying from the balance when it is offered never leaves the balance negative. |
| Dashboard.SetBalance | src/pages/Dashboard.jsx:268 | Only the student with the id changes. |
| Dashboard.MarkCompleted | src/pages/Dashboard.jsx:271-279 | Only the lesson with the id changes, and it becomes completed with the topic, homework and payment status. |
| Dashboard.CompleteLesson | src/pages/Dashboard.jsx:217-282 | Without a student snapshot it errs. Otherwise only the student's balance is settled and only the lesson's status, notes and payment status change. Cash posts one 'collection' of the fee described as 'Ders Ücreti: ' and the name. Other methods leave cash and ledger alone. No other field of the institution changes. |
| Dashboard.CompleteLessonAsWritten | src/pages/Dashboard.jsx:225-248 | As written, a cash completion only raises the cash: balances, lessons and the ledger are not updated. |
| Dashboard.CompletedLeavesTodaysList | src/pages/Dashboard.jsx:20-35 | Once completed, the lesson is no longer on today's list. |
| Dashboard.CashCompletionAsWrittenRepeats | src/pages/Dashboard.jsx:225-248 | On a 100 fee, a cash completion as written leaves the lesson started with no record, so doing it twice puts 200 in the cash. The corrected one completes the lesson and records one collection of 100. |
| Navigation.NavigateTo | src/App.jsx:118-120 | Pushes exactly one frame and keeps the stack below it. |
| Navigation.GoBack | src/App.jsx:122-124 | Drops the top frame, or leaves an empty stack empty. |
| Navigation.GoBackUndoesNavigate | src/App.jsx:118-124 | Going back after navigating restores the stack. |
| Navigation.PopAndShow | src/App.jsx:263-271 | Pops the top frame and shows the given student on the frame beneath. |
| Navigation.ConfirmReturnsToFrame | src/App.jsx:263-271 | Navigating and then confirming comes back to the same frame, now showing the updated student. |
| Navigation.Top | src/App.jsx:848 | The top frame, or None exactly when the stack is empty. |
| StudentRecords.WalletLoad | src/App.jsx:224-271 | Empty text is ignored. It loads exactly when the amount parses. It credits the stored student (or the shown one), records one 'wallet_load', and returns showing the updated student. |
| StudentRecords.WalletLoadFor | src/App.jsx:224-271 | The same load for a chosen target, with or without a check of the stack. Empty text is ignored and an unparsable amount is refused. Otherwise the credit is written. The pop follows when the stack is checked or two frames exist; unchecked with fewer frames the handler crashes after the write. |
| StudentRecords.WalletLoadOverlay | src/App.jsx:409-455 | The overlay's load credits the frame's student with one ledger entry. With two frames it pops the modal; with fewer it crashes after the credit is written. |
| StudentRecords.WalletLoadShowsStoredBalance | src/App.jsx:224-271 | When the amount parses and the id is unique, the load happens. The student shown afterwards is a record of the stored list, and the balances rise by exactly the amount. |
| StudentRecords.Credit | src/App.jsx:234-256 | The load credits the target, moves the cash box and the ledger together by the amount, and records a 'wallet_load' naming the student. |
| StudentRecords.OrDefault | src/App.jsx:489-490 | `x \|\| default` on text. |
| StudentRecords.AddStudent | src/App.jsx:487-497 | Appends one student with balance 0. The name defaults to 'Yeni Öğrenci' and the instrument to 'Piyano', and the fee is `parseInt` or 0. |
| StudentRecords.AddStudentOwesNothing | src/App.jsx:487-497 | Adding a student changes neither the debt nor the balance totals. |
| StudentRecords.EditStudent | src/App.jsx:548-568 | Only the edited id changes, and it keeps its id and balance. The photo is replaced only when a new one is given, and the avatar colour is kept. The screen beneath shows the edited record. |
| StudentRecords.EditReadsBack | src/App.jsx:548-568 | After an edit, looking up the edited id gives the new name, instrument, fee and phone with the balance of the edit screen. |
| StudentRecords.DeleteStudent | src/App.jsx:848-855 | With an empty stack nothing happens. Otherwise the stack is cleared, so the app goes home. A top frame without a student keeps the list. One with a student removes exactly the students with that id and keeps the order of the rest. |
| StudentRecords.DeleteAbsentKeepsAll | src/App.jsx:848-855 | Deleting, from a student frame, an id nobody has keeps the list. |
| StudentRecords.DeletedIsGone | src/App.jsx:848-855 | After a delete the id is found no more, and every other id is found exactly when it was found before. |
| StudentRecords.LessonHistory | src/App.jsx:622-624 | The student's completed and cancelled lessons, newest first, each once. |
| StudentRecords.HistoryPreview | src/App.jsx:333-336 | At most three entries, taken from the front of the history. |
| StudentRecords.PreviewIsNewest | src/App.jsx:333-336 | Every lesson left out of the preview is no newer than one shown. |
| Schedule.BatchSize | src/pages/Schedule.jsx:65-87 | One lesson without recurrence. In a series, the weeks from the start up to the end date, never more than 52. |
| Schedule.HandleAddLesson | src/pages/Schedule.jsx:60-98 | Without a student, a date or a time nothing is added. Otherwise the batch is appended after the existing lessons: weekly lessons whose id in round i is that round's `Date.now()` plus i. |
| Schedule.PlannedDatesInRange | src/pages/Schedule.jsx:70-82 | Every planned date is on or after the start, on the same weekday, and in a series not after the end. The lesson is upcoming with no topic or homework. |
| Schedule.PlannedIdsDistinct | src/pages/Schedule.jsx:75 | With a clock that never goes back, the ids of a batch strictly increase with the round, so they are pairwise different. |
| Schedule.PlannedTodayIsListed | src/pages/Schedule.jsx:60-98 | A lesson planned for today shows on the home screen's list. |
| Schedule.ScheduleStudentName | src/pages/Schedule.jsx:37 | The first student with the id gives its name. It is "Bilinmeyen" when there is no such student or the name is empty. |
| Schedule.AddedStudentIsNamed | src/pages/Schedule.jsx:37 | A student just added under a fresh id is named by the schedule as added, or as "Yeni Öğrenci" when the name was left empty. |
| InstitutionContext.ActiveInstitution | src/contexts/InstitutionContext.jsx:52 | None exactly when no institution has the active id. Otherwise the listed institution with it. |
| InstitutionContext.Students | src/contexts/InstitutionContext.jsx:53 | The active institution's students, or [] without one. |
| InstitutionContext.Lessons | src/contexts/InstitutionContext.jsx:54 | The active institution's lessons, or [] without one. |
| InstitutionContext.Transactions | src/contexts/InstitutionContext.jsx:55 | The active institution's transactions, or [] without one. |
| InstitutionContext.Cash | src/contexts/InstitutionContext.jsx:56 | The active institution's cash, or 0 without one. |
| InstitutionContext.Apply | src/contexts/InstitutionContext.jsx:59-97 | A setter takes either a value or an updater of the current value. |
| InstitutionContext.UpdateActive | src/contexts/InstitutionContext.jsx:99-102 | Without a user or an active id nothing changes. Otherwise only the active institution is patched. |
| InstitutionContext.UpdateActiveReadsBack | src/contexts/InstitutionContext.jsx:52-102 | After patching the active institution with a patch that keeps ids, the active institution is the patched record. |
| InstitutionContext.UpdateInstitution | src/contexts/InstitutionContext.jsx:123-126 | Only the institution with the id is patched, and only when signed in. |
| InstitutionContext.SetStudents | src/contexts/InstitutionContext.jsx:59-67 | Writes the students of the active institution only. |
| InstitutionContext.SetLessons | src/contexts/InstitutionContext.jsx:69-77 | Writes the lessons of the active institution only. |
| InstitutionContext.SetCash | src/contexts/InstitutionContext.jsx:79-87 | Writes the cash of the active institution only. |
| InstitutionContext.SetTransactions | src/contexts/InstitutionContext.jsx:89-97 | Writes the transactions of the active institution only. |
| InstitutionContext.SetStudentsReadsBack | src/contexts/InstitutionContext.jsx:53-67 | Reading the students after setting them gives the value that was set. |
| InstitutionContext.SetCashReadsBack | src/contexts/InstitutionContext.jsx:56-87 | Reading the cash after setting it gives the value that was set. |
| InstitutionContext.SetCashTwice | src/contexts/InstitutionContext.jsx:79-87 | Across renders: an updater called in a render after the one that set a value sees that value. |
| InstitutionContext.SetCashFrom | src/contexts/InstitutionContext.jsx:79-87 | A setter called in a handler writes a value computed from the cash of the render the handler belongs to, whatever was written before in the same handler. |
| InstitutionContext.SetCashTwiceInOneHandler | src/contexts/InstitutionContext.jsx:56-87 | `setCash(v)` and then `setCash(f)` in one handler leave `f` of the render's cash: the first write is lost. |
| InstitutionContext.ResetActive | src/contexts/InstitutionContext.jsx:140-149 | The active institution is emptied of students, lessons and transactions, and its cash goes to 0. The id, name, photo and resources stay, and the others are untouched. |
| InstitutionContext.ResetLeavesNothing | src/contexts/InstitutionContext.jsx:140-149 | After a reset the context reads no students, lessons or transactions and 0 cash. |
| InstitutionContext.AddInstitution | src/contexts/InstitutionContext.jsx:108-121 | Appends one empty institution, matching `createdAt` ascending order (src/lib/db.js:85). |
| InstitutionContext.AddInstitutionKeepsStudentCount | src/contexts/InstitutionContext.jsx:108-121 | A new institution adds no students to the total. |
| InstitutionContext.OnSnapshot | src/contexts/InstitutionContext.jsx:35-45 | Each snapshot is taken as it is, and nothing is listed while signed out. An empty snapshot also stores one default 'Kurumum' institution, which a later snapshot brings. |
| InstitutionContext.FirstSignInSettles | src/contexts/InstitutionContext.jsx:35-45 | On a first sign-in the list is empty, then holds only the default institution, which adds no students. Once switched to, it reads no students or lessons and 0 cash. |
| InstitutionContext.SwitchInstitution | src/contexts/InstitutionContext.jsx:104-106 | After switching, an institution is active exactly when one with that id exists, and it is that one. |
| InstitutionContext.DeleteInstitution | src/contexts/InstitutionContext.jsx:128-138 | Removes exactly the institution with the id. Deleting the active one selects the first remaining one, or none. |
| InstitutionContext.DeleteActiveReselects | src/contexts/InstitutionContext.jsx:128-138 | After deleting the active institution, the context reads the first remaining one, or is empty with 0 cash. |
| Stats.FeeFor | src/pages/Stats.jsx:17-20 | A lesson contributes its student's fee, or 0 when the student is gone. |
| Stats.MonthlyLessons | src/pages/Stats.jsx:12-15 | Exactly the lessons dated in the current month, in their order. |
| Stats.ExpectedRevenue | src/pages/Stats.jsx:17-20 | With no negative fee the expected revenue is never negative, and it is 0 when no lesson falls in the month. |
| Stats.RealizedRevenue | src/pages/Stats.jsx:22-27 | With no negative fee the realized revenue is never negative, and it is 0 when no lesson of the month is completed. |
| Stats.RealizedWithinExpected | src/pages/Stats.jsx:17-27 | With non-negative fees, realized revenue is between 0 and expected revenue. |
| Stats.MissingStudentAddsNothing | src/pages/Stats.jsx:17-27 | A lesson of a deleted student adds nothing to either revenue. |
| Stats.Debtors | src/pages/Stats.jsx:30-32 | Exactly the students with a negative balance, largest debt first, each once. |
| Stats.TotalDebt | src/pages/Stats.jsx:34 | The statistics debt equals the finance screen's receivables. |
| Stats.DebtorsTotal | src/pages/Stats.jsx:30-34 | The debtors' absolute balances add up to the total owed. |
| Resources.AddResource | src/pages/Resources.jsx:17-42 | Errs exactly when the title is empty. Otherwise puts one active resource in front, for everyone when the picker is empty. |
| Resources.DeleteResource | src/pages/Resources.jsx:44-49 | Once confirmed, removes exactly that id, keeping the order. A declined confirmation changes nothing. |
| Resources.ToggleResource | src/pages/Resources.jsx:51-58 | The resource with the id flips between active and completed. The others are untouched. |
| Resources.ToggleTwiceRestores | src/pages/Resources.jsx:51-58 | Toggling twice gives the list back. |
| Resources.FilterResources | src/pages/Resources.jsx:74-77 | 'All' shows everything. A type shows exactly the resources of that type, in order. |
| Resources.TypeFiltersPartition | src/pages/Resources.jsx:74-77 | Each resource passes its own type's filter and no other. |
| Resources.ResourceStudentNameAsWritten | src/pages/Resources.jsx:69-72 | As written, the lookup always answers 'Genel'. |
| Resources.IdText | src/pages/Resources.jsx:229 | The text the picker writes for an id is never empty. |
| Resources.ParseIdText | src/pages/Resources.jsx:229 | `parseInt` reads back the id the picker wrote. |
| Resources.ResourceStudentName | src/pages/Resources.jsx:69-72 | Corrected: a resource for everyone shows 'Genel'. One stored for id n shows that student's name, or 'Genel' when the student is gone. |
| Resources.AssignedResourceNamed | src/pages/Resources.jsx:17-42 | A resource added for a student is named after the student by the corrected lookup, but not by the lookup as written. |
| Resources.AssignedResourceShownAsGeneral | src/pages/Resources.jsx:69-72 | With student 1 "Ada" and a resource stored for "1", the lookup as written says 'Genel' and the corrected one says 'Ada'. |
| StudentSearch.LowerAscii | src/pages/Students.jsx:10 | Lower-cases letter by letter and keeps the length. |
| StudentSearch.Contains | src/pages/Students.jsx:10 | `includes` holds exactly when the term occurs at some position. |
| StudentSearch.SearchStudents | src/pages/Students.jsx:9-11 | A student is listed iff their lower-cased name contains the lower-cased term. The list keeps its order. |
| StudentSearch.EmptySearchShowsAll | src/pages/Students.jsx:9-11 | An empty search shows every student in order. |
| StudentSearch.SearchIgnoresCase | src/pages/Students.jsx:9-11 | Upper- or lower-casing the term shows the same students. |
| StudentSearch.MatchIgnoresNameCase | src/pages/Students.jsx:10 | Upper-casing a name does not change whether it matches. |
| Sorting.SortBy | src/pages/Stats.jsx:32 | The `sort` these lists use: the same elements, in order by the key. |
| Sorting.SortByStable | src/pages/Stats.jsx:32 | The sort is stable: the elements of each key come out in the order they went in. |
| Sorting.InsertKeepsKeyOrder | src/pages/Stats.jsx:32 | Inserting one element leaves the elements of each key in the order they had with the new element in front. |

## Left out

- Persistence is not modelled: Firestore reads and writes, the snapshot listener's subscription, and `src/lib/db.js` apart from its ordering. They are I/O.
- Authentication (`src/contexts/AuthContext.jsx`), notifications, timers and the service worker are I/O and clocks.
- The photo cropper, the tuner, toasts, layout and the avatar colour hash are presentation. The colour is an `AddStudent` parameter.
- Dates, `Date.now()`, `new Date()`, uuids and locale formatting are parameters (`Stamp`, `id`, `clock`, day numbers).
- The month test of the statistics screen is a parameter `inMonth`, because it depends on the calendar.
- `window.confirm` is a boolean parameter.
- Concurrency is not modelled. A database write and the snapshot that brings it back are one step (`src/lib/db.js:115-118` is asynchronous). Within one handler, every setter reads the values of the render the handler belongs to (`InstitutionContext.SetCashFrom`). So two writes to the same field there do not compose (`InstitutionContext.SetCashTwiceInOneHandler`), and writes to different fields each patch their own field. The handlers modelled here write each field at most once, so each is modelled as one update of the institution record.
- `src/components/modals/AddBalanceModal.jsx` is not part of this model. It only collects a text, which the wallet load parses.
- Amounts are unbounded integers, while the app computes in doubles. Text of 17 or more digits rounds in the app, and text of about 310 digits gives `Infinity`, which `parseAmount` accepts. Neither is modelled.
- Case mapping covers ASCII letters only. Turkish letters such as 'İ' keep their case.
- StudentRecords.EditStudent: takes the fee as an integer. `parseInt` can give `NaN` there and the app stores it, but the model has no `NaN`.
- SafeSummary.DisabledActionsWouldDoNothing: the withdraw dialog passes `parseInt(val, 10)` straight through, which can be `NaN`. The model starts from an integer amount. With `NaN`, both comparisons of the guard (`src/App_NEW.jsx:116`) are false, so the guard does not fire: a withdrawal of `-NaN` is recorded and the cash becomes `NaN` (lines 121-131). The field is a number input (`src/pages/InstitutionSelector.jsx:246`), and `val &&` (line 266) stops an empty value, but a value such as ".5" is a valid number and still reads as `NaN`.
- StudentRecords.WalletLoadOverlay: after popping the modal, the overlay handler writes to the new top frame without checking that one is left. With a stack shorter than two the updater throws there. The institution write and `setStudents` have already gone out by then, so this is modelled as `Crashed` with the credited institution. The crash itself, and what React does with the stack afterwards, are not modelled.
- StudentRecords.LessonHistory: orders by `new Date(date + ' ' + time)` (`src/App.jsx:335, 623`). "YYYY-MM-DD HH:mm" is not in the Date Time String Format of ECMA-262, so how it parses depends on the engine. The model orders by the start minute, as an engine that accepts the text does. On an engine that rejects it every comparison is `NaN`, and the list keeps its filter order.
- Amounts.Initials: `n[0]` (`src/lib/utils.js:54`) is one UTF-16 code unit, while a Dafny `char` is a whole Unicode scalar value. A name starting with a character outside the Basic Multilingual Plane gives half a surrogate pair in the app, and the whole character here.
- Schedule.HandleAddLesson: the student id is taken as the integer `parseInt(selectedStudentId)` already gives. An unreadable id, which would give `NaN`, is left out.
- Schedule.ScheduleStudentName: the `s.id === id` alternative matches only when ids are stored as text, which they never are. Only the `parseInt` path is modelled.

## Findings

| source | as written | input that shows it | evidently intended | confidence | as-written member | corrected member |
|---|---|---|---|---|---|---|
| src/pages/Dashboard.jsx:225-248 | The cash branch of `handleCompleteLesson` calls `setTransactions`, which the destructuring at line 13 never brings in. The handler throws after `setCash`, before the balances and lessons are written. | Complete a started lesson with fee 100 by cash, twice. | The cash rises by the fee, one 'collection' transaction is recorded, and the lesson becomes completed. | not executed | Dashboard.CompleteLessonAsWritten (shown by Dashboard.CashCompletionAsWrittenRepeats) | Dashboard.CompleteLesson |
| src/pages/Resources.jsx:69-72 | `getStudentName` compares a numeric student id with `===` against the picker's stored value, which is text (line 229) or null. It never matches. | Student 1 "Ada" and a resource stored with student id "1". | The resource is shown under "Ada". | not executed | Resources.ResourceStudentNameAsWritten (shown by Resources.AssignedResourceShownAsGeneral) | Resources.ResourceStudentName (with Resources.AssignedResourceNamed) |

=== FILE: amounts.dfy ===
/** The two text helpers of src/lib/utils.js: `parseAmount`, which reads a money
    amount the user typed, and `getInitials`, which abbreviates a person's name.

    `parseAmount` calls JavaScript's `parseInt(value, 10)`, whose algorithm is
    fixed by section 19.2.5 of ECMA-262 (the ECMAScript language specification):
    skip leading white space, read an optional sign, then read the longest prefix
    of decimal digits; no digits means NaN. */
module Amounts {
  import opened Common

  // ----- parseInt (ECMA-262 section 19.2.5, radix 10) -----

  /** The WhiteSpace and LineTerminator code points that TrimString removes:
      TAB, VT, FF, ZWNBSP, the space separators (category Zs) and LF, CR, LS, PS. */
  predicate IsStrWhiteSpace(c: char) {
    c == '\U{0009}' || c == '\U{000B}' || c == '\U{000C}' || c == '\U{FEFF}' ||
    c == ' ' || c == '\U{00A0}' || c == '\U{1680}' || ('\U{2000}' <= c <= '\U{200A}') ||
    c == '\U{202F}' || c == '\U{205F}' || c == '\U{3000}' ||
    c == '\U{000A}' || c == '\U{000D}' || c == '\U{2028}' || c == '\U{2029}'
  }

  predicate IsDigit(c: char) {
    '0' <= c <= '9'
  }

  predicate AllDigits(s: string) {
    forall i :: 0 <= i < |s| ==> IsDigit(s[i])
  }

  function DigitValue(c: char): (d: nat)
    requires IsDigit(c)
    ensures d < 10
  {
    c as int - '0' as int
  }

  function DigitChar(d: nat): (c: char)
    requires d < 10
    ensures IsDigit(c) && DigitValue(c) == d
  {
    ('0' as int + d) as char
  }

  /** `s` with its leading white space removed. */
  function TrimStart(s: string): (r: string)
    ensures |r| <= |s| && r == s[|s| - |r|..]
    ensures forall i :: 0 <= i < |s| - |r| ==> IsStrWhiteSpace(s[i])
    ensures |r| == 0 || !IsStrWhiteSpace(r[0])
  {
    if |s| > 0 && IsStrWhiteSpace(s[0]) then TrimStart(s[1..]) else s
  }

  /** The longest prefix of `s` made of decimal digits. */
  function DigitPrefix(s: string): (r: string)
    ensures |r| <= |s| && r == s[..|r|]
    ensures AllDigits(r)
    ensures |r| == |s| || !IsDigit(s[|r|])
  {
    if |s| > 0 && IsDigit(s[0]) then [s[0]] + DigitPrefix(s[1..]) else []
  }

  /** The number a string of decimal digits denotes, most significant digit first. */
  function DigitsValue(ds: string): nat
    requires AllDigits(ds)
  {
    if |ds| == 0 then 0 else DigitsValue(ds[..|ds| - 1]) * 10 + DigitValue(ds[|ds| - 1])
  }

  /** `parseInt(s, 10)`; None stands for NaN. The integer is unbounded (see README). */
  function ParseInt(s: string): (r: Option<int>)
    ensures |TrimStart(s)| == 0 ==> r.None?
    ensures |TrimStart(s)| > 0 && IsDigit(TrimStart(s)[0]) ==> r.Some? && r.value >= 0
    ensures r.Some? && r.value < 0 ==> |TrimStart(s)| > 0 && TrimStart(s)[0] == '-'
  {
    var t := TrimStart(s);
    var sign := if |t| > 0 && t[0] == '-' then -1 else 1;
    var u := if |t| > 0 && (t[0] == '+' || t[0] == '-') then t[1..] else t;
    var z := DigitPrefix(u);
    if |z| == 0 then None else Some(sign * DigitsValue(z))
  }

  /** `parseAmount` (src/lib/utils.js:14-20): the parsed integer when it is
      strictly positive, otherwise None (the source's null). */
  function ParseAmount(s: string): (r: Option<int>)
    ensures r.Some? ==> r.value > 0
    ensures r.Some? <==> ParseInt(s).Some? && ParseInt(s).value > 0
    ensures r.Some? ==> r.value == ParseInt(s).value
  {
    match ParseInt(s)
    case None => None
    case Some(n) => if n <= 0 then None else Some(n)
  }

  /** The decimal rendering of a natural number (JavaScript's `String(n)`). */
  function Decimal(n: nat): (r: string)
    ensures |r| > 0 && AllDigits(r)
  {
    if n < 10 then [DigitChar(n)] else Decimal(n / 10) + [DigitChar(n % 10)]
  }

  lemma {:induction false} DecimalValue(n: nat)
    ensures DigitsValue(Decimal(n)) == n
  {
    var r := Decimal(n);
    if n < 10 {
      assert r[..0] == [];
    } else {
      assert r[..|r| - 1] == Decimal(n / 10);
      DecimalValue(n / 10);
    }
  }

  lemma {:induction false} DigitPrefixOfDigits(d: string, rest: string)
    requires AllDigits(d)
    requires |rest| == 0 || !IsDigit(rest[0])
    ensures DigitPrefix(d + rest) == d
    decreases |d|
  {
    var s := d + rest;
    if |d| > 0 {
      assert s[0] == d[0] && IsDigit(s[0]);
      assert s[1..] == d[1..] + rest;
      DigitPrefixOfDigits(d[1..], rest);
      assert DigitPrefix(s) == [d[0]] + d[1..];
      assert d == [d[0]] + d[1..];
    } else {
      assert s == rest;
    }
  }

  lemma DigitIsNotWhiteSpace(c: char)
    requires IsDigit(c)
    ensures !IsStrWhiteSpace(c) && c != '+' && c != '-'
  {
  }

  /** parseInt reads exactly the leading run of digits and ignores what follows it. */
  lemma ParseIntDigitRun(d: string, rest: string)
    requires |d| > 0 && AllDigits(d)
    requires |rest| == 0 || !IsDigit(rest[0])
    ensures ParseInt(d + rest) == Some(DigitsValue(d))
  {
    var s := d + rest;
    assert s[0] == d[0];
    DigitIsNotWhiteSpace(s[0]);
    assert TrimStart(s) == s;
    DigitPrefixOfDigits(d, rest);
    assert DigitPrefix(s) == d;
  }

  /** Round trip: parsing the decimal rendering of a natural number gives it back. */
  lemma ParseIntDecimal(n: nat)
    ensures ParseInt(Decimal(n)) == Some(n)
  {
    var d := Decimal(n);
    assert d + [] == d;
    ParseIntDigitRun(d, []);
    DecimalValue(n);
  }

  /** Round trip for `parseAmount`: any amount it accepts is accepted again, with
      the same value, when written back in decimal. */
  lemma ParseAmountRoundTrip(s: string, n: int)
    requires ParseAmount(s) == Some(n)
    ensures n > 0 && ParseAmount(Decimal(n)) == Some(n)
  {
    ParseIntDecimal(n);
  }

  lemma ParseAmountAcceptsFifty()
    ensures ParseAmount("50") == Some(50)
  {
    assert Decimal(50) == "50" by { assert Decimal(5) == "5"; }
    ParseIntDecimal(50);
  }

  lemma ParseAmountRejectsZero()
    ensures ParseAmount("0") == None
  {
    assert "0" + [] == "0";
    ParseIntDigitRun("0", []);
    assert DigitsValue("0") == 0 by { assert "0"[..0] == []; }
  }

  lemma ParseAmountRejectsNegative()
    ensures ParseAmount("-5") == None
  {
    assert !IsStrWhiteSpace('-');
    assert TrimStart("-5") == "-5";
    assert "-5"[1..] == "5";
    assert "5" + [] == "5";
    DigitPrefixOfDigits("5", []);
    assert DigitsValue("5") == 5 by { assert "5"[..0] == []; }
  }

  lemma ParseAmountRejectsNonNumeric()
    ensures ParseAmount("abc") == None
    ensures ParseAmount("") == None
  {
    assert !IsStrWhiteSpace('a');
    assert TrimStart("abc") == "abc";
    assert DigitPrefix("abc") == [];
  }

  /** Only the leading digits count: whatever follows them, a unit or a
      fractional part, is ignored. */
  lemma ParseAmountReadsLeadingDigits(d: string, rest: string)
    requires |d| > 0 && AllDigits(d) && DigitsValue(d) > 0
    requires |rest| == 0 || !IsDigit(rest[0])
    ensures ParseAmount(d + rest) == Some(DigitsValue(d))
  {
    ParseIntDigitRun(d, rest);
  }

  /** Leading white space and a plus sign are skipped. */
  lemma ParseAmountSkipsSpaceAndSign()
    ensures ParseAmount(" +8") == Some(8)
  {
    assert IsStrWhiteSpace(' ') && !IsStrWhiteSpace('+');
    assert " +8"[1..] == "+8";
    assert TrimStart("+8") == "+8";
    assert TrimStart(" +8") == "+8";
    assert "+8"[1..] == "8";
    assert "8" + [] == "8";
    DigitPrefixOfDigits("8", []);
    assert DigitsValue("8") == 8 by { assert "8"[..0] == []; }
  }

  // ----- getInitials -----

  /** `s.split(' ')`: the pieces between single spaces; consecutive spaces yield
      empty pieces, and there is always at least one piece. */
  function SplitOnSpace(s: string): (r: seq<string>)
    ensures |r| >= 1
    ensures forall k :: 0 <= k < |r| ==> ' ' !in r[k]
  {
    if |s| == 0 then [""]
    else
      var rest := SplitOnSpace(s[1..]);
      if s[0] == ' ' then [""] + rest
      else [[s[0]] + rest[0]] + rest[1..]
  }

  /** `pieces.join(' ')`. */
  function JoinWithSpace(pieces: seq<string>): string
    requires |pieces| >= 1
  {
    if |pieces| == 1 then pieces[0] else pieces[0] + " " + JoinWithSpace(pieces[1..])
  }

  /** Splitting on spaces loses nothing: joining the pieces restores the name. */
  lemma {:induction false} SplitJoinRoundTrip(s: string)
    ensures JoinWithSpace(SplitOnSpace(s)) == s
  {
    if |s| > 0 {
      var rest := SplitOnSpace(s[1..]);
      SplitJoinRoundTrip(s[1..]);
      if s[0] == ' ' {
        assert ([""] + rest)[1..] == rest;
      } else {
        var r := [[s[0]] + rest[0]] + rest[1..];
        if |rest| == 1 {
          assert r == [[s[0]] + rest[0]];
        } else {
          assert r[1..] == rest[1..];
          assert JoinWithSpace(rest) == rest[0] + " " + JoinWithSpace(rest[1..]);
        }
      }
      assert s == [s[0]] + s[1..];
    }
  }

  /** `.map(n => n[0]).join('')`: the first character of each piece; an empty
      piece gives `undefined`, which `join` renders as nothing. */
  function Heads(pieces: seq<string>): (r: string)
    ensures |r| <= |pieces|
    ensures (forall i :: 0 <= i < |pieces| ==> |pieces[i]| > 0) ==> |r| == |pieces|
  {
    if |pieces| == 0 then []
    else (if |pieces[0]| > 0 then [pieces[0][0]] else []) + Heads(pieces[1..])
  }

  /** Reference definition of the characters that begin a word: a non-space at the
      start of the text (`atStart`) or right after a space. */
  function WordStartsFrom(s: string, atStart: bool): (r: string)
    ensures |r| <= |s|
    ensures forall i :: 0 <= i < |r| ==> r[i] != ' ' && r[i] in s
    ensures atStart && |s| > 0 && s[0] != ' ' ==> |r| > 0 && r[0] == s[0]
  {
    if |s| == 0 then []
    else (if atStart && s[0] != ' ' then [s[0]] else []) + WordStartsFrom(s[1..], s[0] == ' ')
  }

  /** The letters that start the words of `s`, in order. */
  function WordStarts(s: string): (r: string)
    ensures |r| <= |s|
    ensures forall i :: 0 <= i < |r| ==> r[i] != ' ' && r[i] in s
    ensures |s| > 0 && s[0] != ' ' ==> |r| > 0 && r[0] == s[0]
  {
    WordStartsFrom(s, true)
  }

  lemma {:induction false} HeadsOfSplit(s: string)
    ensures Heads(SplitOnSpace(s)) == WordStartsFrom(s, true)
    ensures Heads(SplitOnSpace(s)[1..]) == WordStartsFrom(s, false)
  {
    if |s| > 0 {
      var rest := SplitOnSpace(s[1..]);
      HeadsOfSplit(s[1..]);
      if s[0] == ' ' {
        var r := [""] + rest;
        assert r[1..] == rest;
      } else {
        var r := [[s[0]] + rest[0]] + rest[1..];
        assert r[1..] == rest[1..];
        assert r[0][0] == s[0];
      }
    }
  }

  function UpperChar(c: char): char {
    if 'a' <= c <= 'z' then (c as int - 32) as char else c
  }

  /** `toUpperCase`, restricted to ASCII letters (see README). */
  function UpperAscii(s: string): (r: string)
    ensures |r| == |s|
    ensures forall i :: 0 <= i < |s| ==> r[i] == UpperChar(s[i])
  {
    if |s| == 0 then [] else [UpperChar(s[0])] + UpperAscii(s[1..])
  }

  /** `getInitials` (src/lib/utils.js:51-58): the upper-cased first characters of
      the first two words of the name. */
  function Initials(name: string): (r: string)
    ensures |name| == 0 ==> r == ""
    ensures |r| <= 2
    ensures var starts := WordStarts(name);
            r == UpperAscii(starts[..Min(2, |starts|)])
  {
    if |name| == 0 then ""
    else
      var heads := Heads(SplitOnSpace(name));
      HeadsOfSplit(name);
      UpperAscii(heads[..Min(2, |heads|)])
  }

  /** A word without spaces contributes its first character when it starts the
      text, and nothing more. */
  lemma {:induction false} WordStartsOfWord(w: string, s: string, atStart: bool)
    requires |w| > 0 && forall k :: 0 <= k < |w| ==> w[k] != ' '
    ensures WordStartsFrom(w + s, atStart) == (if atStart then [w[0]] else []) + WordStartsFrom(s, false)
  {
    assert (w + s)[0] == w[0] && (w + s)[1..] == w[1..] + s;
    if |w| > 1 {
      WordStartsOfWord(w[1..], s, false);
    } else {
      assert w[1..] + s == s;
    }
  }

  /** For a name of two or more words, the initials are the upper-cased first
      letters of the first two words. */
  lemma InitialsOfTwoWords(first: string, second: string, rest: string)
    requires |first| > 0 && forall k :: 0 <= k < |first| ==> first[k] != ' '
    requires |second| > 0 && forall k :: 0 <= k < |second| ==> second[k] != ' '
    ensures Initials(first + " " + second + rest) == [UpperChar(first[0]), UpperChar(second[0])]
  {
    var name := first + " " + second + rest;
    assert name == first + (" " + (second + rest));
    WordStartsOfWord(first, " " + (second + rest), true);
    assert (" " + (second + rest))[1..] == second + rest;
    WordStartsOfWord(second, rest, true);
    var starts := WordStarts(name);
    assert starts == [first[0], second[0]] + WordStartsFrom(rest, false);
    assert starts[..2] == [first[0], second[0]];
  }

  /** Repeated spaces produce empty pieces, which contribute nothing. */
  lemma InitialsSkipLeadingSpaces()
    ensures Initials("  can") == "C"
  {
    assert WordStartsFrom("n", false) == [];
    assert WordStartsFrom("an", false) == [];
    assert WordStartsFrom("can", true) == "c";
    assert WordStartsFrom(" can", true) == "c";
    assert WordStarts("  can") == "c";
    assert UpperAscii("c") == "C";
  }
}

=== FILE: common.dfy ===
/** Small sequence vocabulary shared by every screen of the tutor application:
    the optional value JavaScript expresses with null/undefined, order-preserving
    filtering (Array.prototype.filter), first-match search (Array.prototype.find)
    and summation (Array.prototype.reduce with a running total). */
module Common {

  /** A value that may be absent, in place of JavaScript's null or undefined. */
  datatype Option<+T> = None | Some(value: T) {
    /** The carried value, or the given default when absent (JavaScript's `x || d`). */
    function GetOr(default: T): T {
      match this
      case Some(v) => v
      case None => default
    }
  }

  /** The outcome of a handler that either applies its update or reports why it refused. */
  datatype Result<+T, +E> = Ok(value: T) | Err(error: E)

  function Abs(x: int): (r: nat)
    ensures r == x || r == -x
  {
    if x < 0 then -x else x
  }

  function Min(a: int, b: int): (r: int)
    ensures r <= a && r <= b
    ensures r == a || r == b
  {
    if a <= b then a else b
  }

  /** The elements of `s` that satisfy `p`, in their original order. */
  function Filter<T(!new)>(s: seq<T>, p: T -> bool): (r: seq<T>)
    ensures |r| <= |s|
    ensures forall x :: x in r <==> x in s && p(x)
    ensures forall i :: 0 <= i < |r| ==> p(r[i])
  {
    if |s| == 0 then []
    else (if p(s[0]) then [s[0]] else []) + Filter(s[1..], p)
  }

  /** `a` is obtained from `b` by deleting elements, keeping the order of the rest. */
  ghost predicate IsSubsequence<T>(a: seq<T>, b: seq<T>)
    decreases |b|
  {
    |a| == 0 ||
    (|b| > 0 && ((a[0] == b[0] && IsSubsequence(a[1..], b[1..])) || IsSubsequence(a, b[1..])))
  }

  lemma {:induction false} FilterIsSubsequence<T(!new)>(s: seq<T>, p: T -> bool)
    ensures IsSubsequence(Filter(s, p), s)
  {
    if |s| > 0 {
      FilterIsSubsequence(s[1..], p);
      if p(s[0]) {
        assert Filter(s, p) == [s[0]] + Filter(s[1..], p);
        assert Filter(s, p)[1..] == Filter(s[1..], p);
      } else {
        assert Filter(s, p) == Filter(s[1..], p);
      }
    }
  }

  /** Filtering with a predicate that holds everywhere on `s` returns `s`. */
  lemma {:induction false} FilterAll<T(!new)>(s: seq<T>, p: T -> bool)
    requires forall x :: x in s ==> p(x)
    ensures Filter(s, p) == s
  {
    if |s| > 0 {
      assert s[0] in s;
      forall x | x in s[1..] ensures p(x) {
        assert x in s;
      }
      FilterAll(s[1..], p);
      assert Filter(s, p) == [s[0]] + s[1..];
      assert [s[0]] + s[1..] == s;
    }
  }

  /** Predicates that agree on `s` filter it alike. */
  lemma {:induction false} FilterCongruent<T(!new)>(s: seq<T>, p: T -> bool, q: T -> bool)
    requires forall x :: x in s ==> p(x) == q(x)
    ensures Filter(s, p) == Filter(s, q)
  {
    if |s| > 0 {
      assert s[0] in s;
      assert forall x :: x in s[1..] ==> x in s;
      FilterCongruent(s[1..], p, q);
    }
  }

  lemma {:induction false} FilterConcat<T(!new)>(a: seq<T>, b: seq<T>, p: T -> bool)
    ensures Filter(a + b, p) == Filter(a, p) + Filter(b, p)
  {
    if |a| == 0 {
      assert a + b == b;
    } else {
      assert (a + b)[0] == a[0];
      assert (a + b)[1..] == a[1..] + b;
      FilterConcat(a[1..], b, p);
    }
  }

  /** `s.map(x => p(x) ? f(x) : x)`: the elements satisfying `p` replaced by
      their image under `f`, the others kept, in place. */
  function MapWhere<T>(s: seq<T>, p: T -> bool, f: T -> T): (r: seq<T>)
    ensures |r| == |s|
    ensures forall i :: 0 <= i < |s| && !p(s[i]) ==> r[i] == s[i]
    ensures forall i :: 0 <= i < |s| && p(s[i]) ==> r[i] == f(s[i])
  {
    if |s| == 0 then [] else [if p(s[0]) then f(s[0]) else s[0]] + MapWhere(s[1..], p, f)
  }

  /** Sum of `f` over the elements of `s`, accumulated left to right. */
  function SumBy<T>(s: seq<T>, f: T -> int): int
  {
    if |s| == 0 then 0 else SumBy(s[..|s| - 1], f) + f(s[|s| - 1])
  }

  lemma {:induction false} SumByConcat<T>(a: seq<T>, b: seq<T>, f: T -> int)
    ensures SumBy(a + b, f) == SumBy(a, f) + SumBy(b, f)
  {
    if |b| == 0 {
      assert a + b == a;
    } else {
      assert (a + b)[..|a + b| - 1] == a + b[..|b| - 1];
      assert (a + b)[|a + b| - 1] == b[|b| - 1];
      SumByConcat(a, b[..|b| - 1], f);
    }
  }

  lemma SumByCons<T>(x: T, s: seq<T>, f: T -> int)
    ensures SumBy([x] + s, f) == f(x) + SumBy(s, f)
  {
    SumByConcat([x], s, f);
    assert [x][..0] == [];
  }

  /** The sum of a non-empty sequence is its first term plus the sum of the rest. */
  lemma SumByFront<T>(s: seq<T>, f: T -> int)
    requires |s| > 0
    ensures SumBy(s, f) == f(s[0]) + SumBy(s[1..], f)
  {
    SumByCons(s[0], s[1..], f);
    assert s == [s[0]] + s[1..];
  }

  lemma {:induction false} SumByNonNegative<T>(s: seq<T>, f: T -> int)
    requires forall x :: x in s ==> f(x) >= 0
    ensures SumBy(s, f) >= 0
  {
    if |s| > 0 {
      assert s[|s| - 1] in s;
      assert forall x :: x in s[..|s| - 1] ==> x in s;
      SumByNonNegative(s[..|s| - 1], f);
    }
  }

  /** With non-negative terms, every single term is at most the sum. */
  lemma {:induction false} SumByElemLe<T>(s: seq<T>, f: T -> int, k: nat)
    requires k < |s|
    requires forall x :: x in s ==> f(x) >= 0
    ensures f(s[k]) <= SumBy(s, f)
  {
    var n := |s| - 1;
    assert forall x :: x in s[..n] ==> x in s;
    SumByNonNegative(s[..n], f);
    if k < n {
      assert s[..n][k] == s[k];
      SumByElemLe(s[..n], f, k);
      assert s[n] in s;
    }
  }

  /** Replacing one element changes the sum by the difference of the two values. */
  lemma {:induction false} SumByUpdate<T>(s: seq<T>, k: nat, v: T, f: T -> int)
    requires k < |s|
    ensures SumBy(s[k := v], f) == SumBy(s, f) - f(s[k]) + f(v)
  {
    var n := |s| - 1;
    if k == n {
      assert s[k := v][..n] == s[..n];
    } else {
      assert s[k := v][..n] == s[..n][k := v];
      SumByUpdate(s[..n], k, v, f);
    }
  }

  /** A sum of terms each at most the matching term of another is at most its sum. */
  lemma {:induction false} SumByLe<T>(s: seq<T>, f: T -> int, g: T -> int)
    requires forall x :: f(x) <= g(x)
    ensures SumBy(s, f) <= SumBy(s, g)
  {
    if |s| > 0 {
      SumByLe(s[..|s| - 1], f, g);
    }
  }

  /** Summing `f` over the elements that pass `p` is the same as summing the
      function that is `f` where `p` holds and 0 elsewhere. */
  lemma {:induction false} SumByFilter<T(!new)>(s: seq<T>, p: T -> bool, f: T -> int, g: T -> int)
    requires forall x :: g(x) == (if p(x) then f(x) else 0)
    ensures SumBy(Filter(s, p), f) == SumBy(s, g)
  {
    if |s| > 0 {
      SumByFilter(s[1..], p, f, g);
      SumByCons(s[0], s[1..], g);
      assert s == [s[0]] + s[1..];
      if p(s[0]) {
        SumByCons(s[0], Filter(s[1..], p), f);
      } else {
        assert Filter(s, p) == Filter(s[1..], p);
      }
    }
  }

  /** Each element counted by `f` in the filtered part is bounded by `f` itself. */
  lemma {:induction false} SumByFilterLe<T(!new)>(s: seq<T>, p: T -> bool, f: T -> int)
    requires forall x :: x in s ==> f(x) >= 0
    ensures SumBy(Filter(s, p), f) <= SumBy(s, f)
  {
    if |s| > 0 {
      assert forall x :: x in s[1..] ==> x in s;
      assert s[0] in s;
      SumByFilterLe(s[1..], p, f);
      SumByCons(s[0], s[1..], f);
      assert s == [s[0]] + s[1..];
      if p(s[0]) {
        SumByCons(s[0], Filter(s[1..], p), f);
      } else {
        assert Filter(s, p) == Filter(s[1..], p);
      }
    }
  }

  /** The first element of `s` that satisfies `p` (Array.prototype.find). */
  function Find<T(!new)>(s: seq<T>, p: T -> bool): (r: Option<T>)
    ensures r.None? <==> forall x :: x in s ==> !p(x)
    ensures r.Some? ==> r.value in s && p(r.value)
    ensures r.Some? ==> exists i :: 0 <= i < |s| && s[i] == r.value && forall j :: 0 <= j < i ==> !p(s[j])
  {
    if |s| == 0 then None
    else if p(s[0]) then Some(s[0])
    else
      var r := Find(s[1..], p);
      assert r.Some? ==> exists i :: 1 <= i < |s| && s[i] == r.value && forall j :: 0 <= j < i ==> !p(s[j]) by {
        if r.Some? {
          var i :| 0 <= i < |s[1..]| && s[1..][i] == r.value && forall j :: 0 <= j < i ==> !p(s[1..][j]);
          assert s[i + 1] == r.value;
          assert forall j :: 0 <= j < i + 1 ==> !p(s[j]) by {
            forall j | 0 <= j < i + 1 ensures !p(s[j]) {
              if j > 0 { assert s[j] == s[1..][j - 1]; }
            }
          }
        }
      }
      r
  }

  /** Rewriting the elements a search looks for, in a way that keeps them
      found, makes the search return the rewritten first match. */
  lemma {:induction false} FindMapWhere<T(!new)>(s: seq<T>, p: T -> bool, f: T -> T)
    requires forall x :: p(x) ==> p(f(x))
    ensures Find(MapWhere(s, p, f), p).None? <==> Find(s, p).None?
    ensures Find(s, p).Some? ==> Find(MapWhere(s, p, f), p) == Some(f(Find(s, p).value))
  {
    if |s| > 0 {
      var r := MapWhere(s, p, f);
      assert r[1..] == MapWhere(s[1..], p, f);
      if !p(s[0]) {
        FindMapWhere(s[1..], p, f);
      }
    }
  }
}

=== FILE: dashboard.dfy ===
/** Today's lessons on the home screen (src/pages/Dashboard.jsx): which lessons
    are listed, when the next one can be acted on, where a tap leads, the
    attendance and cancel transitions, and completing a lesson with one of the
    three ways of paying for it. */
module Dashboard {
  import opened Common
  import opened Domain
  import opened Sorting

  // ----- today's list -----

  /** The statuses that keep a lesson on today's list: all but 'completed'. */
  predicate Listable(status: LessonStatus) {
    status != Completed
  }

  predicate OnTodaysList(l: Lesson, today: int) {
    l.date == today && Listable(l.status)
  }

  /** The test `upcomingLessons` filters with. */
  function OnToday(today: int): Lesson -> bool {
    (l: Lesson) => OnTodaysList(l, today)
  }

  function LessonTime(l: Lesson): int { l.time }

  /** `upcomingLessons`: today's lessons that are not completed, earliest first.
      All of them share today's date, so the date comparison never decides. */
  function UpcomingLessons(lessons: seq<Lesson>, today: int): (r: seq<Lesson>)
    ensures forall l :: l in r <==> l in lessons && l.date == today && l.status != Completed
    ensures forall i, j :: 0 <= i < j < |r| ==> r[i].time <= r[j].time
    ensures |r| <= |lessons|
    ensures multiset(r) == multiset(Filter(lessons, OnToday(today)))
  {
    SortFiltered(lessons, OnToday(today), LessonTime);
    SortBy(Filter(lessons, OnToday(today)), LessonTime)
  }

  /** `nextLesson`: the head of today's list, if any. */
  function NextLesson(lessons: seq<Lesson>, today: int): (r: Option<Lesson>)
    ensures r.None? <==> forall l :: l in lessons ==> l.date != today || l.status == Completed
    ensures r.Some? ==> r.value in lessons && r.value.date == today && r.value.status != Completed
    ensures r.Some? ==> forall l :: l in lessons && l.date == today && l.status != Completed ==> r.value.time <= l.time
  {
    var up := UpcomingLessons(lessons, today);
    if |up| == 0 then None
    else
      assert forall l :: l in up ==> up[0].time <= l.time by {
        forall l | l in up ensures up[0].time <= l.time {
          var k :| 0 <= k < |up| && up[k] == l;
          assert k == 0 || up[0].time <= up[k].time;
        }
      }
      assert up[0] in up;
      Some(up[0])
  }

  /** Lessons at the same time keep the order they are stored in, since
      `sort` is stable. */
  lemma UpcomingKeepsStoredOrder(lessons: seq<Lesson>, today: int, k: int)
    ensures Filter(UpcomingLessons(lessons, today), HasKey(LessonTime, k))
         == Filter(Filter(lessons, OnToday(today)), HasKey(LessonTime, k))
  {
    SortByStable(Filter(lessons, OnToday(today)), LessonTime, k);
  }

  /** So the next lesson is the first stored of today's lessons at its time. */
  lemma NextLessonIsFirstStored(lessons: seq<Lesson>, today: int)
    requires NextLesson(lessons, today).Some?
    ensures var n := NextLesson(lessons, today).value;
            var same := Filter(Filter(lessons, OnToday(today)), HasKey(LessonTime, n.time));
            |same| > 0 && same[0] == n
  {
    var up := UpcomingLessons(lessons, today);
    var n := NextLesson(lessons, today).value;
    assert n == up[0];
    UpcomingKeepsStoredOrder(lessons, today, n.time);
    assert up == [up[0]] + up[1..];
    FilterCons(up[0], up[1..], HasKey(LessonTime, n.time));
  }

  // ----- the actionable window -----

  const MsPerMinute := 60000

  /** Integer division truncating toward zero, as date-fns' differenceInMinutes
      rounds a millisecond difference. */
  function TruncDiv(a: int, b: int): (q: int)
    requires b > 0
    ensures a >= 0 ==> q >= 0 && q * b <= a < (q + 1) * b
    ensures a < 0 ==> q <= 0 && (q - 1) * b < a <= q * b
  {
    if a >= 0 then
      FloorBounds(a, b);
      a / b
    else
      FloorBounds(-a, b);
      NegateBounds(-a, b, (-a) / b);
      -((-a) / b)
  }

  lemma FloorBounds(n: nat, b: int)
    requires b > 0
    ensures n / b >= 0 && (n / b) * b <= n < (n / b + 1) * b
  {
    var q := n / b;
    assert n == q * b + n % b;
    assert (q + 1) * b == q * b + b;
  }

  lemma NegateBounds(n: int, b: int, m: int)
    requires b > 0 && m * b <= n < (m + 1) * b
    ensures (-m - 1) * b < -n <= (-m) * b
  {
    assert (-m - 1) * b == -((m + 1) * b);
    assert (-m) * b == -(m * b);
  }

  /** Whole minutes from now until the lesson starts, truncated toward zero. */
  function DiffMinutes(startMs: int, nowMs: int): (d: int)
    ensures startMs >= nowMs ==> d >= 0 && d * MsPerMinute <= startMs - nowMs < (d + 1) * MsPerMinute
    ensures startMs < nowMs ==> d <= 0 && (d - 1) * MsPerMinute < startMs - nowMs <= d * MsPerMinute
  {
    TruncDiv(startMs - nowMs, MsPerMinute)
  }

  /** `isNextLessonActionable`: a started lesson always is; otherwise the
      start must be at most ten whole minutes ahead and less than a day behind. */
  function IsNextLessonActionable(next: Option<Lesson>, startMs: int, nowMs: int): (b: bool)
    ensures next.None? ==> !b
    ensures next.Some? && next.value.status == Started ==> b
    ensures next.Some? && next.value.status != Started ==>
      (b <==> -1440 < DiffMinutes(startMs, nowMs) <= 10)
  {
    match next
    case None => false
    case Some(l) =>
      if l.status == Started then true
      else
        var d := DiffMinutes(startMs, nowMs);
        d <= 10 && d > -1440
  }

  /** The minute window in milliseconds: the lesson may be started from just
      under eleven minutes before its start until just under a day after it. */
  lemma ActionableWindow(next: Option<Lesson>, startMs: int, nowMs: int)
    ensures IsNextLessonActionable(next, startMs, nowMs) <==>
      next.Some? && (next.value.status == Started || -1440 * MsPerMinute < startMs - nowMs < 11 * MsPerMinute)
  {
    var x := startMs - nowMs;
    var d := TruncDiv(x, MsPerMinute);
    if x >= 0 {
      assert d <= 10 <==> x < 11 * MsPerMinute by {
        if d <= 10 { assert (d + 1) * MsPerMinute <= 11 * MsPerMinute; }
        else { assert d * MsPerMinute >= 11 * MsPerMinute; }
      }
    } else {
      assert d > -1440 <==> x > -1440 * MsPerMinute by {
        if d > -1440 { assert (d - 1) * MsPerMinute >= -1440 * MsPerMinute; }
        else { assert d * MsPerMinute <= -1440 * MsPerMinute; }
      }
    }
  }

  // ----- where a tap leads -----

  datatype Sheet = AttendanceSheet | DetailsSheet | CancelConfirmSheet

  /** `selectedLesson`: the lesson together with a snapshot of its student. */
  datatype Selection = Selection(lesson: Lesson, student: Option<Student>)

  datatype CardOutcome = StudentMissing | Selected(selection: Selection, sheet: Option<Sheet>)

  /** `handleLessonCardClick`: a lesson whose student cannot be found is refused;
      otherwise it is selected and upcoming or scheduled lessons ask for
      attendance, a started one opens the completion sheet, others open nothing. */
  function LessonCardClick(students: seq<Student>, l: Lesson): (r: CardOutcome)
    ensures r == StudentMissing <==> forall i :: 0 <= i < |students| ==> students[i].id != l.studentId
    ensures r.Selected? ==>
      r.selection.lesson == l && r.selection.student.Some?
      && r.selection.student.value in students && r.selection.student.value.id == l.studentId
    ensures r.Selected? ==> (r.sheet == Some(AttendanceSheet) <==> l.status == Upcoming || l.status == Scheduled)
    ensures r.Selected? ==> (r.sheet == Some(DetailsSheet) <==> l.status == Started)
    ensures r.Selected? ==> r.sheet != Some(CancelConfirmSheet)
  {
    match FindStudent(students, l.studentId)
    case None => StudentMissing
    case Some(s) =>
      var sheet :=
        if l.status == Upcoming || l.status == Scheduled then Some(AttendanceSheet)
        else if l.status == Started then Some(DetailsSheet)
        else None;
      Selected(Selection(l, Some(s)), sheet)
  }

  /** `handleListItemClick`: started lessons open the completion sheet, every
      other lesson the cancel confirmation; the student may be missing. */
  function ListItemClick(students: seq<Student>, l: Lesson): (r: (Selection, Sheet))
    ensures r.0.lesson == l
    ensures r.0.student.None? <==> forall i :: 0 <= i < |students| ==> students[i].id != l.studentId
    ensures r.1 == DetailsSheet <==> l.status == Started
    ensures r.1 != DetailsSheet ==> r.1 == CancelConfirmSheet
  {
    (Selection(l, FindStudent(students, l.studentId)), if l.status == Started then DetailsSheet else CancelConfirmSheet)
  }

  /** The list item and the card select the same lesson with the same student
      snapshot whenever the student is found, and for a started lesson both
      open the completion sheet. */
  lemma ListAndCardAgree(students: seq<Student>, l: Lesson)
    requires FindStudent(students, l.studentId).Some?
    ensures LessonCardClick(students, l).Selected?
    ensures ListItemClick(students, l).0 == LessonCardClick(students, l).selection
    ensures l.status == Started ==> LessonCardClick(students, l).sheet == Some(ListItemClick(students, l).1)
  {
  }

  // ----- status transitions -----

  /** `updateLessonStatus`: the lessons with the id get the status and attendance. */
  function UpdateLessonStatus(lessons: seq<Lesson>, id: int, status: LessonStatus, attendance: Attendance): (r: seq<Lesson>)
    ensures |r| == |lessons|
    ensures forall i :: 0 <= i < |lessons| && lessons[i].id != id ==> r[i] == lessons[i]
    ensures forall i :: 0 <= i < |lessons| && lessons[i].id == id ==>
      r[i] == lessons[i].(status := status, attendance := Some(attendance))
  {
    MapWhere(lessons, (l: Lesson) => l.id == id, (l: Lesson) => l.(status := status, attendance := Some(attendance)))
  }

  /** `handleAttendance`: present starts the lesson, absent marks it absent. */
  function MarkAttendance(lessons: seq<Lesson>, sel: Selection, present: bool): (r: seq<Lesson>)
    ensures |r| == |lessons|
    ensures forall i :: 0 <= i < |lessons| && lessons[i].id == sel.lesson.id ==>
      r[i] == lessons[i].(status := if present then Started else Absent,
                          attendance := Some(if present then Present else NotPresent))
    ensures forall i :: 0 <= i < |lessons| && lessons[i].id != sel.lesson.id ==> r[i] == lessons[i]
  {
    if present then UpdateLessonStatus(lessons, sel.lesson.id, Started, Present)
    else UpdateLessonStatus(lessons, sel.lesson.id, Absent, NotPresent)
  }

  /** `handleCancelLesson`. */
  function CancelLesson(lessons: seq<Lesson>, sel: Selection): (r: seq<Lesson>)
    ensures |r| == |lessons|
    ensures forall i :: 0 <= i < |lessons| && lessons[i].id == sel.lesson.id ==>
      r[i] == lessons[i].(status := Cancelled, attendance := Some(CalledOff))
    ensures forall i :: 0 <= i < |lessons| && lessons[i].id != sel.lesson.id ==> r[i] == lessons[i]
  {
    UpdateLessonStatus(lessons, sel.lesson.id, Cancelled, CalledOff)
  }

  /** Marking a student present turns the next tap on that lesson's card into
      the completion sheet. */
  lemma PresentLeadsToCompletion(students: seq<Student>, lessons: seq<Lesson>, sel: Selection, k: nat)
    requires k < |lessons| && lessons[k].id == sel.lesson.id
    requires LessonCardClick(students, MarkAttendance(lessons, sel, true)[k]).Selected?
    ensures LessonCardClick(students, MarkAttendance(lessons, sel, true)[k]).sheet == Some(DetailsSheet)
  {
  }

  // ----- paying for a completed lesson -----

  datatype PaymentMethod = ByBalance | ByCash | ByDebt

  /** The LessonEndModal's initial choice. */
  function DefaultMethod(s: Student): (m: PaymentMethod)
    ensures m != ByCash
    ensures m == ByBalance <==> s.balance >= s.feePerLesson
  {
    if s.balance >= s.feePerLesson then ByBalance else ByDebt
  }

  /** The choices the modal shows: deducting from the balance only when the
      balance covers the fee. */
  function OfferedMethods(s: Student): (r: seq<PaymentMethod>)
    ensures ByCash in r && ByDebt in r
    ensures ByBalance in r <==> s.balance >= s.feePerLesson
    ensures DefaultMethod(s) in r
  {
    (if s.balance >= s.feePerLesson then [ByBalance] else []) + [ByCash, ByDebt]
  }

  /** What one payment method does to the student's balance and the cash box. */
  datatype Settlement = Settlement(newBalance: int, status: PaymentStatus, cashIn: int)

  /** The three branches of `handleCompleteLesson`. */
  function Settle(s: Student, m: PaymentMethod): (r: Settlement)
    ensures (s.balance - r.newBalance) + r.cashIn == s.feePerLesson
    ensures m == ByCash ==> r.newBalance == s.balance && r.cashIn == s.feePerLesson
    ensures m != ByCash ==> r.newBalance == s.balance - s.feePerLesson && r.cashIn == 0
    ensures m == ByDebt <==> r.status == Unpaid
    ensures m == ByCash <==> r.status == PaidCash
    ensures m == ByBalance <==> r.status == DeductedBalance
  {
    match m
    case ByBalance => Settlement(s.balance - s.feePerLesson, DeductedBalance, 0)
    case ByCash => Settlement(s.balance, PaidCash, s.feePerLesson)
    case ByDebt => Settlement(s.balance - s.feePerLesson, Unpaid, 0)
  }

  /** Deducting from the balance is offered only when it leaves no debt. */
  lemma OfferedBalanceNeverNegative(s: Student, m: PaymentMethod)
    requires m in OfferedMethods(s) && m == ByBalance
    ensures Settle(s, m).newBalance >= 0
  {
  }

  /** The students with the id get the balance. */
  function SetBalance(ss: seq<Student>, id: int, balance: int): (r: seq<Student>)
    ensures |r| == |ss|
    ensures forall i :: 0 <= i < |ss| && ss[i].id != id ==> r[i] == ss[i]
    ensures forall i :: 0 <= i < |ss| && ss[i].id == id ==> r[i] == ss[i].(balance := balance)
  {
    MapWhere(ss, (s: Student) => s.id == id, (s: Student) => s.(balance := balance))
  }

  /** The lessons with the id become completed with the notes and payment status. */
  function MarkCompleted(lessons: seq<Lesson>, id: int, topic: string, homework: string, ps: PaymentStatus): (r: seq<Lesson>)
    ensures |r| == |lessons|
    ensures forall i :: 0 <= i < |lessons| && lessons[i].id != id ==> r[i] == lessons[i]
    ensures forall i :: 0 <= i < |lessons| && lessons[i].id == id ==>
      r[i] == lessons[i].(status := Completed, topic := topic, homework := homework, paymentStatus := Some(ps))
  {
    MapWhere(lessons, (l: Lesson) => l.id == id,
      (l: Lesson) => l.(status := Completed, topic := topic, homework := homework, paymentStatus := Some(ps)))
  }

  datatype CompletionError = NoStudentSnapshot

  /** `handleCompleteLesson` as its branches evidently intend: the student's
      balance is set from the snapshot, the lesson is completed with its notes,
      and a cash payment also records a 'collection' transaction of the fee.
      A selection without a student snapshot fails before any write. */
  function CompleteLesson(inst: Institution, sel: Selection, topic: string, homework: string, m: PaymentMethod, stamp: Stamp): (r: Result<Institution, CompletionError>)
    ensures r.Err? <==> sel.student.None?
    ensures r.Ok? ==>
      var s := sel.student.value;
      var st := Settle(s, m);
      && r.value == inst.(students := r.value.students, lessons := r.value.lessons,
                          cash := r.value.cash, transactions := r.value.transactions)
      && |r.value.students| == |inst.students|
      && (forall i :: 0 <= i < |inst.students| && inst.students[i].id != s.id ==> r.value.students[i] == inst.students[i])
      && (forall i :: 0 <= i < |inst.students| && inst.students[i].id == s.id ==>
            r.value.students[i] == inst.students[i].(balance := st.newBalance))
      && |r.value.lessons| == |inst.lessons|
      && (forall i :: 0 <= i < |inst.lessons| && inst.lessons[i].id != sel.lesson.id ==> r.value.lessons[i] == inst.lessons[i])
      && (forall i :: 0 <= i < |inst.lessons| && inst.lessons[i].id == sel.lesson.id ==>
            r.value.lessons[i] == inst.lessons[i].(status := Completed, topic := topic, homework := homework,
                                                   paymentStatus := Some(st.status)))
      && (m == ByCash ==> PostsOne(inst, r.value, s.feePerLesson) && r.value.transactions[0].kind == "collection"
                          && r.value.transactions[0].description == "Ders Ücreti: " + s.name)
      && (m != ByCash ==> r.value.cash == inst.cash && r.value.transactions == inst.transactions)
  {
    match sel.student
    case None => Err(NoStudentSnapshot)
    case Some(s) =>
      var st := Settle(s, m);
      var after := inst.(students := SetBalance(inst.students, s.id, st.newBalance),
                         lessons := MarkCompleted(inst.lessons, sel.lesson.id, topic, homework, st.status));
      if m == ByCash then
        var tx := Transaction(stamp.id, "collection", "Ders Ücreti: " + s.name, s.feePerLesson, stamp.date, stamp.time);
        Ok(after.(cash := after.cash + s.feePerLesson, transactions := [tx] + after.transactions))
      else Ok(after)
  }

  /** `handleCompleteLesson` as written: in the cash branch `setTransactions` is
      not among the names taken from the institution context, so the call
      throws right after `setCash` has been applied and neither the student nor
      the lesson is updated. The other two branches behave as intended. */
  function CompleteLessonAsWritten(inst: Institution, sel: Selection, topic: string, homework: string, m: PaymentMethod, stamp: Stamp): (r: Result<Institution, CompletionError>)
    ensures m != ByCash ==> r == CompleteLesson(inst, sel, topic, homework, m, stamp)
    ensures m == ByCash && sel.student.Some? ==>
      r == Ok(inst.(cash := inst.cash + sel.student.value.feePerLesson))
  {
    match sel.student
    case None => Err(NoStudentSnapshot)
    case Some(s) =>
      if m == ByCash then Ok(inst.(cash := inst.cash + s.feePerLesson))
      else CompleteLesson(inst, sel, topic, homework, m, stamp)
  }

  /** Once completed, a lesson leaves today's list, so its card cannot be tapped
      and it cannot be completed a second time from the home screen. */
  lemma CompletedLeavesTodaysList(inst: Institution, sel: Selection, topic: string, homework: string, m: PaymentMethod, stamp: Stamp, today: int)
    requires CompleteLesson(inst, sel, topic, homework, m, stamp).Ok?
    ensures forall l :: l in UpcomingLessons(CompleteLesson(inst, sel, topic, homework, m, stamp).value.lessons, today) ==> l.id != sel.lesson.id
  {
    var after := CompleteLesson(inst, sel, topic, homework, m, stamp).value.lessons;
    forall l | l in UpcomingLessons(after, today) ensures l.id != sel.lesson.id {
      var k :| 0 <= k < |after| && after[k] == l;
    }
  }

  /** The as-written cash branch, shown on a concrete lesson: the fee reaches the
      cash box but no transaction is recorded and the lesson stays started, so
      it can be completed again and the fee counted twice. */
  lemma CashCompletionAsWrittenRepeats()
    ensures
      var s := Student(1, "Ada", "Piyano", 100, 0, "", None, "");
      var l := Lesson(7, 1, 0, 600, Started, "", "", None, None);
      var inst := Institution("k", "Kurumum", None, [s], [l], [], 0, []);
      var sel := Selection(l, Some(s));
      var stamp := Stamp("t", "", "");
      var once := CompleteLessonAsWritten(inst, sel, "", "", ByCash, stamp).value;
      var twice := CompleteLessonAsWritten(once, sel, "", "", ByCash, stamp).value;
      && once.lessons[0].status == Started
      && once.transactions == []
      && twice.cash == 200
      && CompleteLesson(inst, sel, "", "", ByCash, stamp).value.lessons[0].status == Completed
      && CompleteLesson(inst, sel, "", "", ByCash, stamp).value.cash == 100
      && |CompleteLesson(inst, sel, "", "", ByCash, stamp).value.transactions| == 1
  {
  }
}

=== FILE: domain.dfy ===
/** The records the tutor application stores per institution (studio): students,
    lessons, institution transactions, resources, and the user's global safe
    transactions. Dates are day numbers and times are minutes after midnight;
    timestamps and ids the application draws from the clock or from uuid are
    opaque inputs. */
module Domain {
  import opened Common

  /** A student. `balance` is signed: positive is prepaid credit, negative is debt. */
  datatype Student = Student(
    id: int,
    name: string,
    instrument: string,
    feePerLesson: int,
    balance: int,
    phone: string,
    photo: Option<string>,
    avatarColor: string)

  datatype LessonStatus = Upcoming | Scheduled | Started | Absent | Cancelled | Completed

  /** `paymentStatus` of a completed lesson: 'unpaid', 'deducted_balance', 'paid_cash'. */
  datatype PaymentStatus = Unpaid | DeductedBalance | PaidCash

  /** `attendance` written next to a status change: 'present', 'absent', 'cancelled'. */
  datatype Attendance = Present | NotPresent | CalledOff

  datatype Lesson = Lesson(
    id: int,
    studentId: int,
    date: int,
    time: nat,
    status: LessonStatus,
    topic: string,
    homework: string,
    paymentStatus: Option<PaymentStatus>,
    attendance: Option<Attendance>)

  /** An institution-scoped money movement; `kind` is the source's free-form `type` tag. */
  datatype Transaction = Transaction(
    id: string,
    kind: string,
    description: string,
    amount: int,
    date: string,
    time: string)

  datatype GlobalKind = TransferIn | Withdraw

  /** A movement of the user's global safe ("Genel Kasa"). */
  datatype GlobalTransaction = GlobalTransaction(
    id: string,
    kind: GlobalKind,
    institutionName: string,
    amount: int,
    date: string,
    time: string)

  datatype ResourceType = Book | Pdf | Link

  /** 'active' or 'completed'. */
  datatype ResourceStatus = Active | Finished

  /** A teaching resource. `studentId` is the value of the student picker, which
      is the text of the student's id, or null for a resource meant for all. */
  datatype Resource = Resource(
    id: string,
    title: string,
    kind: ResourceType,
    url: string,
    studentId: Option<string>,
    date: string,
    status: ResourceStatus)

  datatype Institution = Institution(
    id: string,
    name: string,
    photo: Option<string>,
    students: seq<Student>,
    lessons: seq<Lesson>,
    transactions: seq<Transaction>,
    cash: int,
    resources: seq<Resource>)

  /** What a new record takes from uuid/Date.now() and formatDateTime. */
  datatype Stamp = Stamp(id: string, date: string, time: string)

  // ----- money helpers -----

  function TxAmount(t: Transaction): int { t.amount }
  function GlobalAmount(t: GlobalTransaction): int { t.amount }
  function BalanceOf(s: Student): int { s.balance }

  predicate IsDebtor(s: Student) { s.balance < 0 }

  /** The amount a student owes: |balance| for a debtor, nothing otherwise. */
  function DebtOf(s: Student): (d: int)
    ensures d >= 0
    ensures d > 0 <==> IsDebtor(s)
  {
    if s.balance < 0 then -s.balance else 0
  }

  function AbsBalance(s: Student): int { Abs(s.balance) }

  /** Number of students carrying the given id. */
  function CountId(ss: seq<Student>, id: int): nat
  {
    if |ss| == 0 then 0 else (if ss[0].id == id then 1 else 0) + CountId(ss[1..], id)
  }

  /** No record carries the id exactly when the count is zero. */
  lemma {:induction false} CountIdZero(ss: seq<Student>, id: int)
    ensures CountId(ss, id) == 0 <==> forall i :: 0 <= i < |ss| ==> ss[i].id != id
  {
    if |ss| > 0 {
      CountIdZero(ss[1..], id);
      assert forall i :: 1 <= i < |ss| ==> ss[i] == ss[1..][i - 1];
    }
  }

  /** `students.map(s => s.id === id ? { ...s, balance: s.balance + amount } : s)`. */
  function CreditStudent(ss: seq<Student>, id: int, amount: int): (r: seq<Student>)
    ensures |r| == |ss|
    ensures forall i :: 0 <= i < |ss| && ss[i].id != id ==> r[i] == ss[i]
    ensures forall i :: 0 <= i < |ss| && ss[i].id == id ==> r[i] == ss[i].(balance := ss[i].balance + amount)
  {
    if |ss| == 0 then []
    else [if ss[0].id == id then ss[0].(balance := ss[0].balance + amount) else ss[0]] + CreditStudent(ss[1..], id, amount)
  }

  /** Crediting a student moves the total of all balances by the amount once per
      record with that id, so by exactly the amount when the id is unique. */
  lemma {:induction false} CreditStudentTotal(ss: seq<Student>, id: int, amount: int)
    ensures SumBy(CreditStudent(ss, id, amount), BalanceOf) == SumBy(ss, BalanceOf) + Times(amount, CountId(ss, id))
  {
    if |ss| > 0 {
      CreditStudentTotal(ss[1..], id, amount);
      CreditStudentStep(ss, id, amount);
    }
  }

  /** One step of CreditStudentTotal: the head record's contribution. */
  lemma CreditStudentStep(ss: seq<Student>, id: int, amount: int)
    requires |ss| > 0
    requires SumBy(CreditStudent(ss[1..], id, amount), BalanceOf) == SumBy(ss[1..], BalanceOf) + Times(amount, CountId(ss[1..], id))
    ensures SumBy(CreditStudent(ss, id, amount), BalanceOf) == SumBy(ss, BalanceOf) + Times(amount, CountId(ss, id))
  {
    var r := CreditStudent(ss, id, amount);
    assert r[1..] == CreditStudent(ss[1..], id, amount);
    SumByFront(r, BalanceOf);
    SumByFront(ss, BalanceOf);
    var c := CountId(ss[1..], id);
    if ss[0].id == id {
      assert BalanceOf(r[0]) == BalanceOf(ss[0]) + amount;
      assert CountId(ss, id) == c + 1;
      assert Times(amount, c + 1) == amount + Times(amount, c);
    } else {
      assert r[0] == ss[0];
      assert CountId(ss, id) == c;
    }
  }

  /** `n` copies of `a` added up, i.e. a * n. */
  function Times(a: int, n: nat): int
  {
    if n == 0 then 0 else a + Times(a, n - 1)
  }

  lemma {:induction false} TimesIsProduct(a: int, n: nat)
    ensures Times(a, n) == a * n
  {
    if n > 0 {
      TimesIsProduct(a, n - 1);
      assert a * n == a + a * (n - 1);
    }
  }

  /** The first student with the given id (`students.find(s => s.id === id)`). */
  function FindStudent(ss: seq<Student>, id: int): (r: Option<Student>)
    ensures r.None? <==> forall i :: 0 <= i < |ss| ==> ss[i].id != id
    ensures r.Some? ==> r.value in ss && r.value.id == id
    ensures r.Some? ==> exists k :: 0 <= k < |ss| && ss[k] == r.value && forall j :: 0 <= j < k ==> ss[j].id != id
  {
    if |ss| == 0 then None
    else if ss[0].id == id then Some(ss[0])
    else
      var r := FindStudent(ss[1..], id);
      assert r.Some? ==> exists k :: 0 <= k < |ss| && ss[k] == r.value && forall j :: 0 <= j < k ==> ss[j].id != id by {
        if r.Some? {
          var k :| 0 <= k < |ss[1..]| && ss[1..][k] == r.value && forall j :: 0 <= j < k ==> ss[1..][j].id != id;
          assert ss[k + 1] == r.value;
          forall j | 0 <= j < k + 1 ensures ss[j].id != id {
            if j > 0 { assert ss[j] == ss[1..][j - 1]; }
          }
        }
      }
      r
  }

  /** The lookup finds a record when no earlier record carries its id. */
  lemma FindStudentAt(ss: seq<Student>, k: nat)
    requires k < |ss| && forall j :: 0 <= j < k ==> ss[j].id != ss[k].id
    ensures FindStudent(ss, ss[k].id) == Some(ss[k])
  {
    var r := FindStudent(ss, ss[k].id);
    var m :| 0 <= m < |ss| && ss[m] == r.value && forall j :: 0 <= j < m ==> ss[j].id != ss[k].id;
    assert !(m < k) && !(k < m);
  }

  /** `after` records exactly one new transaction of `amount` in front of
      `before`'s history and moves the cash box by the same amount: the shape of
      every handler that posts to the institution ledger. */
  ghost predicate PostsOne(before: Institution, after: Institution, amount: int) {
    after.cash == before.cash + amount
    && |after.transactions| == |before.transactions| + 1
    && after.transactions[0].amount == amount
    && after.transactions[1..] == before.transactions
  }

  /** A posting keeps the difference between the cash box and the sum of the
      recorded transactions, whatever that difference was. */
  lemma PostsOneKeepsGap(before: Institution, after: Institution, amount: int)
    requires PostsOne(before, after, amount)
    ensures after.cash - SumBy(after.transactions, TxAmount) == before.cash - SumBy(before.transactions, TxAmount)
  {
    SumByFront(after.transactions, TxAmount);
  }
}

=== FILE: finance.dfy ===
/** The Finance screen of one institution (src/pages/Finance.jsx): receivables,
    collecting every debt at once, taking a payment from one debtor, manual
    income and expense entries, and the guard in front of a transfer to the
    global safe. Every handler is a function from the institution record before
    the event to the record after it. */
module Finance {
  import opened Common
  import opened Domain
  import opened Amounts

  // ----- receivables -----

  /** `totalReceivables`: the sum of |balance| over the students in debt. */
  function TotalReceivables(ss: seq<Student>): (r: int)
    ensures r >= 0
  {
    SumByNonNegative(Filter(ss, IsDebtor), AbsBalance);
    SumBy(Filter(ss, IsDebtor), AbsBalance)
  }

  /** `totalEarnings`: money in the box plus money still owed. */
  function TotalEarnings(inst: Institution): (r: int)
    ensures r >= inst.cash
    ensures r == inst.cash <==> forall i :: 0 <= i < |inst.students| ==> !IsDebtor(inst.students[i])
  {
    ReceivablesZeroIff(inst.students);
    inst.cash + TotalReceivables(inst.students)
  }

  /** The receivables are the debts of all students added up. */
  lemma ReceivablesAreDebts(ss: seq<Student>)
    ensures TotalReceivables(ss) == SumBy(ss, DebtOf)
  {
    SumByFilter(ss, IsDebtor, AbsBalance, DebtOf);
  }

  /** Nothing is owed exactly when no student is in debt. */
  lemma ReceivablesZeroIff(ss: seq<Student>)
    ensures TotalReceivables(ss) == 0 <==> forall i :: 0 <= i < |ss| ==> !IsDebtor(ss[i])
  {
    ReceivablesAreDebts(ss);
    if exists i :: 0 <= i < |ss| && IsDebtor(ss[i]) {
      var i :| 0 <= i < |ss| && IsDebtor(ss[i]);
      SumByElemLe(ss, DebtOf, i);
    } else {
      assert forall x :: x in ss ==> !IsDebtor(x);
      assert Filter(ss, IsDebtor) == [];
    }
  }

  // ----- collect all -----

  /** What pressing "collect all" does: a notice when nothing is owed, otherwise
      the confirmation sheet opens. */
  datatype CollectPrompt = NothingToCollect | ConfirmCollect

  /** `handleCollectAll`. */
  function HandleCollectAll(inst: Institution): (r: CollectPrompt)
    ensures r == NothingToCollect <==> forall i :: 0 <= i < |inst.students| ==> !IsDebtor(inst.students[i])
  {
    ReceivablesZeroIff(inst.students);
    if TotalReceivables(inst.students) == 0 then NothingToCollect else ConfirmCollect
  }

  /** Every debt set to zero, every other record kept. */
  function ClearDebts(ss: seq<Student>): (r: seq<Student>)
    ensures |r| == |ss|
    ensures forall i :: 0 <= i < |ss| && ss[i].balance >= 0 ==> r[i] == ss[i]
    ensures forall i :: 0 <= i < |ss| && ss[i].balance < 0 ==> r[i] == ss[i].(balance := 0)
  {
    if |ss| == 0 then []
    else [if ss[0].balance < 0 then ss[0].(balance := 0) else ss[0]] + ClearDebts(ss[1..])
  }

  /** Clearing the debts raises the total of the balances by exactly what was owed. */
  lemma {:induction false} ClearDebtsTotal(ss: seq<Student>)
    ensures SumBy(ClearDebts(ss), BalanceOf) == SumBy(ss, BalanceOf) + SumBy(ss, DebtOf)
  {
    if |ss| > 0 {
      ClearDebtsTotal(ss[1..]);
      var r := ClearDebts(ss);
      assert r[1..] == ClearDebts(ss[1..]);
      SumByFront(r, BalanceOf);
      SumByFront(ss, BalanceOf);
      SumByFront(ss, DebtOf);
    }
  }

  /** `confirmCollection`: the receivables move into the cash box and every
      negative balance becomes zero; the transaction history is not touched. */
  function ConfirmCollection(inst: Institution): (r: Institution)
    ensures r.cash == inst.cash + TotalReceivables(inst.students)
    ensures |r.students| == |inst.students|
    ensures forall i :: 0 <= i < |r.students| ==> r.students[i].balance >= 0
    ensures forall i :: 0 <= i < |inst.students| && inst.students[i].balance >= 0 ==> r.students[i] == inst.students[i]
    ensures forall i :: 0 <= i < |inst.students| && inst.students[i].balance < 0 ==> r.students[i] == inst.students[i].(balance := 0)
    ensures TotalReceivables(r.students) == 0
    ensures TotalEarnings(r) == TotalEarnings(inst)
    ensures r.transactions == inst.transactions && r.lessons == inst.lessons
    ensures r == inst.(cash := r.cash, students := r.students)
  {
    var students := ClearDebts(inst.students);
    ReceivablesZeroIff(students);
    inst.(cash := inst.cash + TotalReceivables(inst.students), students := students)
  }

  /** With nothing owed the confirmation changes nothing, so collect-all is a
      no-op on the ledger whichever branch is taken. */
  lemma ConfirmCollectionNothingOwed(inst: Institution)
    requires TotalReceivables(inst.students) == 0
    ensures ConfirmCollection(inst) == inst
  {
    ReceivablesZeroIff(inst.students);
    var r := ConfirmCollection(inst);
    assert r.students == inst.students;
  }

  /** Collecting keeps the sum of balances plus cash: what the students gain is
      what the box gains. */
  lemma ConfirmCollectionConserves(inst: Institution)
    ensures SumBy(ConfirmCollection(inst).students, BalanceOf) - ConfirmCollection(inst).cash
         == SumBy(inst.students, BalanceOf) - inst.cash
  {
    ClearDebtsTotal(inst.students);
    ReceivablesAreDebts(inst.students);
  }

  // ----- paying one debtor -----

  /** `finalizePayment`: without an open payment sheet or a chosen option nothing
      happens; otherwise the student is credited, the cash box grows and one
      transaction named after the student is recorded first. */
  function FinalizePayment(inst: Institution, payee: Option<Student>, amount: Option<int>, stamp: Stamp, shortDate: string): (r: Institution)
    ensures payee.None? || amount.None? ==> r == inst
    ensures payee.Some? && amount.Some? ==>
      && PostsOne(inst, r, amount.value)
      && r.transactions[0].kind == payee.value.name
      && r.transactions[0].description == shortDate + " tarihli ders ödemesi"
      && |r.students| == |inst.students|
      && (forall i :: 0 <= i < |inst.students| && inst.students[i].id != payee.value.id ==> r.students[i] == inst.students[i])
      && (forall i :: 0 <= i < |inst.students| && inst.students[i].id == payee.value.id ==>
            r.students[i] == inst.students[i].(balance := inst.students[i].balance + amount.value))
      && r.lessons == inst.lessons
      && r == inst.(cash := r.cash, students := r.students, transactions := r.transactions)
  {
    if payee.None? || amount.None? then inst
    else
      var tx := Transaction(stamp.id, payee.value.name, shortDate + " tarihli ders ödemesi", amount.value, stamp.date, stamp.time);
      inst.(cash := inst.cash + amount.value,
            students := CreditStudent(inst.students, payee.value.id, amount.value),
            transactions := [tx] + inst.transactions)
  }

  /** With a unique student id, a payment moves the total of balances by the
      amount, the same amount the cash box moves. */
  lemma FinalizePaymentTotals(inst: Institution, payee: Student, amount: int, stamp: Stamp, shortDate: string)
    requires CountId(inst.students, payee.id) == 1
    ensures SumBy(FinalizePayment(inst, Some(payee), Some(amount), stamp, shortDate).students, BalanceOf)
         == SumBy(inst.students, BalanceOf) + amount
  {
    CreditStudentTotal(inst.students, payee.id, amount);
    assert Times(amount, 1) == amount + Times(amount, 0);
  }

  // ----- payment options -----

  /** Math.ceil(a / b) for integers, b non-zero. */
  function CeilDiv(a: int, b: int): (q: int)
    requires b != 0
    ensures b > 0 ==> (q - 1) * b < a <= q * b
    ensures b < 0 ==> q * b <= a < (q - 1) * b
  {
    if b > 0 then -((-a) / b) else -(a / (-b))
  }

  /** For a positive fee, more than k lessons are owed exactly when the debt
      exceeds k fees. */
  lemma CeilDivExceeds(a: int, b: int, k: int)
    requires b > 0
    ensures CeilDiv(a, b) > k <==> a > k * b
  {
    var q := CeilDiv(a, b);
    if q > k {
      assert (q - 1) * b >= k * b;
    } else {
      assert q * b <= k * b;
    }
  }

  /** `lessonCount` in the debtors list: how many lessons the debt amounts to,
      zero when the student has no fee. */
  function LessonCount(s: Student): (n: int)
    ensures s.feePerLesson == 0 ==> n == 0
    ensures s.feePerLesson > 0 ==> (n - 1) * s.feePerLesson < Abs(s.balance) <= n * s.feePerLesson
    ensures s.feePerLesson < 0 ==> n * s.feePerLesson <= Abs(s.balance) < (n - 1) * s.feePerLesson
  {
    if s.feePerLesson != 0 then CeilDiv(Abs(s.balance), s.feePerLesson) else 0
  }

  /** A button on the payment sheet: the amount it pays and its caption. */
  datatype PaymentOption = PaymentOption(amount: int, caption: string)

  const OneLesson := "1 Ders Ücreti"
  const TwoLessons := "2 Ders Ücreti"
  const WholeDebt := "Tüm Borç"

  function HasCaption(opts: seq<PaymentOption>, caption: string): bool {
    exists i :: 0 <= i < |opts| && opts[i].caption == caption
  }

  /** The buttons of the payment sheet: one fee when more than one lesson is
      owed, two fees when more than two are, and always the whole debt. */
  function PaymentOptions(s: Student): (r: seq<PaymentOption>)
    ensures |r| > 0 && r[|r| - 1] == PaymentOption(Abs(s.balance), WholeDebt)
    ensures HasCaption(r, OneLesson) <==> s.feePerLesson > 0 && Abs(s.balance) > s.feePerLesson
    ensures HasCaption(r, TwoLessons) <==> s.feePerLesson > 0 && Abs(s.balance) > 2 * s.feePerLesson
    ensures forall i :: 0 <= i < |r| && r[i].caption == OneLesson ==> r[i].amount == s.feePerLesson
    ensures forall i :: 0 <= i < |r| && r[i].caption == TwoLessons ==> r[i].amount == 2 * s.feePerLesson
    ensures forall i :: 0 <= i < |r| ==> r[i].amount <= Abs(s.balance)
    ensures forall i :: 0 <= i < |r| - 1 ==> r[i].caption != WholeDebt
  {
    var fee := s.feePerLesson;
    var debt := Abs(s.balance);
    var count := if fee > 0 then CeilDiv(debt, fee) else 0;
    assert count > 1 <==> fee > 0 && debt > fee by {
      if fee > 0 { CeilDivExceeds(debt, fee, 1); }
    }
    assert count > 2 <==> fee > 0 && debt > 2 * fee by {
      if fee > 0 { CeilDivExceeds(debt, fee, 2); }
    }
    var r := (if count > 1 then [PaymentOption(fee, OneLesson)] else [])
           + (if count > 2 then [PaymentOption(fee * 2, TwoLessons)] else [])
           + [PaymentOption(debt, WholeDebt)];
    assert HasCaption(r, OneLesson) ==> count > 1;
    assert HasCaption(r, TwoLessons) ==> count > 2;
    assert count > 1 ==> r[0].caption == OneLesson;
    assert count > 2 ==> r[|r| - 2].caption == TwoLessons;
    r
  }

  /** Whichever button is pressed for a student in debt, the payment it
      finalizes never turns the debt into credit, and the whole-debt button
      brings the balance to exactly zero. */
  lemma PaymentNeverOvershoots(inst: Institution, k: nat, i: nat, stamp: Stamp, shortDate: string)
    requires k < |inst.students| && IsDebtor(inst.students[k])
    requires i < |PaymentOptions(inst.students[k])|
    ensures var s := inst.students[k];
            var paid := FinalizePayment(inst, Some(s), Some(PaymentOptions(s)[i].amount), stamp, shortDate);
            && paid.students[k].balance <= 0
            && (PaymentOptions(s)[i].caption == WholeDebt ==> paid.students[k].balance == 0)
  {
    var s := inst.students[k];
    var r := PaymentOptions(s);
    assert r[i].caption == WholeDebt ==> i == |r| - 1;
  }

  // ----- manual income and expense -----

  datatype EntryKind = Income | Expense

  datatype FinanceError = MissingInput | InvalidAmount | InsufficientCash

  /** The signed amount an entry posts: positive for income, negative for expense. */
  function Signed(kind: EntryKind, amount: int): (v: int)
    ensures kind == Income ==> v == amount
    ensures kind == Expense ==> v == -amount
  {
    if kind == Income then amount else -amount
  }

  /** `handleSaveTransaction`: an empty description or amount, or an amount
      parseAmount rejects, is refused; otherwise the cash box moves by the
      signed amount and the entry is recorded first. */
  function SaveTransaction(inst: Institution, kind: EntryKind, desc: string, amountText: string, stamp: Stamp): (r: Result<Institution, FinanceError>)
    ensures |desc| == 0 || |amountText| == 0 ==> r == Err(MissingInput)
    ensures r.Ok? <==> |desc| > 0 && |amountText| > 0 && ParseAmount(amountText).Some?
    ensures r.Ok? ==>
      && PostsOne(inst, r.value, Signed(kind, ParseAmount(amountText).value))
      && r.value.transactions[0].kind == (if kind == Income then "Gelir" else "Gider")
      && r.value.transactions[0].description == desc
      && r.value.students == inst.students && r.value.lessons == inst.lessons
      && r.value == inst.(cash := r.value.cash, transactions := r.value.transactions)
    ensures r.Ok? ==> (r.value.cash > inst.cash <==> kind == Income) && r.value.cash != inst.cash
  {
    if |desc| == 0 || |amountText| == 0 then Err(MissingInput)
    else match ParseAmount(amountText)
      case None => Err(InvalidAmount)
      case Some(amount) =>
        var v := Signed(kind, amount);
        var tx := Transaction(stamp.id, if kind == Income then "Gelir" else "Gider", desc, v, stamp.date, stamp.time);
        var after := inst.(cash := inst.cash + v, transactions := [tx] + inst.transactions);
        assert after.transactions[0] == tx && after.transactions[1..] == inst.transactions;
        assert amount > 0 && (v > 0 <==> kind == Income);
        Ok(after)
  }

  // ----- transfer to the global safe -----

  /** What the transfer sheet's confirm button does. */
  datatype TransferRequest = Ignored | Refused(error: FinanceError) | Requested(amount: int)

  /** `handleGlobalTransfer`: an empty field does nothing, an invalid amount or
      one above the cash box is refused, otherwise the transfer is requested. */
  function RequestGlobalTransfer(cash: int, amountText: string): (r: TransferRequest)
    ensures |amountText| == 0 ==> r == Ignored
    ensures r.Requested? <==> |amountText| > 0 && ParseAmount(amountText).Some? && ParseAmount(amountText).value <= cash
    ensures r.Requested? ==> 0 < r.amount <= cash && Some(r.amount) == ParseAmount(amountText)
  {
    if |amountText| == 0 then Ignored
    else match ParseAmount(amountText)
      case None => Refused(InvalidAmount)
      case Some(amount) => if amount > cash then Refused(InsufficientCash) else Requested(amount)
  }
}

=== FILE: global_safe.dfy ===
/** The user's global safe ("Genel Kasa") and its three handlers in
    src/App_NEW.jsx: a transfer in from the active institution's cash box, a
    partial withdrawal, and a reset that withdraws everything. */
module GlobalSafe {
  import opened Common
  import opened Domain
  import Finance

  /** `globalCash` and `globalTransactions`, newest transaction first. */
  datatype Safe = Safe(cash: int, history: seq<GlobalTransaction>)

  /** The safe's balance agrees with the sum of its recorded movements. */
  ghost predicate Balanced(safe: Safe) {
    safe.cash == SumBy(safe.history, GlobalAmount)
  }

  /** `after` records one movement of `amount` in front of `before`'s history
      and moves the balance by the same amount. */
  ghost predicate RecordsOne(before: Safe, after: Safe, amount: int) {
    after.cash == before.cash + amount
    && |after.history| == |before.history| + 1
    && after.history[0].amount == amount
    && after.history[1..] == before.history
  }

  lemma RecordsOneKeepsBalance(before: Safe, after: Safe, amount: int)
    requires RecordsOne(before, after, amount)
    ensures after.cash - SumBy(after.history, GlobalAmount) == before.cash - SumBy(before.history, GlobalAmount)
    ensures Balanced(before) ==> Balanced(after)
  {
    SumByFront(after.history, GlobalAmount);
  }

  /** `handleTransferToGlobalSafe`: an amount that is not positive or exceeds the
      institution's cash changes nothing; otherwise the institution records an
      outgoing 'Genel Kasa Transfer' and the safe an incoming `transfer_in`
      tagged with the institution's name, for the same amount. */
  function Transfer(inst: Institution, safe: Safe, amount: int, local: Stamp, global: Stamp): (r: (Institution, Safe))
    ensures amount <= 0 || amount > inst.cash ==> r == (inst, safe)
    ensures 0 < amount <= inst.cash ==>
      && PostsOne(inst, r.0, -amount)
      && RecordsOne(safe, r.1, amount)
      && r.0.transactions[0].kind == "Genel Kasa Transfer"
      && r.1.history[0].kind == TransferIn
      && r.1.history[0].institutionName == inst.name
      && r.0.students == inst.students && r.0.lessons == inst.lessons
      && r.0 == inst.(cash := r.0.cash, transactions := r.0.transactions)
    ensures (r.0.cash - inst.cash) + (r.1.cash - safe.cash) == 0
    ensures inst.cash >= 0 ==> r.0.cash >= 0
  {
    if amount <= 0 || amount > inst.cash then (inst, safe)
    else
      var tx := Transaction(local.id, "Genel Kasa Transfer", "Genel kasaya aktarım", -amount, local.date, local.time);
      var gtx := GlobalTransaction(global.id, TransferIn, inst.name, amount, global.date, global.time);
      (inst.(cash := inst.cash - amount, transactions := [tx] + inst.transactions),
       Safe(safe.cash + amount, [gtx] + safe.history))
  }

  /** `handleResetGlobalSafe`: nothing when the safe holds nothing; otherwise one
      withdrawal of the whole balance, labelled 'Kasa Sıfırlama'. */
  function Reset(safe: Safe, stamp: Stamp): (r: Safe)
    ensures safe.cash <= 0 ==> r == safe
    ensures safe.cash > 0 ==>
      && r.cash == 0
      && RecordsOne(safe, r, -safe.cash)
      && r.history[0].kind == Withdraw
      && r.history[0].institutionName == "Kasa Sıfırlama"
  {
    if safe.cash <= 0 then safe
    else Safe(0, [GlobalTransaction(stamp.id, Withdraw, "Kasa Sıfırlama", -safe.cash, stamp.date, stamp.time)] + safe.history)
  }

  datatype WithdrawError = InsufficientBalance | InvalidAmount

  /** The description a withdrawal is recorded under when none is given. */
  const DefaultWithdrawDescription := "Para Çekme"

  /** `handleWithdrawFromGlobalSafe`: an amount above the balance is refused as
      insufficient, a non-positive one as invalid; otherwise one withdrawal of
      the amount is recorded under the description. */
  function WithdrawFromSafe(safe: Safe, amount: int, description: string, stamp: Stamp): (r: Result<Safe, WithdrawError>)
    ensures r.Ok? <==> 0 < amount <= safe.cash
    ensures r.Err? ==> (r.error == InsufficientBalance <==> amount > safe.cash)
    ensures r.Ok? ==>
      && RecordsOne(safe, r.value, -amount)
      && r.value.history[0].kind == Withdraw
      && r.value.history[0].institutionName == description
      && r.value.cash >= 0
  {
    if amount <= 0 || amount > safe.cash then
      Err(if amount > safe.cash then InsufficientBalance else InvalidAmount)
    else
      Ok(Safe(safe.cash - amount, [GlobalTransaction(stamp.id, Withdraw, description, -amount, stamp.date, stamp.time)] + safe.history))
  }

  /** A withdrawal made without a description is recorded under 'Para Çekme'. */
  function WithdrawUndescribed(safe: Safe, amount: int, stamp: Stamp): (r: Result<Safe, WithdrawError>)
    ensures r.Ok? <==> 0 < amount <= safe.cash
    ensures r.Ok? ==> RecordsOne(safe, r.value, -amount) && r.value.history[0].institutionName == "Para Çekme"
  {
    WithdrawFromSafe(safe, amount, DefaultWithdrawDescription, stamp)
  }

  /** A reset is the withdrawal of the whole balance under the reset label. */
  lemma ResetIsFullWithdrawal(safe: Safe, stamp: Stamp)
    requires safe.cash > 0
    ensures WithdrawFromSafe(safe, safe.cash, "Kasa Sıfırlama", stamp) == Ok(Reset(safe, stamp))
  {
  }

  /** Every handler keeps a safe whose balance matches its history balanced. */
  lemma TransferKeepsBalanced(inst: Institution, safe: Safe, amount: int, local: Stamp, global: Stamp)
    requires Balanced(safe)
    ensures Balanced(Transfer(inst, safe, amount, local, global).1)
  {
    if 0 < amount <= inst.cash {
      RecordsOneKeepsBalance(safe, Transfer(inst, safe, amount, local, global).1, amount);
    }
  }

  lemma ResetKeepsBalanced(safe: Safe, stamp: Stamp)
    requires Balanced(safe)
    ensures Balanced(Reset(safe, stamp))
  {
    if safe.cash > 0 {
      RecordsOneKeepsBalance(safe, Reset(safe, stamp), -safe.cash);
    }
  }

  lemma WithdrawKeepsBalanced(safe: Safe, amount: int, description: string, stamp: Stamp)
    requires Balanced(safe)
    requires WithdrawFromSafe(safe, amount, description, stamp).Ok?
    ensures Balanced(WithdrawFromSafe(safe, amount, description, stamp).value)
  {
    RecordsOneKeepsBalance(safe, WithdrawFromSafe(safe, amount, description, stamp).value, -amount);
  }

  /** A transfer also keeps the institution's gap between its cash box and its
      own history, so money leaves one ledger exactly as it enters the other. */
  lemma TransferKeepsInstitutionGap(inst: Institution, safe: Safe, amount: int, local: Stamp, global: Stamp)
    ensures var r := Transfer(inst, safe, amount, local, global).0;
            r.cash - SumBy(r.transactions, TxAmount) == inst.cash - SumBy(inst.transactions, TxAmount)
  {
    if 0 < amount <= inst.cash {
      PostsOneKeepsGap(inst, Transfer(inst, safe, amount, local, global).0, -amount);
    }
  }

  /** A transfer the Finance screen requests always passes the handler's own
      guard, so it is carried out in full. */
  lemma RequestedTransferIsApplied(inst: Institution, safe: Safe, amountText: string, local: Stamp, global: Stamp)
    requires Finance.RequestGlobalTransfer(inst.cash, amountText).Requested?
    ensures var a := Finance.RequestGlobalTransfer(inst.cash, amountText).amount;
            var r := Transfer(inst, safe, a, local, global);
            PostsOne(inst, r.0, -a) && RecordsOne(safe, r.1, a)
  {
  }
}

=== FILE: institution_context.dfy ===
/** The institution container of src/contexts/InstitutionContext.jsx: the list of
    the user's institutions (oldest first), the active one, the values derived
    from it, the setters every screen writes through, and creating, deleting,
    switching and resetting institutions. A write replaces fields of the stored
    record; the database round trip is not modelled. */
module InstitutionContext {
  import opened Common
  import opened Domain
  import SafeSummary

  /** The signed-in user, if any, the user's institutions, and the active id. */
  datatype Ctx = Ctx(user: Option<string>, institutions: seq<Institution>, activeId: Option<string>)

  predicate HasId(i: Institution, id: Option<string>) { id == Some(i.id) }

  /** The test `find` applies: the record carries the active id. */
  function IsActive(id: Option<string>): Institution -> bool {
    (i: Institution) => HasId(i, id)
  }

  /** `activeInstitution`: the first institution with the active id, or null. */
  function ActiveInstitution(ctx: Ctx): (r: Option<Institution>)
    ensures ctx.activeId.None? ==> r.None?
    ensures r.None? <==> forall i :: i in ctx.institutions ==> !HasId(i, ctx.activeId)
    ensures r.Some? ==> r.value in ctx.institutions && Some(r.value.id) == ctx.activeId
  {
    Find(ctx.institutions, IsActive(ctx.activeId))
  }

  /** The derived `students`, `lessons`, `transactions` and `cash`: the active
      institution's, or empty and 0 without one. */
  function Students(ctx: Ctx): (r: seq<Student>)
    ensures ActiveInstitution(ctx).None? ==> r == []
    ensures ActiveInstitution(ctx).Some? ==> r == ActiveInstitution(ctx).value.students
  {
    match ActiveInstitution(ctx) case None => [] case Some(i) => i.students
  }

  function Lessons(ctx: Ctx): (r: seq<Lesson>)
    ensures ActiveInstitution(ctx).None? ==> r == []
    ensures ActiveInstitution(ctx).Some? ==> r == ActiveInstitution(ctx).value.lessons
  {
    match ActiveInstitution(ctx) case None => [] case Some(i) => i.lessons
  }

  function Transactions(ctx: Ctx): (r: seq<Transaction>)
    ensures ActiveInstitution(ctx).None? ==> r == []
    ensures ActiveInstitution(ctx).Some? ==> r == ActiveInstitution(ctx).value.transactions
  {
    match ActiveInstitution(ctx) case None => [] case Some(i) => i.transactions
  }

  function Cash(ctx: Ctx): (r: int)
    ensures ActiveInstitution(ctx).None? ==> r == 0
    ensures ActiveInstitution(ctx).Some? ==> r == ActiveInstitution(ctx).value.cash
  {
    match ActiveInstitution(ctx) case None => 0 case Some(i) => i.cash
  }

  // ----- writes -----

  /** What a setter is given: a new value, or a function of the current one. */
  datatype Update<!T> = Value(v: T) | Updater(f: T -> T)

  function Apply<T>(u: Update<T>, current: T): (r: T)
    ensures u.Value? ==> r == u.v
    ensures u.Updater? ==> r == u.f(current)
  {
    match u case Value(v) => v case Updater(f) => f(current)
  }

  /** Setters and `updateActiveInstitution` do nothing without a user or an
      active id. */
  predicate CanWrite(ctx: Ctx) { ctx.user.Some? && ctx.activeId.Some? }

  /** `updateActiveInstitution(updates)`: the patch is applied to the stored
      record with the active id; every other record is left alone. */
  function UpdateActive(ctx: Ctx, patch: Institution -> Institution): (r: Ctx)
    ensures !CanWrite(ctx) ==> r == ctx
    ensures r.user == ctx.user && r.activeId == ctx.activeId
    ensures |r.institutions| == |ctx.institutions|
    ensures forall k :: 0 <= k < |ctx.institutions| && !HasId(ctx.institutions[k], ctx.activeId) ==>
      r.institutions[k] == ctx.institutions[k]
    ensures CanWrite(ctx) ==> forall k :: 0 <= k < |ctx.institutions| && HasId(ctx.institutions[k], ctx.activeId) ==>
      r.institutions[k] == patch(ctx.institutions[k])
  {
    if !CanWrite(ctx) then ctx
    else ctx.(institutions := MapWhere(ctx.institutions, IsActive(ctx.activeId), patch))
  }

  /** A patch that keeps the id leaves the patched record the active one: the
      derived institution after the write is the patched one. */
  lemma {:induction false} UpdateActiveReadsBack(ctx: Ctx, patch: Institution -> Institution)
    requires CanWrite(ctx) && ActiveInstitution(ctx).Some?
    requires forall i :: patch(i).id == i.id
    ensures ActiveInstitution(UpdateActive(ctx, patch)) == Some(patch(ActiveInstitution(ctx).value))
  {
    FindMapWhere(ctx.institutions, IsActive(ctx.activeId), patch);
  }

  /** `updateInstitution(id, updates)`: the same for a record chosen by id; only
      a user is needed. */
  function UpdateInstitution(ctx: Ctx, id: string, patch: Institution -> Institution): (r: Ctx)
    ensures ctx.user.None? ==> r == ctx
    ensures r.user == ctx.user && r.activeId == ctx.activeId
    ensures |r.institutions| == |ctx.institutions|
    ensures forall k :: 0 <= k < |ctx.institutions| && ctx.institutions[k].id != id ==> r.institutions[k] == ctx.institutions[k]
    ensures ctx.user.Some? ==> forall k :: 0 <= k < |ctx.institutions| && ctx.institutions[k].id == id ==>
      r.institutions[k] == patch(ctx.institutions[k])
  {
    if ctx.user.None? then ctx
    else ctx.(institutions := MapWhere(ctx.institutions, (i: Institution) => i.id == id, patch))
  }

  /** The patches the setters hand to `updateActiveInstitution`. */
  function WithStudents(v: seq<Student>): Institution -> Institution { (i: Institution) => i.(students := v) }
  function WithLessons(v: seq<Lesson>): Institution -> Institution { (i: Institution) => i.(lessons := v) }
  function WithCash(v: int): Institution -> Institution { (i: Institution) => i.(cash := v) }
  function WithTransactions(v: seq<Transaction>): Institution -> Institution { (i: Institution) => i.(transactions := v) }

  /** `setStudents`: the new list is the value, or the updater applied to the
      derived list; it is written to the active record only. */
  function SetStudents(ctx: Ctx, u: Update<seq<Student>>): (r: Ctx)
    ensures |r.institutions| == |ctx.institutions| && r.activeId == ctx.activeId && r.user == ctx.user
    ensures !CanWrite(ctx) ==> r == ctx
    ensures CanWrite(ctx) ==> forall k :: 0 <= k < |ctx.institutions| && HasId(ctx.institutions[k], ctx.activeId) ==>
      r.institutions[k] == ctx.institutions[k].(students := Apply(u, Students(ctx)))
    ensures forall k :: 0 <= k < |ctx.institutions| && !HasId(ctx.institutions[k], ctx.activeId) ==>
      r.institutions[k] == ctx.institutions[k]
  {
    var v := Apply(u, Students(ctx));
    UpdateActive(ctx, WithStudents(v))
  }

  function SetLessons(ctx: Ctx, u: Update<seq<Lesson>>): (r: Ctx)
    ensures |r.institutions| == |ctx.institutions| && r.activeId == ctx.activeId && r.user == ctx.user
    ensures !CanWrite(ctx) ==> r == ctx
    ensures CanWrite(ctx) ==> forall k :: 0 <= k < |ctx.institutions| && HasId(ctx.institutions[k], ctx.activeId) ==>
      r.institutions[k] == ctx.institutions[k].(lessons := Apply(u, Lessons(ctx)))
    ensures forall k :: 0 <= k < |ctx.institutions| && !HasId(ctx.institutions[k], ctx.activeId) ==>
      r.institutions[k] == ctx.institutions[k]
  {
    var v := Apply(u, Lessons(ctx));
    UpdateActive(ctx, WithLessons(v))
  }

  function SetCash(ctx: Ctx, u: Update<int>): (r: Ctx)
    ensures |r.institutions| == |ctx.institutions| && r.activeId == ctx.activeId && r.user == ctx.user
    ensures !CanWrite(ctx) ==> r == ctx
    ensures CanWrite(ctx) ==> forall k :: 0 <= k < |ctx.institutions| && HasId(ctx.institutions[k], ctx.activeId) ==>
      r.institutions[k] == ctx.institutions[k].(cash := Apply(u, Cash(ctx)))
    ensures forall k :: 0 <= k < |ctx.institutions| && !HasId(ctx.institutions[k], ctx.activeId) ==>
      r.institutions[k] == ctx.institutions[k]
  {
    var v := Apply(u, Cash(ctx));
    UpdateActive(ctx, WithCash(v))
  }

  function SetTransactions(ctx: Ctx, u: Update<seq<Transaction>>): (r: Ctx)
    ensures |r.institutions| == |ctx.institutions| && r.activeId == ctx.activeId && r.user == ctx.user
    ensures !CanWrite(ctx) ==> r == ctx
    ensures CanWrite(ctx) ==> forall k :: 0 <= k < |ctx.institutions| && HasId(ctx.institutions[k], ctx.activeId) ==>
      r.institutions[k] == ctx.institutions[k].(transactions := Apply(u, Transactions(ctx)))
    ensures forall k :: 0 <= k < |ctx.institutions| && !HasId(ctx.institutions[k], ctx.activeId) ==>
      r.institutions[k] == ctx.institutions[k]
  {
    var v := Apply(u, Transactions(ctx));
    UpdateActive(ctx, WithTransactions(v))
  }

  /** After a write to an existing active institution, the derived students are
      what was written: the write is read back. */
  lemma SetStudentsReadsBack(ctx: Ctx, u: Update<seq<Student>>)
    requires CanWrite(ctx) && ActiveInstitution(ctx).Some?
    ensures Students(SetStudents(ctx, u)) == Apply(u, Students(ctx))
  {
    UpdateActiveReadsBack(ctx, WithStudents(Apply(u, Students(ctx))));
  }

  /** The same read-back for the cash box. */
  lemma SetCashReadsBack(ctx: Ctx, u: Update<int>)
    requires CanWrite(ctx) && ActiveInstitution(ctx).Some?
    ensures ActiveInstitution(SetCash(ctx, u)).Some?
    ensures Cash(SetCash(ctx, u)) == Apply(u, Cash(ctx))
  {
    UpdateActiveReadsBack(ctx, WithCash(Apply(u, Cash(ctx))));
  }

  /** Two writes in handlers of successive renders compose: once the value
      written by one handler has come back through the listener, an updater in
      a later handler sees it. */
  lemma SetCashTwice(ctx: Ctx, v: int, f: int -> int)
    requires CanWrite(ctx) && ActiveInstitution(ctx).Some?
    ensures Cash(SetCash(SetCash(ctx, Value(v)), Updater(f))) == f(v)
  {
    SetCashReadsBack(ctx, Value(v));
    SetCashReadsBack(SetCash(ctx, Value(v)), Updater(f));
  }

  /** `setCash` called inside a handler: the updater is given the `cash` of the
      render the handler closes over, while the write lands on the stored
      state, which earlier writes of the same handler may already have
      changed. `SetCash(ctx, u)` is the case of a store still equal to the
      render. */
  function SetCashFrom(render: Ctx, store: Ctx, u: Update<int>): (r: Ctx)
    ensures |r.institutions| == |store.institutions| && r.activeId == store.activeId && r.user == store.user
    ensures CanWrite(store) ==> forall k :: 0 <= k < |store.institutions| && HasId(store.institutions[k], store.activeId) ==>
      r.institutions[k] == store.institutions[k].(cash := Apply(u, Cash(render)))
  {
    UpdateActive(store, WithCash(Apply(u, Cash(render))))
  }

  /** Within one handler the writes do not compose: after `setCash(v)` an
      updater still sees the cash of the render, so the value written first is
      lost and the cash ends at `f` of the old cash. */
  lemma SetCashTwiceInOneHandler(ctx: Ctx, v: int, f: int -> int)
    requires CanWrite(ctx) && ActiveInstitution(ctx).Some?
    ensures Cash(SetCashFrom(ctx, SetCash(ctx, Value(v)), Updater(f))) == f(Cash(ctx))
  {
    SetCashReadsBack(ctx, Value(v));
    UpdateActiveReadsBack(SetCash(ctx, Value(v)), WithCash(f(Cash(ctx))));
  }

  // ----- container operations -----

  /** The reset patch: no students, lessons or transactions, and cash 0. */
  function Cleared(): Institution -> Institution {
    (i: Institution) => i.(students := [], lessons := [], transactions := [], cash := 0)
  }

  /** `handleResetActiveInstitution`: with an active institution, its students,
      lessons and transactions are emptied and its cash set to 0; its name,
      photo and resources are kept. */
  function ResetActive(ctx: Ctx): (r: Ctx)
    ensures ActiveInstitution(ctx).None? || ctx.user.None? ==> r == ctx
    ensures |r.institutions| == |ctx.institutions| && r.activeId == ctx.activeId
    ensures forall k :: 0 <= k < |ctx.institutions| && !HasId(ctx.institutions[k], ctx.activeId) ==>
      r.institutions[k] == ctx.institutions[k]
    ensures ActiveInstitution(ctx).Some? && ctx.user.Some? ==>
      forall k :: 0 <= k < |ctx.institutions| && HasId(ctx.institutions[k], ctx.activeId) ==>
        var i := r.institutions[k];
        && i.students == [] && i.lessons == [] && i.transactions == [] && i.cash == 0
        && i.id == ctx.institutions[k].id && i.name == ctx.institutions[k].name
        && i.photo == ctx.institutions[k].photo && i.resources == ctx.institutions[k].resources
  {
    if ActiveInstitution(ctx).None? then ctx
    else UpdateActive(ctx, Cleared())
  }

  /** After a reset the derived values are those of an empty institution. */
  lemma ResetLeavesNothing(ctx: Ctx)
    requires ActiveInstitution(ctx).Some? && ctx.user.Some?
    ensures var r := ResetActive(ctx);
            Students(r) == [] && Lessons(r) == [] && Transactions(r) == [] && Cash(r) == 0
  {
    UpdateActiveReadsBack(ctx, Cleared());
  }

  /** A new institution record: cash 0 and nothing in it. */
  function NewInstitution(id: string, name: string, photo: Option<string>): Institution {
    Institution(id, name, photo, [], [], [], 0, [])
  }

  /** `addInstitution`: with a user, a new empty record is stored; the list is
      ordered by creation time, so it comes last. The active id is unchanged. */
  function AddInstitution(ctx: Ctx, id: string, name: string, photo: Option<string>): (r: Ctx)
    ensures ctx.user.None? ==> r == ctx
    ensures ctx.user.Some? ==>
      && |r.institutions| == |ctx.institutions| + 1
      && r.institutions[..|ctx.institutions|] == ctx.institutions
      && var i := r.institutions[|ctx.institutions|];
         i.id == id && i.name == name && i.photo == photo && i.cash == 0
         && i.students == [] && i.lessons == [] && i.transactions == []
    ensures r.activeId == ctx.activeId && r.user == ctx.user
  {
    if ctx.user.None? then ctx
    else ctx.(institutions := ctx.institutions + [NewInstitution(id, name, photo)])
  }

  /** Adding an institution leaves the user's student count unchanged. */
  lemma AddInstitutionKeepsStudentCount(ctx: Ctx, id: string, name: string, photo: Option<string>)
    ensures SafeSummary.TotalStudents(AddInstitution(ctx, id, name, photo).institutions) == SafeSummary.TotalStudents(ctx.institutions)
  {
    if ctx.user.Some? {
      SumByConcat(ctx.institutions, [NewInstitution(id, name, photo)], SafeSummary.StudentCount);
    }
  }

  /** What one round of the institutions listener leaves: the new context, and
      the record it asks the database to store, if any. */
  datatype ListenerRound = ListenerRound(ctx: Ctx, stored: Option<Institution>)

  /** The institutions effect and its listener, one snapshot at a time. Signed
      out, the list is emptied and nothing is stored. Signed in, the list
      becomes the snapshot as it is, even when it is empty; an empty snapshot
      also makes the listener store a default 'Kurumum' record, which only a
      later snapshot brings back. The active id is not touched. */
  function OnSnapshot(ctx: Ctx, data: seq<Institution>, defaultId: string): (r: ListenerRound)
    ensures ctx.user.None? ==> r.ctx.institutions == [] && r.stored.None?
    ensures ctx.user.Some? ==> r.ctx.institutions == data
    ensures ctx.user.Some? ==> (r.stored.Some? <==> |data| == 0)
    ensures r.stored.Some? ==> r.stored.value == NewInstitution(defaultId, "Kurumum", None)
    ensures r.ctx.activeId == ctx.activeId && r.ctx.user == ctx.user
  {
    if ctx.user.None? then ListenerRound(ctx.(institutions := []), None)
    else if |data| == 0 then ListenerRound(ctx.(institutions := data), Some(NewInstitution(defaultId, "Kurumum", None)))
    else ListenerRound(ctx.(institutions := data), None)
  }

  /** A first sign-in: the empty snapshot leaves the list empty and stores the
      default record; the snapshot that brings it back lists just that empty
      record and stores nothing more. Switching to it then reads no students,
      no lessons and cash 0. */
  lemma FirstSignInSettles(ctx: Ctx, defaultId: string)
    requires ctx.user.Some?
    ensures OnSnapshot(ctx, [], defaultId).ctx.institutions == []
    ensures OnSnapshot(ctx, [], defaultId).stored == Some(NewInstitution(defaultId, "Kurumum", None))
    ensures var second := OnSnapshot(OnSnapshot(ctx, [], defaultId).ctx, [NewInstitution(defaultId, "Kurumum", None)], defaultId);
            && second.ctx.institutions == [NewInstitution(defaultId, "Kurumum", None)] && second.stored.None?
            && SafeSummary.TotalStudents(second.ctx.institutions) == 0
    ensures var active := SwitchInstitution(OnSnapshot(OnSnapshot(ctx, [], defaultId).ctx, [NewInstitution(defaultId, "Kurumum", None)], defaultId).ctx, defaultId);
            Students(active) == [] && Lessons(active) == [] && Cash(active) == 0
  {
    var first := OnSnapshot(ctx, [], defaultId);
    var second := OnSnapshot(first.ctx, [first.stored.value], defaultId);
    var active := SwitchInstitution(second.ctx, defaultId);
    assert first.stored.value in active.institutions;
  }

  /** `switchInstitution`. */
  function SwitchInstitution(ctx: Ctx, id: string): (r: Ctx)
    ensures r.institutions == ctx.institutions
    ensures ActiveInstitution(r).Some? <==> exists i :: i in ctx.institutions && i.id == id
    ensures ActiveInstitution(r).Some? ==> ActiveInstitution(r).value.id == id
  {
    ctx.(activeId := Some(id))
  }

  /** `deleteInstitution`: with a user, the records with the id are removed;
      when the deleted one was active, the first remaining one becomes active,
      or none is when nothing remains; otherwise the active id is kept. */
  function DeleteInstitution(ctx: Ctx, id: string): (r: Ctx)
    ensures ctx.user.None? ==> r == ctx
    ensures ctx.user.Some? ==>
      && (forall i :: i in r.institutions <==> i in ctx.institutions && i.id != id)
      && IsSubsequence(r.institutions, ctx.institutions)
    ensures ctx.user.Some? && ctx.activeId == Some(id) ==>
      (|r.institutions| == 0 ==> r.activeId.None?)
      && (|r.institutions| > 0 ==> r.activeId == Some(r.institutions[0].id))
    ensures ctx.activeId != Some(id) ==> r.activeId == ctx.activeId
  {
    if ctx.user.None? then ctx
    else
      var remaining := Filter(ctx.institutions, (i: Institution) => i.id != id);
      FilterIsSubsequence(ctx.institutions, (i: Institution) => i.id != id);
      var active := if ctx.activeId == Some(id) then (if |remaining| > 0 then Some(remaining[0].id) else None) else ctx.activeId;
      Ctx(ctx.user, remaining, active)
  }

  /** Deleting the active institution makes the first remaining one active, so
      the screens show it, or nothing at all when none remains. */
  lemma DeleteActiveReselects(ctx: Ctx, id: string)
    requires ctx.user.Some? && ctx.activeId == Some(id)
    ensures var r := DeleteInstitution(ctx, id);
            (|r.institutions| > 0 ==> ActiveInstitution(r) == Some(r.institutions[0]))
            && (|r.institutions| == 0 ==> ActiveInstitution(r).None? && Cash(r) == 0 && Students(r) == [])
  {
    var r := DeleteInstitution(ctx, id);
    if |r.institutions| > 0 {
      var a := ActiveInstitution(r).value;
      var k :| 0 <= k < |r.institutions| && r.institutions[k] == a && forall j :: 0 <= j < k ==> !HasId(r.institutions[j], r.activeId);
      assert k == 0;
    }
  }
}

=== FILE: navigation.dfy ===
/** The screen stack of src/App.jsx and src/App_NEW.jsx: each frame names a
    screen and carries the student it was opened for (`{}` when none). */
module Navigation {
  import opened Common
  import opened Domain

  datatype Frame = Frame(screen: string, params: Option<Student>)

  type Stack = seq<Frame>

  /** `navigateTo`: push a frame. */
  function NavigateTo(stack: Stack, screen: string, params: Option<Student>): (r: Stack)
    ensures |r| == |stack| + 1
    ensures r[..|stack|] == stack
    ensures r[|stack|] == Frame(screen, params)
  {
    stack + [Frame(screen, params)]
  }

  /** `goBack`: `slice(0, -1)`, which leaves an empty stack empty. */
  function GoBack(stack: Stack): (r: Stack)
    ensures |stack| == 0 ==> r == []
    ensures |stack| > 0 ==> |r| == |stack| - 1 && stack == r + [stack[|stack| - 1]]
  {
    if |stack| == 0 then [] else stack[..|stack| - 1]
  }

  /** Going back right after navigating restores the stack. */
  lemma GoBackUndoesNavigate(stack: Stack, screen: string, params: Option<Student>)
    ensures GoBack(NavigateTo(stack, screen, params)) == stack
  {
    assert NavigateTo(stack, screen, params)[..|stack|] == stack;
  }

  /** The confirm handlers' stack update: pop the top frame and, when a frame is
      left, have it show the given student. */
  function PopAndShow(stack: Stack, shown: Student): (r: Stack)
    ensures |stack| == 0 ==> r == []
    ensures |stack| > 0 ==> |r| == |stack| - 1
    ensures |stack| > 1 ==>
      r[..|r| - 1] == stack[..|stack| - 2]
      && r[|r| - 1] == stack[|stack| - 2].(params := Some(shown))
  {
    var popped := GoBack(stack);
    if |popped| == 0 then popped
    else popped[|popped| - 1 := popped[|popped| - 1].(params := Some(shown))]
  }

  /** Opening a screen over a frame and confirming it lands back on that frame,
      now showing the updated student. */
  lemma ConfirmReturnsToFrame(stack: Stack, screen: string, params: Option<Student>, shown: Student)
    requires |stack| > 0
    ensures var r := PopAndShow(NavigateTo(stack, screen, params), shown);
            |r| == |stack| && r[..|stack| - 1] == stack[..|stack| - 1]
            && r[|stack| - 1] == stack[|stack| - 1].(params := Some(shown))
  {
    var pushed := NavigateTo(stack, screen, params);
    assert pushed[..|pushed| - 2] == stack[..|stack| - 1];
  }

  /** The frame on top, if any (`navigationStack[navigationStack.length - 1]`). */
  function Top(stack: Stack): (r: Option<Frame>)
    ensures r.None? <==> |stack| == 0
    ensures r.Some? ==> r.value == stack[|stack| - 1]
  {
    if |stack| == 0 then None else Some(stack[|stack| - 1])
  }
}

=== FILE: resources.dfy ===
/** The resources screen (src/pages/Resources.jsx): books, PDFs and links, each
    for everyone or for one student, added to the front of the list, deleted
    after a confirmation, toggled between active and completed, and filtered
    by type. */
module Resources {
  import opened Common
  import opened Domain
  import opened Amounts

  datatype ResourceError = EmptyTitle

  /** `handleAddResource`: an empty title is refused; otherwise an active
      resource is put in front. The student picker's value is the empty string
      for "everyone", which is stored as null. */
  function AddResource(rs: seq<Resource>, id: string, title: string, kind: ResourceType, url: string, pick: string, date: string): (r: Result<seq<Resource>, ResourceError>)
    ensures r.Err? <==> |title| == 0
    ensures r.Ok? ==>
      && |r.value| == |rs| + 1 && r.value[1..] == rs
      && r.value[0].title == title && r.value[0].kind == kind && r.value[0].url == url
      && r.value[0].status == Active && r.value[0].id == id
      && (|pick| == 0 ==> r.value[0].studentId.None?)
      && (|pick| > 0 ==> r.value[0].studentId == Some(pick))
  {
    if |title| == 0 then Err(EmptyTitle)
    else
      var studentId := if |pick| == 0 then None else Some(pick);
      Ok([Resource(id, title, kind, url, studentId, date, Active)] + rs)
  }

  /** `handleDelete`: after the user confirms, the resources with the id go and
      the rest keep their order; a declined confirmation changes nothing. */
  function DeleteResource(rs: seq<Resource>, id: string, confirmed: bool): (r: seq<Resource>)
    ensures !confirmed ==> r == rs
    ensures confirmed ==> (forall x :: x in r <==> x in rs && x.id != id) && IsSubsequence(r, rs)
  {
    if !confirmed then rs
    else
      FilterIsSubsequence(rs, (x: Resource) => x.id != id);
      Filter(rs, (x: Resource) => x.id != id)
  }

  function Flip(s: ResourceStatus): ResourceStatus {
    if s == Active then Finished else Active
  }

  /** `handleToggleStatus`: the resources with the id switch between active and
      completed; the others stay as they are. */
  function ToggleResource(rs: seq<Resource>, id: string): (r: seq<Resource>)
    ensures |r| == |rs|
    ensures forall i :: 0 <= i < |rs| && rs[i].id != id ==> r[i] == rs[i]
    ensures forall i :: 0 <= i < |rs| && rs[i].id == id ==>
      r[i] == rs[i].(status := Flip(rs[i].status)) && r[i].status != rs[i].status
  {
    MapWhere(rs, (x: Resource) => x.id == id, (x: Resource) => x.(status := Flip(x.status)))
  }

  /** Toggling the same resource twice gives the list back. */
  lemma ToggleTwiceRestores(rs: seq<Resource>, id: string)
    ensures ToggleResource(ToggleResource(rs, id), id) == rs
  {
    var once := ToggleResource(rs, id);
    var twice := ToggleResource(once, id);
    forall i | 0 <= i < |rs| ensures twice[i] == rs[i] {
      if rs[i].id == id {
        assert once[i].id == id;
      }
    }
  }

  /** The type chips above the list: 'all' or one type. */
  datatype TypeFilter = AllTypes | OfType(kind: ResourceType)

  /** `filteredResources`. */
  function FilterResources(rs: seq<Resource>, f: TypeFilter): (r: seq<Resource>)
    ensures f == AllTypes ==> r == rs
    ensures f.OfType? ==> (forall x :: x in r <==> x in rs && x.kind == f.kind) && IsSubsequence(r, rs)
  {
    match f
    case AllTypes => rs
    case OfType(k) =>
      FilterIsSubsequence(rs, (x: Resource) => x.kind == k);
      Filter(rs, (x: Resource) => x.kind == k)
  }

  /** Every resource passes exactly one type chip besides 'all'. */
  lemma TypeFiltersPartition(rs: seq<Resource>, x: Resource)
    requires x in rs
    ensures x in FilterResources(rs, OfType(x.kind))
    ensures forall k :: k != x.kind ==> x !in FilterResources(rs, OfType(k))
  {
  }

  // ----- the student a resource is for -----

  /** The values JavaScript's `===` compares here: a student's numeric id, the
      picker's text, and null. Values of different kinds are never equal. */
  datatype JsValue = Num(n: int) | Text(t: string) | Null

  function PickValue(r: Resource): JsValue {
    match r.studentId case None => Null case Some(t) => Text(t)
  }

  /** `getStudentName` as written: the first student whose numeric id is
      strictly equal to the stored value, else 'Genel'. The stored value is
      text or null, so the search never finds anyone. */
  function ResourceStudentNameAsWritten(ss: seq<Student>, r: Resource): (name: string)
    ensures name == "Genel"
  {
    match Find(ss, (s: Student) => Num(s.id) == PickValue(r))
    case None => "Genel"
    case Some(s) => s.name
  }

  /** `String(n)` for an integer: how the picker writes a student's id. */
  function IdText(n: int): (t: string)
    ensures |t| > 0
  {
    if n >= 0 then Decimal(n) else "-" + Decimal(-n)
  }

  lemma ParseIdText(n: int)
    ensures ParseInt(IdText(n)) == Some(n)
  {
    if n >= 0 {
      ParseIntDecimal(n);
    } else {
      var d := Decimal(-n);
      var t := "-" + d;
      assert TrimStart(t) == t;
      assert t[1..] == d;
      assert d + [] == d;
      DigitPrefixOfDigits(d, []);
      DecimalValue(-n);
    }
  }

  /** A text the picker wrote is read back as the id it was written from. */
  lemma IdTextParses(t: string)
    ensures forall n :: t == IdText(n) ==> ParseInt(t) == Some(n)
  {
    forall n | t == IdText(n) ensures ParseInt(t) == Some(n) { ParseIdText(n); }
  }

  /** `getStudentName` as evidently intended: the stored text is read back as a
      number, as the schedule screen does with `parseInt`, and the first
      student with that id named; 'Genel' for a resource for everyone or a
      student who is gone. */
  function ResourceStudentName(ss: seq<Student>, r: Resource): (name: string)
    ensures r.studentId.None? ==> name == "Genel"
    ensures forall id :: r.studentId == Some(IdText(id)) ==>
      (FindStudent(ss, id).None? ==> name == "Genel")
      && (FindStudent(ss, id).Some? ==> name == FindStudent(ss, id).value.name)
  {
    match r.studentId
    case None => "Genel"
    case Some(t) =>
      IdTextParses(t);
      match ParseInt(t)
      case None => "Genel"
      case Some(id) =>
        match FindStudent(ss, id)
        case None => "Genel"
        case Some(s) => s.name
  }

  /** A resource added for a student, as the picker stores it, is shown under
      that student's name by the intended lookup and under 'Genel' by the
      lookup as written. */
  lemma AssignedResourceNamed(ss: seq<Student>, rs: seq<Resource>, s: Student, id: string, title: string, kind: ResourceType, url: string, date: string)
    requires |title| > 0
    requires FindStudent(ss, s.id) == Some(s)
    ensures var r := AddResource(rs, id, title, kind, url, IdText(s.id), date).value[0];
            ResourceStudentName(ss, r) == s.name
            && ResourceStudentNameAsWritten(ss, r) == "Genel"
  {
  }

  /** The discrepancy on a concrete list: student 1 exists, yet the resource
      assigned to it is shown as for everyone. */
  lemma AssignedResourceShownAsGeneral()
    ensures var ss := [Student(1, "Ada", "Piyano", 100, 0, "", None, "")];
            var r := Resource("r", "Etüt", Book, "", Some("1"), "", Active);
            ResourceStudentNameAsWritten(ss, r) == "Genel" && ResourceStudentName(ss, r) == "Ada"
  {
    assert IdText(1) == "1";
  }
}

=== FILE: safe_summary.dfy ===
/** The figures the institution picker shows (src/pages/InstitutionSelector.jsx):
    the student count over all institutions, each institution's receivable,
    the global safe's legacy balance and lifetime total, and the breakdown of
    transfers per institution. */
module SafeSummary {
  import opened Common
  import opened Domain
  import opened Sorting
  import opened GlobalSafe
  import Finance

  // ----- counts and receivables -----

  function StudentCount(inst: Institution): int { |inst.students| }

  /** `totalStudents`. */
  function TotalStudents(insts: seq<Institution>): (n: int)
    ensures n >= 0
    ensures n == 0 <==> forall i :: 0 <= i < |insts| ==> |insts[i].students| == 0
  {
    SumByNonNegative(insts, StudentCount);
    if exists i :: 0 <= i < |insts| && |insts[i].students| > 0 then
      var i :| 0 <= i < |insts| && |insts[i].students| > 0;
      SumByElemLe(insts, StudentCount, i);
      SumBy(insts, StudentCount)
    else
      SumByZero(insts, StudentCount);
      SumBy(insts, StudentCount)
  }

  /** A sum of terms that are all zero is zero. */
  lemma {:induction false} SumByZero<T>(s: seq<T>, f: T -> int)
    requires forall i :: 0 <= i < |s| ==> f(s[i]) == 0
    ensures SumBy(s, f) == 0
  {
    if |s| > 0 {
      SumByZero(s[..|s| - 1], f);
    }
  }

  /** The receivable shown on an institution's card: the debts of its students. */
  function InstitutionReceivable(inst: Institution): (r: int)
    ensures r >= 0
    ensures r == Finance.TotalReceivables(inst.students)
  {
    SumByNonNegative(inst.students, DebtOf);
    Finance.ReceivablesAreDebts(inst.students);
    SumBy(inst.students, DebtOf)
  }

  // ----- legacy balance and lifetime total -----

  /** `historyNet`: the sum of all recorded movements. */
  function HistoryNet(safe: Safe): (r: int)
    ensures r <= IncomingTotal(safe.history)
  {
    SumByFilter(safe.history, IsIncoming, GlobalAmount, IncomingPart);
    SumByLe(safe.history, GlobalAmount, IncomingPart);
    SumBy(safe.history, GlobalAmount)
  }

  /** A movement's amount when it brings money in, 0 otherwise. */
  function IncomingPart(t: GlobalTransaction): int {
    if IsIncoming(t) then t.amount else 0
  }

  /** `legacyBalance`: money in the safe that no recorded movement explains. */
  function LegacyBalance(safe: Safe): (r: int)
    ensures r >= 0 && r >= safe.cash - HistoryNet(safe)
    ensures r == 0 || r == safe.cash - HistoryNet(safe)
  {
    if safe.cash - HistoryNet(safe) > 0 then safe.cash - HistoryNet(safe) else 0
  }

  predicate IsIncoming(t: GlobalTransaction) { t.amount > 0 }

  /** The total of the movements that brought money in. */
  function IncomingTotal(h: seq<GlobalTransaction>): (r: int)
    ensures r >= 0
  {
    SumByNonNegative(Filter(h, IsIncoming), GlobalAmount);
    SumBy(Filter(h, IsIncoming), GlobalAmount)
  }

  /** `lifetimeTotal`: every incoming movement plus the legacy balance. */
  function LifetimeTotal(safe: Safe): (r: int)
    ensures r >= LegacyBalance(safe) && r >= IncomingTotal(safe.history)
  {
    IncomingTotal(safe.history) + LegacyBalance(safe)
  }

  /** A safe whose balance matches its history has no legacy balance. */
  lemma BalancedHasNoLegacy(safe: Safe)
    requires Balanced(safe)
    ensures LegacyBalance(safe) == 0
    ensures LifetimeTotal(safe) == IncomingTotal(safe.history)
  {
  }

  /** Putting one movement in front adds its amount to the incoming total when
      it is positive, nothing otherwise. */
  lemma IncomingTotalCons(t: GlobalTransaction, h: seq<GlobalTransaction>)
    ensures IncomingTotal([t] + h) == (if t.amount > 0 then t.amount else 0) + IncomingTotal(h)
  {
    FilterConcat([t], h, IsIncoming);
    assert Filter([t], IsIncoming) == if IsIncoming(t) then [t] else [] by {
      assert [t][1..] == [];
    }
    SumByConcat(Filter([t], IsIncoming), Filter(h, IsIncoming), GlobalAmount);
    assert SumBy([t], GlobalAmount) == t.amount by { assert [t][..0] == []; }
  }

  /** Recording an outgoing movement leaves the lifetime total alone. */
  lemma OutgoingKeepsLifetime(before: Safe, after: Safe, amount: int)
    requires amount < 0
    requires RecordsOne(before, after, amount)
    ensures LifetimeTotal(after) == LifetimeTotal(before)
  {
    RecordsOneKeepsBalance(before, after, amount);
    assert after.history == [after.history[0]] + before.history;
    IncomingTotalCons(after.history[0], before.history);
  }

  /** Recording an incoming movement raises the lifetime total by its amount. */
  lemma IncomingRaisesLifetime(before: Safe, after: Safe, amount: int)
    requires amount > 0
    requires RecordsOne(before, after, amount)
    ensures LifetimeTotal(after) == LifetimeTotal(before) + amount
  {
    RecordsOneKeepsBalance(before, after, amount);
    assert after.history == [after.history[0]] + before.history;
    IncomingTotalCons(after.history[0], before.history);
  }

  lemma WithdrawKeepsLifetime(safe: Safe, amount: int, description: string, stamp: Stamp)
    requires WithdrawFromSafe(safe, amount, description, stamp).Ok?
    ensures LifetimeTotal(WithdrawFromSafe(safe, amount, description, stamp).value) == LifetimeTotal(safe)
  {
    OutgoingKeepsLifetime(safe, WithdrawFromSafe(safe, amount, description, stamp).value, -amount);
  }

  lemma ResetKeepsLifetime(safe: Safe, stamp: Stamp)
    ensures LifetimeTotal(Reset(safe, stamp)) == LifetimeTotal(safe)
  {
    if safe.cash > 0 {
      OutgoingKeepsLifetime(safe, Reset(safe, stamp), -safe.cash);
    }
  }

  lemma TransferRaisesLifetime(inst: Institution, safe: Safe, amount: int, local: Stamp, global: Stamp)
    requires 0 < amount <= inst.cash
    ensures LifetimeTotal(Transfer(inst, safe, amount, local, global).1) == LifetimeTotal(safe) + amount
  {
    IncomingRaisesLifetime(safe, Transfer(inst, safe, amount, local, global).1, amount);
  }

  // ----- the withdraw and reset buttons -----

  /** Both footer buttons are enabled only while the safe holds money. */
  predicate SafeActionsEnabled(safe: Safe) { safe.cash > 0 }

  /** A disabled button hides nothing: with an empty safe a reset is a no-op and
      every withdrawal would be refused. */
  lemma DisabledActionsWouldDoNothing(safe: Safe, amount: int, description: string, stamp: Stamp)
    requires !SafeActionsEnabled(safe)
    ensures Reset(safe, stamp) == safe
    ensures WithdrawFromSafe(safe, amount, description, stamp).Err?
  {
  }

  // ----- per-institution breakdown -----

  /** One line of the breakdown: an institution name and what it transferred. */
  datatype SourceTotal = SourceTotal(name: string, total: int)

  function TotalOf(e: SourceTotal): int { e.total }

  predicate IsTransferIn(t: GlobalTransaction) { t.kind == TransferIn }

  /** The amount of `t` when it came from `name`, zero otherwise. */
  function AmountFrom(name: string): GlobalTransaction -> int {
    (t: GlobalTransaction) => if t.institutionName == name then t.amount else 0
  }

  ghost predicate DistinctNames(g: seq<SourceTotal>) {
    forall i, j :: 0 <= i < j < |g| ==> g[i].name != g[j].name
  }

  function NamesOf(g: seq<SourceTotal>): set<string> {
    set e | e in g :: e.name
  }

  function SourcesOf(ts: seq<GlobalTransaction>): set<string> {
    set t | t in ts :: t.institutionName
  }

  /** Where `name` already has a line, if anywhere (`acc.find(i => i.name === ...)`). */
  function IndexOfName(g: seq<SourceTotal>, name: string): (r: Option<nat>)
    ensures r.Some? ==> r.value < |g| && g[r.value].name == name
    ensures r.None? <==> name !in NamesOf(g)
  {
    if |g| == 0 then None
    else if g[0].name == name then Some(0)
    else
      var r := IndexOfName(g[1..], name);
      assert NamesOf(g) == {g[0].name} + NamesOf(g[1..]) by {
        assert forall e :: e in g <==> e == g[0] || e in g[1..];
      }
      if r.Some? then Some(r.value + 1) else None
  }

  /** One step of the reduce: add to the existing line, or append a new one. */
  function AddTransfer(g: seq<SourceTotal>, t: GlobalTransaction): seq<SourceTotal> {
    match IndexOfName(g, t.institutionName)
    case Some(k) => g[k := g[k].(total := g[k].total + t.amount)]
    case None => g + [SourceTotal(t.institutionName, t.amount)]
  }

  /** The reduce over the transfers, from the front of the list, which holds
      the newest entry, to the back. */
  function GroupByName(ts: seq<GlobalTransaction>): (g: seq<SourceTotal>)
    ensures DistinctNames(g)
    ensures NamesOf(g) == SourcesOf(ts)
    ensures SumBy(g, TotalOf) == SumBy(ts, GlobalAmount)
  {
    if |ts| == 0 then []
    else
      var n := |ts| - 1;
      var prev := GroupByName(ts[..n]);
      var t := ts[n];
      assert ts == ts[..n] + [t];
      assert SourcesOf(ts) == SourcesOf(ts[..n]) + {t.institutionName} by {
        assert forall u :: u in ts <==> u in ts[..n] || u == t;
      }
      AddTransferFacts(prev, t);
      AddTransfer(prev, t)
  }

  lemma AddTransferFacts(g: seq<SourceTotal>, t: GlobalTransaction)
    requires DistinctNames(g)
    ensures DistinctNames(AddTransfer(g, t))
    ensures NamesOf(AddTransfer(g, t)) == NamesOf(g) + {t.institutionName}
    ensures SumBy(AddTransfer(g, t), TotalOf) == SumBy(g, TotalOf) + t.amount
  {
    match IndexOfName(g, t.institutionName)
    case Some(k) =>
      assert AddTransfer(g, t) == g[k := g[k].(total := g[k].total + t.amount)];
      AddToLine(g, k, t.amount);
    case None =>
      assert AddTransfer(g, t) == g + [SourceTotal(t.institutionName, t.amount)];
      AppendLine(g, SourceTotal(t.institutionName, t.amount));
  }

  /** Adding to an existing line keeps the names and adds to the sum. */
  lemma AddToLine(g: seq<SourceTotal>, k: nat, amount: int)
    requires k < |g| && DistinctNames(g)
    ensures var r := g[k := g[k].(total := g[k].total + amount)];
            DistinctNames(r) && NamesOf(r) == NamesOf(g) && SumBy(r, TotalOf) == SumBy(g, TotalOf) + amount
  {
    var r := g[k := g[k].(total := g[k].total + amount)];
    SumByUpdate(g, k, r[k], TotalOf);
    assert forall p :: 0 <= p < |g| ==> r[p].name == g[p].name;
    forall e | e in r ensures e.name in NamesOf(g) {
      var p :| 0 <= p < |r| && r[p] == e;
      assert g[p] in g;
    }
    forall e | e in g ensures e.name in NamesOf(r) {
      var p :| 0 <= p < |g| && g[p] == e;
      assert r[p] in r;
    }
  }

  /** Appending a line with a new name keeps names distinct and adds its total. */
  lemma AppendLine(g: seq<SourceTotal>, e: SourceTotal)
    requires DistinctNames(g) && e.name !in NamesOf(g)
    ensures var r := g + [e];
            DistinctNames(r) && NamesOf(r) == NamesOf(g) + {e.name} && SumBy(r, TotalOf) == SumBy(g, TotalOf) + e.total
  {
    var r := g + [e];
    assert r[..|g|] == g;
    assert forall x :: x in r <==> x in g || x == e;
    forall i, j | 0 <= i < j < |r| ensures r[i].name != r[j].name {
      if j == |g| {
        assert r[i] in g;
      }
    }
  }

  /** One reduce step, line by line: an existing line gains the amount when it
      carries the transfer's name; a line appended at the end is the new
      source's. */
  lemma AddTransferLine(g: seq<SourceTotal>, t: GlobalTransaction, i: nat)
    requires DistinctNames(g) && i < |AddTransfer(g, t)|
    ensures i < |g| ==> AddTransfer(g, t)[i].name == g[i].name
    ensures i < |g| ==> AddTransfer(g, t)[i].total == g[i].total + AmountFrom(g[i].name)(t)
    ensures i >= |g| ==> AddTransfer(g, t)[i] == SourceTotal(t.institutionName, t.amount)
                          && t.institutionName !in NamesOf(g)
  {
    match IndexOfName(g, t.institutionName)
    case Some(k) =>
      if i != k {
        assert g[i].name != g[k].name;
      }
    case None =>
      if i < |g| {
        assert g[i] in g;
      }
  }

  /** The induction step of GroupTotals, stated without the reduce: a line
      that was right before the transfer `t` is right after it. */
  lemma LineTotalStep(prev: seq<SourceTotal>, before: seq<GlobalTransaction>, t: GlobalTransaction, i: nat)
    requires DistinctNames(prev) && NamesOf(prev) == SourcesOf(before)
    requires i < |prev| ==> prev[i].total == SumBy(before, AmountFrom(prev[i].name))
    requires i < |AddTransfer(prev, t)|
    ensures AddTransfer(prev, t)[i].total == SumBy(before + [t], AmountFrom(AddTransfer(prev, t)[i].name))
  {
    AddTransferLine(prev, t, i);
    var f := AmountFrom(AddTransfer(prev, t)[i].name);
    assert (before + [t])[..|before|] == before;
    assert SumBy(before + [t], f) == SumBy(before, f) + f(t);
    if i >= |prev| {
      AbsentSourceSumsToZero(before, t.institutionName);
    }
  }

  /** Each line's total is what its institution transferred in all. */
  lemma {:induction false} GroupTotals(ts: seq<GlobalTransaction>, i: nat)
    requires i < |GroupByName(ts)|
    ensures GroupByName(ts)[i].total == SumBy(ts, AmountFrom(GroupByName(ts)[i].name))
    decreases |ts|
  {
    var n := |ts| - 1;
    var prev := GroupByName(ts[..n]);
    assert GroupByName(ts) == AddTransfer(prev, ts[n]);
    if i < |prev| {
      GroupTotals(ts[..n], i);
    }
    LineTotalStep(prev, ts[..n], ts[n], i);
    assert ts[..n] + [ts[n]] == ts;
  }

  /** A name nobody transferred from contributes nothing. */
  lemma {:induction false} AbsentSourceSumsToZero(ts: seq<GlobalTransaction>, name: string)
    requires name !in SourcesOf(ts)
    ensures SumBy(ts, AmountFrom(name)) == 0
  {
    if |ts| > 0 {
      var n := |ts| - 1;
      assert ts[n] in ts;
      assert SourcesOf(ts[..n]) <= SourcesOf(ts) by {
        assert forall u :: u in ts[..n] ==> u in ts;
      }
      AbsentSourceSumsToZero(ts[..n], name);
    }
  }

  /** Names pinned to distinct lines occur once each as a multiset element. */
  lemma {:induction false} DistinctOccursOnce(g: seq<SourceTotal>, x: SourceTotal)
    requires DistinctNames(g)
    ensures multiset(g)[x] <= 1
  {
    if |g| > 0 {
      assert g == [g[0]] + g[1..];
      assert DistinctNames(g[1..]) by {
        forall i, j | 0 <= i < j < |g[1..]| ensures g[1..][i].name != g[1..][j].name {
          assert g[1..][i] == g[i + 1] && g[1..][j] == g[j + 1];
        }
      }
      DistinctOccursOnce(g[1..], x);
      if g[0] == x {
        assert x !in g[1..] by {
          forall j | 0 <= j < |g[1..]| ensures g[1..][j] != x {
            assert g[1..][j] == g[j + 1];
          }
        }
      }
    }
  }

  lemma TwoPositions<T>(s: seq<T>, i: nat, j: nat)
    requires i < j < |s| && s[i] == s[j]
    ensures multiset(s)[s[i]] >= 2
  {
    assert s == s[..i] + [s[i]] + s[i + 1..j] + [s[j]] + s[j + 1..];
  }

  /** Reordering the lines keeps each name on a single line. */
  lemma DistinctNamesPermutation(g: seq<SourceTotal>, r: seq<SourceTotal>)
    requires DistinctNames(g) && multiset(g) == multiset(r)
    ensures DistinctNames(r)
  {
    forall i, j | 0 <= i < j < |r| ensures r[i].name != r[j].name {
      assert r[i] in multiset(g) && r[j] in multiset(g);
      var p :| 0 <= p < |g| && g[p] == r[i];
      var q :| 0 <= q < |g| && g[q] == r[j];
      if p == q {
        TwoPositions(r, i, j);
        DistinctOccursOnce(g, r[i]);
        assert false;
      } else if p < q {
        assert g[p].name != g[q].name;
      } else {
        assert g[q].name != g[p].name;
      }
    }
  }

  /** The lines of a reordered grouping keep their totals. */
  lemma PermutedTotals(ts: seq<GlobalTransaction>, r: seq<SourceTotal>)
    requires multiset(r) == multiset(GroupByName(ts))
    ensures forall i :: 0 <= i < |r| ==> r[i].total == SumBy(ts, AmountFrom(r[i].name))
  {
    var g := GroupByName(ts);
    forall i | 0 <= i < |r| ensures r[i].total == SumBy(ts, AmountFrom(r[i].name)) {
      assert r[i] in multiset(g);
      var k :| 0 <= k < |g| && g[k] == r[i];
      GroupTotals(ts, k);
    }
  }

  lemma PermutedNames(g: seq<SourceTotal>, r: seq<SourceTotal>)
    requires multiset(g) == multiset(r)
    ensures NamesOf(r) == NamesOf(g)
  {
    SameElements(g, r);
  }

  function NegTotal(e: SourceTotal): int { -e.total }

  /** Any reordering of the grouping keeps one line per source, each line's
      total, and the grand total. */
  lemma ReorderedGrouping(ts: seq<GlobalTransaction>, r: seq<SourceTotal>)
    requires multiset(r) == multiset(GroupByName(ts))
    ensures DistinctNames(r)
    ensures NamesOf(r) == SourcesOf(ts)
    ensures forall i :: 0 <= i < |r| ==> r[i].total == SumBy(ts, AmountFrom(r[i].name))
    ensures SumBy(r, TotalOf) == SumBy(ts, GlobalAmount)
  {
    var g := GroupByName(ts);
    DistinctNamesPermutation(g, r);
    PermutedNames(g, r);
    PermutedTotals(ts, r);
    SumByPermutation(r, g, TotalOf);
  }

  /** Ascending by the negated total is descending by the total. */
  lemma DescendingTotals(r: seq<SourceTotal>)
    requires SortedBy(r, NegTotal)
    ensures forall i, j :: 0 <= i < j < |r| ==> r[i].total >= r[j].total
  {
    forall i, j | 0 <= i < j < |r| ensures r[i].total >= r[j].total {
      assert NegTotal(r[i]) <= NegTotal(r[j]);
    }
  }

  /** The breakdown under the lifetime total: one line per institution that
      transferred money in, with its total, largest total first. */
  function Breakdown(h: seq<GlobalTransaction>): (r: seq<SourceTotal>)
    ensures DistinctNames(r)
    ensures NamesOf(r) == SourcesOf(Filter(h, IsTransferIn))
    ensures forall i :: 0 <= i < |r| ==> r[i].total == SumBy(Filter(h, IsTransferIn), AmountFrom(r[i].name))
    ensures SumBy(r, TotalOf) == SumBy(Filter(h, IsTransferIn), GlobalAmount)
    ensures forall i, j :: 0 <= i < j < |r| ==> r[i].total >= r[j].total
  {
    var ts := Filter(h, IsTransferIn);
    var r := SortBy(GroupByName(ts), NegTotal);
    ReorderedGrouping(ts, r);
    DescendingTotals(r);
    r
  }
}

=== FILE: schedule.dfy ===
/** Planning lessons on the schedule screen (src/pages/Schedule.jsx): one lesson,
    or a weekly series up to an end date, at most 52 of them. Dates are day
    numbers, so adding a week is adding 7. */
module Schedule {
  import opened Common
  import opened Domain
  import Dashboard
  import StudentRecords

  /** The most lessons one add produces. */
  const MaxBatch := 52

  /** The lesson the add loop pushes on its `count`-th round, when `Date.now()`
      reads `now` in that round. */
  function PlannedLesson(now: int, count: nat, studentId: int, start: int, time: nat): Lesson {
    Lesson(now + count, studentId, start + 7 * count, time, Upcoming, "", "", None, None)
  }

  /** A clock that never goes back: `clock(i)` is what `Date.now()` reads in
      round `i`. */
  ghost predicate NonDecreasing(clock: nat -> int) {
    forall a: nat, b: nat :: a <= b ==> clock(a) <= clock(b)
  }

  /** How many lessons an add produces once its inputs are all present: one
      without recurrence; with it, one per week from the start up to the end
      date, none when the end is before the start, and never more than 52. */
  function BatchSize(recurring: bool, start: int, end: int): (n: nat)
    ensures n <= MaxBatch
    ensures !recurring ==> n == 1
    ensures recurring && end < start ==> n == 0
    ensures recurring && n > 0 ==> start + 7 * (n - 1) <= end
    ensures recurring && n < MaxBatch ==> start + 7 * n > end
  {
    if !recurring then 1
    else if end < start then 0
    else Min(MaxBatch, (end - start) / 7 + 1)
  }

  /** `handleAddLesson`. Without a student, a time or a date nothing is added.
      Otherwise the loop pushes weekly lessons, starting on the lesson date,
      while the date is not past the end date (exactly once without
      recurrence) and fewer than 52 were pushed; the batch is appended after
      the existing lessons. `Date.now()` is read afresh in every round, and
      `clock(i)` stands for its reading in round `i`. */
  method HandleAddLesson(lessons: seq<Lesson>, studentId: Option<int>, date: Option<int>, time: Option<nat>,
                         recurring: bool, endDate: int, clock: nat -> int) returns (r: seq<Lesson>)
    ensures studentId.None? || date.None? || time.None? ==> r == lessons
    ensures studentId.Some? && date.Some? && time.Some? ==>
      var n := BatchSize(recurring, date.value, endDate);
      && |r| == |lessons| + n
      && r[..|lessons|] == lessons
      && forall i :: 0 <= i < n ==> r[|lessons| + i] == PlannedLesson(clock(i), i, studentId.value, date.value, time.value)
  {
    if studentId.None? || date.None? || time.None? {
      return lessons;
    }
    var sid, start, t := studentId.value, date.value, time.value;
    var end := if recurring then endDate else start;
    ghost var n := BatchSize(recurring, start, endDate);
    var batch: seq<Lesson> := [];
    var current := start;
    var count: nat := 0;
    while (if recurring then current <= end else count == 0) && count < MaxBatch
      invariant count <= n
      invariant current == start + 7 * count
      invariant |batch| == count
      invariant forall i :: 0 <= i < count ==> batch[i] == PlannedLesson(clock(i), i, sid, start, t)
      invariant !recurring ==> count == 0
      invariant recurring && count < n ==> current <= end
      decreases MaxBatch - count
    {
      batch := batch + [PlannedLesson(clock(count), count, sid, start, t)];
      if !recurring {
        break;
      }
      current := current + 7;
      count := count + 1;
      if count < n {
        assert start + 7 * count <= end;
      }
    }
    r := lessons + batch;
  }

  /** Every planned lesson is on or after the lesson date, on the same weekday,
      and, in a series, not after the end date. */
  lemma PlannedDatesInRange(recurring: bool, start: int, end: int, now: int, studentId: int, time: nat, i: nat)
    requires i < BatchSize(recurring, start, end)
    ensures var l := PlannedLesson(now, i, studentId, start, time);
            start <= l.date && (l.date - start) % 7 == 0 && (recurring ==> l.date <= end)
            && l.status == Upcoming && l.topic == "" && l.homework == "" && l.studentId == studentId && l.time == time
  {
  }

  /** The ids of one batch strictly increase, so they are pairwise distinct,
      however far the clock moves between rounds as long as it never goes back. */
  lemma PlannedIdsDistinct(clock: nat -> int, studentId: int, start: int, time: nat, i: nat, j: nat)
    requires NonDecreasing(clock)
    requires i != j
    ensures PlannedLesson(clock(i), i, studentId, start, time).id != PlannedLesson(clock(j), j, studentId, start, time).id
    ensures i < j ==> PlannedLesson(clock(i), i, studentId, start, time).id < PlannedLesson(clock(j), j, studentId, start, time).id
  {
    if i < j {
      assert clock(i) <= clock(j);
    } else {
      assert clock(j) <= clock(i);
    }
  }

  /** A single lesson planned for today appears on today's list on the home
      screen. */
  lemma PlannedTodayIsListed(lessons: seq<Lesson>, now: int, studentId: int, today: int, time: nat)
    ensures PlannedLesson(now, 0, studentId, today, time) in
            Dashboard.UpcomingLessons(lessons + [PlannedLesson(now, 0, studentId, today, time)], today)
  {
    var l := PlannedLesson(now, 0, studentId, today, time);
    assert (lessons + [l])[|lessons|] == l;
  }

  /** `getStudentName`: the name of the first student with the id, or
      'Bilinmeyen' when there is none or the name is empty. */
  function ScheduleStudentName(ss: seq<Student>, id: int): (r: string)
    ensures (forall i :: 0 <= i < |ss| ==> ss[i].id != id) ==> r == "Bilinmeyen"
    ensures FindStudent(ss, id).Some? && |FindStudent(ss, id).value.name| > 0 ==> r == FindStudent(ss, id).value.name
    ensures FindStudent(ss, id).Some? && |FindStudent(ss, id).value.name| == 0 ==> r == "Bilinmeyen"
    ensures |r| > 0
  {
    match FindStudent(ss, id)
    case None => "Bilinmeyen"
    case Some(s) => if |s.name| == 0 then "Bilinmeyen" else s.name
  }

  /** A student just added under a fresh id is named on the schedule by the
      name typed in, or by the default name when none was typed. */
  lemma AddedStudentIsNamed(ss: seq<Student>, id: int, name: string, instrument: string, feeText: string, phone: string, photo: Option<string>, color: string)
    requires forall i :: 0 <= i < |ss| ==> ss[i].id != id
    ensures ScheduleStudentName(StudentRecords.AddStudent(ss, id, name, instrument, feeText, phone, photo, color), id)
            == (if |name| == 0 then "Yeni Öğrenci" else name)
  {
    var r := StudentRecords.AddStudent(ss, id, name, instrument, feeText, phone, photo, color);
    assert forall j :: 0 <= j < |ss| ==> r[j] == ss[j];
    FindStudentAt(r, |ss|);
  }
}

=== FILE: sorting.dfy ===
/** Stable sorting by an integer key, the model of Array.prototype.sort with a
    numeric comparator `(a, b) => key(a) - key(b)`. A descending sort is a sort by
    the negated key. */
module Sorting {
  import opened Common

  ghost predicate SortedBy<T>(s: seq<T>, key: T -> int) {
    forall i, j :: 0 <= i < j < |s| ==> key(s[i]) <= key(s[j])
  }

  /** Inserts `x` before the first element whose key is not smaller, so that
      elements with equal keys keep their relative order. */
  function Insert<T>(x: T, s: seq<T>, key: T -> int): (r: seq<T>)
    ensures |r| == |s| + 1
    ensures multiset(r) == multiset(s) + multiset{x}
  {
    if |s| == 0 || key(x) <= key(s[0]) then [x] + s
    else
      assert s == [s[0]] + s[1..];
      [s[0]] + Insert(x, s[1..], key)
  }

  /** Prefixing a sorted sequence with an element no larger than any of its
      elements keeps it sorted. */
  lemma ConsSorted<T>(y: T, t: seq<T>, key: T -> int)
    requires SortedBy(t, key)
    requires forall z :: z in t ==> key(y) <= key(z)
    ensures SortedBy([y] + t, key)
  {
    var r := [y] + t;
    forall i, j | 0 <= i < j < |r| ensures key(r[i]) <= key(r[j]) {
      assert r[j] == t[j - 1];
      if i == 0 {
        assert t[j - 1] in t;
      } else {
        assert r[i] == t[i - 1];
      }
    }
  }

  lemma {:induction false} InsertSorted<T>(x: T, s: seq<T>, key: T -> int)
    requires SortedBy(s, key)
    ensures SortedBy(Insert(x, s, key), key)
  {
    if |s| == 0 || key(x) <= key(s[0]) {
      forall z | z in s ensures key(x) <= key(z) {
        var k :| 0 <= k < |s| && s[k] == z;
        assert k == 0 || key(s[0]) <= key(s[k]);
      }
      ConsSorted(x, s, key);
    } else {
      var t := Insert(x, s[1..], key);
      assert SortedBy(s[1..], key) by {
        forall i, j | 0 <= i < j < |s[1..]| ensures key(s[1..][i]) <= key(s[1..][j]) {
          assert s[1..][i] == s[i + 1] && s[1..][j] == s[j + 1];
        }
      }
      InsertSorted(x, s[1..], key);
      forall z | z in t ensures key(s[0]) <= key(z) {
        assert z in multiset(t);
        if z != x {
          assert z in multiset(s[1..]);
          var k :| 0 <= k < |s[1..]| && s[1..][k] == z;
          assert s[k + 1] == z;
        }
      }
      ConsSorted(s[0], t, key);
    }
  }

  /** Insertion sort: a sorted permutation of `s`. */
  function SortBy<T>(s: seq<T>, key: T -> int): (r: seq<T>)
    ensures |r| == |s|
    ensures multiset(r) == multiset(s)
    ensures SortedBy(r, key)
  {
    if |s| == 0 then []
    else
      assert s == [s[0]] + s[1..];
      var t := SortBy(s[1..], key);
      InsertSorted(s[0], t, key);
      Insert(s[0], t, key)
  }

  /** The test "has key `k`", used to state stability. */
  function HasKey<T>(key: T -> int, k: int): T -> bool {
    (x: T) => key(x) == k
  }

  /** Inserting `x` leaves the elements of every key in the order they have in
      `[x] + t`: everything `x` is moved past has a smaller key. */
  lemma {:induction false} InsertKeepsKeyOrder<T(!new)>(x: T, t: seq<T>, key: T -> int, k: int)
    ensures Filter(Insert(x, t, key), HasKey(key, k)) == Filter([x] + t, HasKey(key, k))
  {
    if |t| > 0 && key(x) > key(t[0]) {
      var p := HasKey(key, k);
      var y, u := t[0], t[1..];
      assert t == [y] + u;
      var hx: seq<T> := if p(x) then [x] else [];
      var hy: seq<T> := if p(y) then [y] else [];
      assert Insert(x, t, key) == [y] + Insert(x, u, key);
      FilterCons(y, Insert(x, u, key), p);
      InsertKeepsKeyOrder(x, u, key, k);
      FilterCons(x, u, p);
      FilterCons(x, t, p);
      FilterCons(y, u, p);
      SwapAroundEmpty(hy, hx, Filter(u, p));
    }
  }

  lemma SwapAroundEmpty<T>(a: seq<T>, b: seq<T>, c: seq<T>)
    requires a == [] || b == []
    ensures a + (b + c) == b + (a + c)
  {
    if a == [] {
      assert a + (b + c) == b + c == b + (a + c);
    } else {
      assert a + (b + c) == a + c == b + (a + c);
    }
  }

  lemma FilterCons<T(!new)>(y: T, u: seq<T>, p: T -> bool)
    ensures Filter([y] + u, p) == (if p(y) then [y] else []) + Filter(u, p)
  {
    assert ([y] + u)[1..] == u;
  }

  /** The sort is stable: the elements of any one key come out in the order they
      went in. */
  lemma {:induction false} SortByStable<T(!new)>(s: seq<T>, key: T -> int, k: int)
    ensures Filter(SortBy(s, key), HasKey(key, k)) == Filter(s, HasKey(key, k))
  {
    if |s| > 0 {
      var t := SortBy(s[1..], key);
      assert SortBy(s, key) == Insert(s[0], t, key);
      InsertKeepsKeyOrder(s[0], t, key, k);
      SortByStable(s[1..], key, k);
      assert ([s[0]] + t)[1..] == t;
    }
  }

  /** A permutation has the same elements. */
  lemma SameElements<T>(a: seq<T>, b: seq<T>)
    requires multiset(a) == multiset(b)
    ensures forall x :: x in a <==> x in b
  {
    forall x ensures x in a <==> x in b {
      assert x in a <==> x in multiset(a);
      assert x in b <==> x in multiset(b);
    }
  }

  /** Sorting the elements that pass a test: exactly those elements, each as
      often as before, in key order. */
  lemma SortFiltered<T(!new)>(s: seq<T>, p: T -> bool, key: T -> int)
    ensures var r := SortBy(Filter(s, p), key);
            && |r| <= |s|
            && (forall x :: x in r <==> x in s && p(x))
            && SortedBy(r, key)
            && multiset(r) == multiset(Filter(s, p))
  {
    SameElements(Filter(s, p), SortBy(Filter(s, p), key));
  }

  /** Taking the first element of `a` out of both sides of a permutation, at
      the place `k` where `b` holds it, leaves a permutation. */
  lemma RemoveMatched<T>(a: seq<T>, b: seq<T>, k: nat)
    requires multiset(a) == multiset(b)
    requires 0 < |a| && k < |b| && b[k] == a[0]
    ensures multiset(a[1..]) == multiset(b[..k] + b[k + 1..])
  {
    var x := a[0];
    assert b == b[..k] + [x] + b[k + 1..];
    assert a == [x] + a[1..];
    assert multiset(a[1..]) == multiset(a) - multiset{x};
    assert multiset(b[..k] + b[k + 1..]) == multiset(b) - multiset{x};
  }

  /** A sum does not depend on the order of its terms. */
  lemma {:induction false} SumByPermutation<T>(a: seq<T>, b: seq<T>, f: T -> int)
    requires multiset(a) == multiset(b)
    ensures SumBy(a, f) == SumBy(b, f)
    decreases |a|
  {
    if |a| > 0 {
      var x := a[0];
      assert x in multiset(b);
      var k :| 0 <= k < |b| && b[k] == x;
      var rest := b[..k] + b[k + 1..];
      RemoveMatched(a, b, k);
      assert b == b[..k] + [x] + b[k + 1..];
      assert a == [x] + a[1..];
      SumByPermutation(a[1..], rest, f);
      SumByCons(x, a[1..], f);
      SumByConcat(b[..k] + [x], b[k + 1..], f);
      SumByConcat(b[..k], [x], f);
      SumByConcat(b[..k], b[k + 1..], f);
      assert SumBy([x], f) == f(x) by { assert [x][..0] == []; }
    } else {
      assert |b| == |multiset(b)| == 0;
    }
  }
}

=== FILE: stats.dfy ===
/** The statistics screen (src/pages/Stats.jsx): this month's expected and
    realized lesson revenue, and the list of students in debt. Which lessons
    fall in the current month is a predicate on the day number, since the
    calendar is not modelled. */
module Stats {
  import opened Common
  import opened Domain
  import opened Sorting
  import Finance

  /** The fee a lesson is worth: its student's fee, or 0 when the student is gone. */
  function FeeFor(ss: seq<Student>, l: Lesson): (f: int)
    ensures (forall i :: 0 <= i < |ss| ==> ss[i].id != l.studentId) ==> f == 0
    ensures FindStudent(ss, l.studentId).Some? ==> f == FindStudent(ss, l.studentId).value.feePerLesson
  {
    match FindStudent(ss, l.studentId)
    case None => 0
    case Some(s) => s.feePerLesson
  }

  /** `monthlyLessons`: the lessons dated in the current month, in order. */
  function MonthlyLessons(lessons: seq<Lesson>, inMonth: int -> bool): (r: seq<Lesson>)
    ensures forall l :: l in r <==> l in lessons && inMonth(l.date)
    ensures IsSubsequence(r, lessons)
  {
    FilterIsSubsequence(lessons, (l: Lesson) => inMonth(l.date));
    Filter(lessons, (l: Lesson) => inMonth(l.date))
  }

  predicate IsCompleted(l: Lesson) { l.status == Completed }

  ghost predicate FeesNonNegative(ss: seq<Student>) {
    forall i :: 0 <= i < |ss| ==> ss[i].feePerLesson >= 0
  }

  /** With no negative fee, no lesson is worth a negative amount. */
  lemma FeeForNonNegative(ss: seq<Student>, ls: seq<Lesson>)
    requires FeesNonNegative(ss)
    ensures forall x :: x in ls ==> FeeFor(ss, x) >= 0
  {
    forall x | x in ls ensures FeeFor(ss, x) >= 0 {
      if FindStudent(ss, x.studentId).Some? {
        var k :| 0 <= k < |ss| && ss[k] == FindStudent(ss, x.studentId).value;
      }
    }
  }

  /** The fee sum over some lessons: never negative when no fee is, and 0 over
      no lessons. */
  lemma FeeSumFacts(ss: seq<Student>, ls: seq<Lesson>)
    ensures FeesNonNegative(ss) ==> SumBy(ls, (l: Lesson) => FeeFor(ss, l)) >= 0
    ensures (forall l :: l !in ls) ==> SumBy(ls, (l: Lesson) => FeeFor(ss, l)) == 0
  {
    if FeesNonNegative(ss) {
      FeeForNonNegative(ss, ls);
      SumByNonNegative(ls, (l: Lesson) => FeeFor(ss, l));
    }
    if |ls| > 0 {
      assert ls[0] in ls;
    }
  }

  /** `expectedRevenue`: the fees of all of this month's lessons. */
  function ExpectedRevenue(ss: seq<Student>, lessons: seq<Lesson>, inMonth: int -> bool): (r: int)
    ensures FeesNonNegative(ss) ==> r >= 0
    ensures (forall l :: l in lessons ==> !inMonth(l.date)) ==> r == 0
  {
    FeeSumFacts(ss, MonthlyLessons(lessons, inMonth));
    SumBy(MonthlyLessons(lessons, inMonth), (l: Lesson) => FeeFor(ss, l))
  }

  /** `realizedRevenue`: the fees of this month's completed lessons. */
  function RealizedRevenue(ss: seq<Student>, lessons: seq<Lesson>, inMonth: int -> bool): (r: int)
    ensures FeesNonNegative(ss) ==> r >= 0
    ensures (forall l :: l in lessons ==> !inMonth(l.date) || l.status != Completed) ==> r == 0
  {
    FeeSumFacts(ss, Filter(MonthlyLessons(lessons, inMonth), IsCompleted));
    SumBy(Filter(MonthlyLessons(lessons, inMonth), IsCompleted), (l: Lesson) => FeeFor(ss, l))
  }

  /** With no negative fee, the realized revenue never exceeds the expected:
      it adds up a part of the same terms. */
  lemma RealizedWithinExpected(ss: seq<Student>, lessons: seq<Lesson>, inMonth: int -> bool)
    requires forall i :: 0 <= i < |ss| ==> ss[i].feePerLesson >= 0
    ensures 0 <= RealizedRevenue(ss, lessons, inMonth) <= ExpectedRevenue(ss, lessons, inMonth)
  {
    var fee := (l: Lesson) => FeeFor(ss, l);
    var monthly := MonthlyLessons(lessons, inMonth);
    FeeForNonNegative(ss, monthly);
    SumByFilterLe(monthly, IsCompleted, fee);
  }

  /** A lesson whose student no longer exists adds nothing to either total. */
  lemma MissingStudentAddsNothing(ss: seq<Student>, lessons: seq<Lesson>, l: Lesson, inMonth: int -> bool)
    requires forall i :: 0 <= i < |ss| ==> ss[i].id != l.studentId
    ensures ExpectedRevenue(ss, lessons + [l], inMonth) == ExpectedRevenue(ss, lessons, inMonth)
    ensures RealizedRevenue(ss, lessons + [l], inMonth) == RealizedRevenue(ss, lessons, inMonth)
  {
    var month := (x: Lesson) => inMonth(x.date);
    var monthly := MonthlyLessons(lessons, inMonth);
    FilterConcat(lessons, [l], month);
    var tail := Filter([l], month);
    assert MonthlyLessons(lessons + [l], inMonth) == monthly + tail;
    AppendFeeless(ss, monthly, tail, l);
    FilterConcat(monthly, tail, IsCompleted);
    AppendFeeless(ss, Filter(monthly, IsCompleted), Filter(tail, IsCompleted), l);
  }

  /** Appending nothing, or only a lesson worth no fee, keeps a fee total. */
  lemma AppendFeeless(ss: seq<Student>, m: seq<Lesson>, t: seq<Lesson>, l: Lesson)
    requires forall x :: x in t ==> x == l
    requires |t| <= 1
    requires FeeFor(ss, l) == 0
    ensures SumBy(m + t, (x: Lesson) => FeeFor(ss, x)) == SumBy(m, (x: Lesson) => FeeFor(ss, x))
  {
    var fee := (x: Lesson) => FeeFor(ss, x);
    SumByConcat(m, t, fee);
    if |t| == 1 {
      assert t[0] in t;
      SumByFront(t, fee);
    }
  }

  /** `debtors`: the students in debt, the largest debt first. */
  function Debtors(ss: seq<Student>): (r: seq<Student>)
    ensures forall s :: s in r <==> s in ss && s.balance < 0
    ensures forall i, j :: 0 <= i < j < |r| ==> r[i].balance <= r[j].balance
    ensures multiset(r) == multiset(Filter(ss, IsDebtor))
  {
    SortFiltered(ss, IsDebtor, BalanceOf);
    SortBy(Filter(ss, IsDebtor), BalanceOf)
  }

  /** `totalDebt`: the sum of |balance| over the debtors, the same amount the
      finance screen shows as receivables. */
  function TotalDebt(ss: seq<Student>): (r: int)
    ensures r >= 0
    ensures r == Finance.TotalReceivables(ss)
  {
    DebtorsTotal(ss);
    SumBy(Debtors(ss), AbsBalance)
  }

  /** Sorting the debtors does not change what they owe in total. */
  lemma DebtorsTotal(ss: seq<Student>)
    ensures SumBy(Debtors(ss), AbsBalance) == Finance.TotalReceivables(ss)
  {
    var d := Debtors(ss);
    var f := Filter(ss, IsDebtor);
    assert multiset(d) == multiset(f);
    SumByPermutation(d, f, AbsBalance);
  }
}

=== FILE: student_records.dfy ===
/** The student screens of src/App.jsx: loading money into a student's wallet,
    adding, editing and deleting a student, and the lesson history. */
module StudentRecords {
  import opened Common
  import opened Domain
  import opened Sorting
  import opened Amounts
  import opened Navigation

  // ----- wallet load -----

  datatype WalletOutcome =
    | Ignored                                   // empty input: the handler returns
    | Rejected                                  // parseAmount refused the text: a toast only
    | Loaded(inst: Institution, stack: Stack)
    | Crashed(inst: Institution)                // the write landed, then the stack updater threw

  /** The wallet-load confirm handler of the student detail screen. The record
      shown is refreshed from the list when its id is still there
      (`students.find(...) || currentStudent`); the amount is credited to every
      record with that id, the cash box and the ledger move by the amount, and
      the modal is popped so the detail screen shows the new balance. */
  function WalletLoad(inst: Institution, stack: Stack, shown: Student, text: string, stamp: Stamp): (r: WalletOutcome)
    ensures |text| == 0 ==> r == Ignored
    ensures r == Rejected <==> |text| > 0 && ParseAmount(text).None?
    ensures r.Loaded? <==> |text| > 0 && ParseAmount(text).Some?
    ensures r.Loaded? ==>
      var a := ParseAmount(text).value;
      var found := FindStudent(inst.students, shown.id).GetOr(shown);
      && a > 0
      && PostsOne(inst, r.inst, a)
      && r.inst.transactions[0].kind == "wallet_load"
      && r.inst.transactions[0].description == "Cüzdan Yükleme: " + found.name
      && r.inst.students == CreditStudent(inst.students, found.id, a)
      && r.inst.lessons == inst.lessons && r.inst.resources == inst.resources
      && r.stack == PopAndShow(stack, found.(balance := found.balance + a))
  {
    WalletLoadFor(inst, stack, FindStudent(inst.students, shown.id).GetOr(shown), text, stamp, true)
  }

  /** The shared body of both confirm handlers for a given target record. The
      overlay variant does not check that a frame is left after the pop: with
      fewer than two frames its stack updater throws, after the institution
      write and `setStudents` have already gone out. That is `Crashed`, which
      carries the credited institution; the stack is left as it was. */
  function WalletLoadFor(inst: Institution, stack: Stack, target: Student, text: string, stamp: Stamp, checksStack: bool): (r: WalletOutcome)
    ensures |text| == 0 ==> r == Ignored
    ensures r == Rejected <==> |text| > 0 && ParseAmount(text).None?
    ensures r.Loaded? <==> |text| > 0 && ParseAmount(text).Some? && (checksStack || |stack| >= 2)
    ensures r.Crashed? <==> |text| > 0 && ParseAmount(text).Some? && !checksStack && |stack| < 2
    ensures r.Loaded? || r.Crashed? ==>
      var a := ParseAmount(text).value;
      && a > 0
      && r.inst == Credit(inst, target, a, stamp)
    ensures r.Loaded? ==>
      r.stack == PopAndShow(stack, target.(balance := target.balance + ParseAmount(text).value))
  {
    if |text| == 0 then Ignored
    else
      var parsed := ParseAmount(text);
      if parsed.None? then Rejected
      else if !checksStack && |stack| < 2 then Crashed(Credit(inst, target, parsed.value, stamp))
      else
        var a := parsed.value;
        Loaded(Credit(inst, target, a, stamp), PopAndShow(stack, target.(balance := target.balance + a)))
  }

  /** The institution after `amount` is loaded into `target`'s wallet: the
      record is credited and the cash box and the ledger move together. */
  function Credit(inst: Institution, target: Student, amount: int, stamp: Stamp): (r: Institution)
    ensures PostsOne(inst, r, amount)
    ensures r.transactions[0].kind == "wallet_load"
    ensures r.transactions[0].description == "Cüzdan Yükleme: " + target.name
    ensures r.students == CreditStudent(inst.students, target.id, amount)
    ensures r.lessons == inst.lessons && r.resources == inst.resources
  {
    var tx := Transaction(stamp.id, "wallet_load", "Cüzdan Yükleme: " + target.name, amount, stamp.date, stamp.time);
    inst.(students := CreditStudent(inst.students, target.id, amount),
          cash := inst.cash + amount,
          transactions := [tx] + inst.transactions)
  }

  /** The overlay variant of the handler: it credits the record the screen was
      opened with, without refreshing it from the list. */
  function WalletLoadOverlay(inst: Institution, stack: Stack, params: Student, text: string, stamp: Stamp): (r: WalletOutcome)
    ensures |text| == 0 ==> r == Ignored
    ensures r.Loaded? <==> |text| > 0 && ParseAmount(text).Some? && |stack| >= 2
    ensures r.Crashed? <==> |text| > 0 && ParseAmount(text).Some? && |stack| < 2
    ensures r.Loaded? || r.Crashed? ==> r.inst.students == CreditStudent(inst.students, params.id, ParseAmount(text).value)
    ensures r.Loaded? || r.Crashed? ==>
      PostsOne(inst, r.inst, ParseAmount(text).value)
      && r.inst.transactions[0].description == "Cüzdan Yükleme: " + params.name
  {
    WalletLoadFor(inst, stack, params, text, stamp, false)
  }

  /** After a load, the detail screen shows exactly the stored record of the
      student when the student is in the list, and the total of all balances
      grows by the amount when its id is unique. */
  lemma WalletLoadShowsStoredBalance(inst: Institution, stack: Stack, shown: Student, text: string, stamp: Stamp)
    requires |stack| > 1
    requires |text| > 0 && ParseAmount(text).Some?
    requires CountId(inst.students, shown.id) == 1
    ensures var r := WalletLoad(inst, stack, shown, text, stamp);
            r.Loaded? &&
            var top := r.stack[|r.stack| - 1].params;
            && top.Some? && top.value in r.inst.students
            && SumBy(r.inst.students, BalanceOf) == SumBy(inst.students, BalanceOf) + ParseAmount(text).value
  {
    var r := WalletLoad(inst, stack, shown, text, stamp);
    var found := FindStudent(inst.students, shown.id).GetOr(shown);
    var a := ParseAmount(text).value;
    assert r == WalletLoadFor(inst, stack, found, text, stamp, true);
    assert r.stack == PopAndShow(stack, found.(balance := found.balance + a));
    assert r.inst == Credit(inst, found, a, stamp);
    CountIdZero(inst.students, shown.id);
    assert found in inst.students;
    CreditedIsListed(inst.students, found, a);
    CreditOnceTotal(inst.students, found.id, a);
  }

  /** Crediting the one record with an id raises the balances by the amount. */
  lemma CreditOnceTotal(ss: seq<Student>, id: int, amount: int)
    requires CountId(ss, id) == 1
    ensures SumBy(CreditStudent(ss, id, amount), BalanceOf) == SumBy(ss, BalanceOf) + amount
  {
    CreditStudentTotal(ss, id, amount);
    TimesIsProduct(amount, 1);
  }

  /** Crediting a listed record puts the credited record in the list. */
  lemma CreditedIsListed(ss: seq<Student>, s: Student, amount: int)
    requires s in ss
    ensures s.(balance := s.balance + amount) in CreditStudent(ss, s.id, amount)
  {
    var k :| 0 <= k < |ss| && ss[k] == s;
    assert CreditStudent(ss, s.id, amount)[k] == s.(balance := s.balance + amount);
  }

  // ----- add, edit, delete -----

  /** `name || default`: the empty string falls back to the default. */
  function OrDefault(s: string, default: string): (r: string)
    ensures |s| > 0 ==> r == s
    ensures |s| == 0 ==> r == default
  {
    if |s| == 0 then default else s
  }

  /** The add-student handler: a record with a fresh id, zero balance, the fee
      read with `parseInt` (0 when it yields nothing), defaulted name,
      instrument and phone, appended at the end of the list. */
  function AddStudent(ss: seq<Student>, id: int, name: string, instrument: string, feeText: string, phone: string, photo: Option<string>, color: string): (r: seq<Student>)
    ensures |r| == |ss| + 1 && r[..|ss|] == ss
    ensures var s := r[|ss|];
      && s.id == id && s.balance == 0
      && s.name == (if |name| == 0 then "Yeni Öğrenci" else name)
      && s.instrument == (if |instrument| == 0 then "Piyano" else instrument)
      && (ParseInt(feeText).Some? ==> s.feePerLesson == ParseInt(feeText).value)
      && (ParseInt(feeText).None? ==> s.feePerLesson == 0)
      && s.phone == phone && s.photo == photo
  {
    ss + [Student(id, OrDefault(name, "Yeni Öğrenci"), OrDefault(instrument, "Piyano"),
                  ParseInt(feeText).GetOr(0), 0, phone, photo, color)]
  }

  /** A new student owes nothing, so adding one leaves the receivables alone. */
  lemma AddStudentOwesNothing(ss: seq<Student>, id: int, name: string, instrument: string, feeText: string, phone: string, photo: Option<string>, color: string)
    ensures SumBy(AddStudent(ss, id, name, instrument, feeText, phone, photo, color), DebtOf) == SumBy(ss, DebtOf)
    ensures SumBy(AddStudent(ss, id, name, instrument, feeText, phone, photo, color), BalanceOf) == SumBy(ss, BalanceOf)
  {
    var r := AddStudent(ss, id, name, instrument, feeText, phone, photo, color);
    assert r == ss + [r[|ss|]];
    SumByConcat(ss, [r[|ss|]], DebtOf);
    SumByConcat(ss, [r[|ss|]], BalanceOf);
  }

  /** The edit handler: the record the screen was opened with, with the new
      fields, replaces every record with its id; the photo is kept unless a new
      one was chosen; the edit screen is popped and the detail screen shows the
      updated record. */
  function EditStudent(ss: seq<Student>, stack: Stack, params: Student, name: string, instrument: string, fee: int, phone: string, newPhoto: Option<string>): (r: (seq<Student>, Stack))
    ensures |r.0| == |ss|
    ensures forall i :: 0 <= i < |ss| && ss[i].id != params.id ==> r.0[i] == ss[i]
    ensures forall i :: 0 <= i < |ss| && ss[i].id == params.id ==>
      r.0[i].name == name && r.0[i].instrument == instrument && r.0[i].feePerLesson == fee && r.0[i].phone == phone
      && r.0[i].id == params.id && r.0[i].balance == params.balance
      && r.0[i].photo == (if newPhoto.Some? then newPhoto else params.photo)
      && r.0[i].avatarColor == params.avatarColor
    ensures |r.1| == |GoBack(stack)|
    ensures |stack| > 1 ==> forall i :: 0 <= i < |ss| && ss[i].id == params.id ==> r.1[|r.1| - 1].params == Some(r.0[i])
  {
    var photo := if newPhoto.Some? then newPhoto else params.photo;
    var updated := params.(name := name, instrument := instrument, feePerLesson := fee, phone := phone, photo := photo);
    (MapWhere(ss, (s: Student) => s.id == params.id, (_: Student) => updated), PopAndShow(stack, updated))
  }

  /** After an edit of a listed student, looking the id up gives the edited
      fields with the balance the screen was opened with. */
  lemma EditReadsBack(ss: seq<Student>, stack: Stack, params: Student, name: string, instrument: string, fee: int, phone: string, newPhoto: Option<string>)
    requires FindStudent(ss, params.id).Some?
    ensures var r := EditStudent(ss, stack, params, name, instrument, fee, phone, newPhoto).0;
            var found := FindStudent(r, params.id);
            && found.Some?
            && found.value.name == name && found.value.instrument == instrument
            && found.value.feePerLesson == fee && found.value.phone == phone
            && found.value.balance == params.balance
  {
    var r := EditStudent(ss, stack, params, name, instrument, fee, phone, newPhoto).0;
    var k :| 0 <= k < |ss| && ss[k] == FindStudent(ss, params.id).value
             && forall j :: 0 <= j < k ==> ss[j].id != params.id;
    assert forall j :: 0 <= j < k ==> r[j] == ss[j];
    FindStudentAt(r, k);
  }

  datatype DeleteOutcome = Deleted(students: seq<Student>, stack: Stack) | NoTarget

  /** The delete handler: with a frame on top of the stack, every record with
      the frame's student id is removed, the others keep their order, and the
      stack is emptied so the app goes home. A frame opened without a student
      carries `{}`, which is truthy: the filter then compares with an
      undefined id, keeps everyone, and still goes home. With no frame at all
      nothing happens. */
  function DeleteStudent(ss: seq<Student>, stack: Stack): (r: DeleteOutcome)
    ensures r.NoTarget? <==> |stack| == 0
    ensures r.Deleted? ==> r.stack == []
    ensures r.Deleted? && Top(stack).value.params.None? ==> r.students == ss
    ensures r.Deleted? && Top(stack).value.params.Some? ==>
      var id := Top(stack).value.params.value.id;
      && (forall s :: s in r.students <==> s in ss && s.id != id)
      && IsSubsequence(r.students, ss)
  {
    match Top(stack)
    case None => NoTarget
    case Some(f) =>
      match f.params
      case None => Deleted(ss, [])
      case Some(p) =>
        FilterIsSubsequence(ss, (s: Student) => s.id != p.id);
        Deleted(Filter(ss, (s: Student) => s.id != p.id), [])
  }

  /** Deleting removes only records with the id: a list without it is kept whole. */
  lemma DeleteAbsentKeepsAll(ss: seq<Student>, stack: Stack)
    requires |stack| > 0 && Top(stack).value.params.Some?
    requires forall i :: 0 <= i < |ss| ==> ss[i].id != Top(stack).value.params.value.id
    ensures DeleteStudent(ss, stack).students == ss
  {
    var id := Top(stack).value.params.value.id;
    FilterAll(ss, (s: Student) => s.id != id);
  }

  /** After a delete the id can no longer be looked up, and every other record
      still can. */
  lemma DeletedIsGone(ss: seq<Student>, stack: Stack, other: int)
    requires |stack| > 0 && Top(stack).value.params.Some?
    ensures var id := Top(stack).value.params.value.id;
            var r := DeleteStudent(ss, stack).students;
            FindStudent(r, id).None?
            && (other != id ==> (FindStudent(r, other).None? <==> FindStudent(ss, other).None?))
  {
    var id := Top(stack).value.params.value.id;
    var r := DeleteStudent(ss, stack).students;
    if other != id {
      if FindStudent(ss, other).Some? {
        assert FindStudent(ss, other).value in r;
      }
      if FindStudent(r, other).Some? {
        assert FindStudent(r, other).value in ss;
      }
    }
  }

  // ----- history -----

  /** The start of a lesson in minutes, the order `new Date(date + ' ' + time)` gives. */
  function StartMinute(l: Lesson): int { l.date * 1440 + l.time }

  function NegStart(l: Lesson): int { -StartMinute(l) }

  predicate InHistory(l: Lesson, studentId: int) {
    l.studentId == studentId && (l.status == Completed || l.status == Cancelled)
  }

  /** The full history screen: the student's completed and cancelled lessons,
      newest first. */
  function LessonHistory(lessons: seq<Lesson>, studentId: int): (r: seq<Lesson>)
    ensures forall l :: l in r <==> l in lessons && l.studentId == studentId && (l.status == Completed || l.status == Cancelled)
    ensures forall i, j :: 0 <= i < j < |r| ==> StartMinute(r[i]) >= StartMinute(r[j])
    ensures multiset(r) == multiset(Filter(lessons, (l: Lesson) => InHistory(l, studentId)))
  {
    SortFiltered(lessons, (l: Lesson) => InHistory(l, studentId), NegStart);
    SortBy(Filter(lessons, (l: Lesson) => InHistory(l, studentId)), NegStart)
  }

  /** The detail screen's preview: the first three of the history. */
  function HistoryPreview(lessons: seq<Lesson>, studentId: int): (r: seq<Lesson>)
    ensures |r| <= 3 && |r| <= |LessonHistory(lessons, studentId)|
    ensures r == LessonHistory(lessons, studentId)[..|r|]
    ensures |r| < 3 ==> r == LessonHistory(lessons, studentId)
  {
    var h := LessonHistory(lessons, studentId);
    if |h| <= 3 then h else h[..3]
  }

  /** The preview shows the newest lessons: nothing left out is newer than
      anything shown. */
  lemma PreviewIsNewest(lessons: seq<Lesson>, studentId: int, l: Lesson, m: Lesson)
    requires l in HistoryPreview(lessons, studentId)
    requires m in LessonHistory(lessons, studentId) && m !in HistoryPreview(lessons, studentId)
    ensures StartMinute(m) <= StartMinute(l)
  {
    var h := LessonHistory(lessons, studentId);
    var p := HistoryPreview(lessons, studentId);
    var i :| 0 <= i < |p| && p[i] == l;
    var j :| 0 <= j < |h| && h[j] == m;
    assert h[i] == l;
  }
}

=== FILE: student_search.dfy ===
/** The search box of the student list (src/pages/Students.jsx): a student is
    shown when the lower-cased name contains the lower-cased term. Lower-casing
    covers the ASCII letters only. */
module StudentSearch {
  import opened Common
  import opened Domain
  import opened Amounts

  function LowerChar(c: char): char {
    if 'A' <= c <= 'Z' then (c as int + 32) as char else c
  }

  /** `toLowerCase`, restricted to ASCII letters. */
  function LowerAscii(s: string): (r: string)
    ensures |r| == |s|
    ensures forall i :: 0 <= i < |s| ==> r[i] == LowerChar(s[i])
  {
    if |s| == 0 then [] else [LowerChar(s[0])] + LowerAscii(s[1..])
  }

  /** `needle` occurs in `hay` starting at position `i`. */
  ghost predicate OccursAt(hay: string, needle: string, i: int) {
    0 <= i && i + |needle| <= |hay| && hay[i..i + |needle|] == needle
  }

  /** A window of `hay` read through its tail. */
  lemma SliceOfTail(hay: string, i: nat, n: nat)
    requires 0 < i && i + n <= |hay|
    ensures hay[i..i + n] == hay[1..][i - 1..i - 1 + n]
  {
    var a, b := hay[i..i + n], hay[1..][i - 1..i - 1 + n];
    assert |a| == |b|;
    forall k | 0 <= k < n ensures a[k] == b[k] {
      assert a[k] == hay[i + k];
      assert b[k] == hay[1..][i - 1 + k];
    }
  }

  /** `String.prototype.includes`: some suffix of `hay` starts with `needle`. */
  function Contains(hay: string, needle: string): (b: bool)
    ensures b <==> exists i :: OccursAt(hay, needle, i)
    decreases |hay|
  {
    if needle <= hay then
      assert OccursAt(hay, needle, 0);
      true
    else if |hay| == 0 then
      assert forall i :: !OccursAt(hay, needle, i);
      false
    else
      var rest := Contains(hay[1..], needle);
      assert forall i :: OccursAt(hay, needle, i) <==> (i == 0 && needle <= hay) || (i > 0 && OccursAt(hay[1..], needle, i - 1)) by {
        forall i ensures OccursAt(hay, needle, i) <==> (i == 0 && needle <= hay) || (i > 0 && OccursAt(hay[1..], needle, i - 1)) {
          if i > 0 && i + |needle| <= |hay| {
            SliceOfTail(hay, i, |needle|);
          }
          if i == 0 && i + |needle| <= |hay| {
            assert hay[..|needle|] == hay[0..0 + |needle|];
          }
        }
      }
      assert rest ==> OccursAt(hay, needle, 0) || exists i :: OccursAt(hay, needle, i) by {
        if rest {
          var j :| OccursAt(hay[1..], needle, j);
          assert OccursAt(hay, needle, j + 1);
        }
      }
      rest
  }

  predicate Matches(s: Student, term: string) {
    Contains(LowerAscii(s.name), LowerAscii(term))
  }

  /** `filteredStudents`. */
  function SearchStudents(ss: seq<Student>, term: string): (r: seq<Student>)
    ensures forall s :: s in r <==> s in ss && Contains(LowerAscii(s.name), LowerAscii(term))
    ensures IsSubsequence(r, ss)
  {
    FilterIsSubsequence(ss, (s: Student) => Matches(s, term));
    Filter(ss, (s: Student) => Matches(s, term))
  }

  /** An empty search shows every student, in order. */
  lemma EmptySearchShowsAll(ss: seq<Student>)
    ensures SearchStudents(ss, "") == ss
  {
    assert forall s :: s in ss ==> Matches(s, "") by {
      forall s | s in ss ensures Matches(s, "") { assert OccursAt(LowerAscii(s.name), "", 0); }
    }
    FilterAll(ss, (s: Student) => Matches(s, ""));
  }

  lemma LowerUpperChar(c: char)
    ensures LowerChar(UpperChar(c)) == LowerChar(c)
  {
  }

  /** Lower-casing an upper-cased text is lower-casing the text. */
  lemma LowerOfUpper(s: string)
    ensures LowerAscii(UpperAscii(s)) == LowerAscii(s)
  {
    forall i | 0 <= i < |s| ensures LowerAscii(UpperAscii(s))[i] == LowerAscii(s)[i] {
      LowerUpperChar(s[i]);
    }
  }

  lemma LowerTwice(s: string)
    ensures LowerAscii(LowerAscii(s)) == LowerAscii(s)
  {
  }

  /** The search ignores the case of the term: upper- or lower-casing it first
      shows the same students. */
  lemma SearchIgnoresCase(ss: seq<Student>, term: string)
    ensures SearchStudents(ss, UpperAscii(term)) == SearchStudents(ss, term)
    ensures SearchStudents(ss, LowerAscii(term)) == SearchStudents(ss, term)
  {
    LowerOfUpper(term);
    LowerTwice(term);
    FilterCongruent(ss, (s: Student) => Matches(s, UpperAscii(term)), (s: Student) => Matches(s, term));
    FilterCongruent(ss, (s: Student) => Matches(s, LowerAscii(term)), (s: Student) => Matches(s, term));
  }

  /** ... and the case of the names: a student whose name differs only in case
      is shown exactly when the other is. */
  lemma MatchIgnoresNameCase(s: Student, term: string)
    ensures Matches(s.(name := UpperAscii(s.name)), term) == Matches(s, term)
  {
    LowerOfUpper(s.name);
  }
}
